=== FILE: README.md ===
# VivaStreet clone: bookings, profiles, messages, accounts and the browse pages, in Dafny

This project models the core of a classified-listings and booking service. Its backend is an
Express/Mongoose API and its frontend a React single-page app. The Dafny model covers:

- **Bookings** (`Bookings`, `BookingRoutes`): the booking document and its lifecycle methods
  (`confirm`, `cancel`, `complete`). It also has the pre-save hooks, which stamp `updatedAt` and
  give a new booking its `VV…` confirmation code, and the `reference` virtual. The routes model
  the guards of `POST /api/bookings`, the status switch and notes routing of
  `PATCH /api/bookings/:id/status`, and the `forEach` fold of `GET /api/bookings/stats/overview`.
- **Profiles** (`Profiles`, `ProfileRoutes`): the profile schema with its defaults and bounds,
  `incrementViews` and `setOnlineStatus`. The routes model:
  - the public listing: its filter object, sort switch, pagination and card transform;
  - the detail view;
  - the owner-only partial update;
  - the online toggle.
- **Messages** (`Messages`, `MessageRoutes`): the message schema and `getConversation`. The bulk
  `markAsRead` update and `getUnreadCount` are also modelled. The routes model sending, reading a
  conversation, the inbox aggregation pipeline, the unread badge and soft deletion.
- **Accounts** (`Accounts`): registration, including the default profile made for a model.
  Also login, `/me` and the account update, over a user store and the profile store.
- **Validators** (`Validation`): the phone, time and rate regular expressions, each proved equal
  to the format it is meant to describe. Also the length, range and date rule sets. No file of
  the program imports these rule sets; each route applies its own inline rules. The model relates
  each shared set to the inline rules of the route for the same request.
- **Browse pages** (`SearchFilters`, `HomePage`, `ProfilePage`):
  - the filter panel's record updates;
  - the client-side filter predicate;
  - the in-place array sort of the home page;
  - the image carousel and the lookup by id of the listing page.

Collections are sequences of document values held by store classes, whose methods insert or
write back one document. A Mongoose document whose methods assign fields on `this` is a class
with those fields. Its `Doc()` function gives the stored value, and its `save()` is a method
that runs the pre-save hooks and reports the schema verdict. Handlers that read and write the
collections are methods. Each is proved equal to a pure function of the old collection, and the
lemmas state the handler's promises about that function.

Shared modules:

- `Text`: JavaScript `\s`, `trim`, `parseInt` with NaN as `None`, `includes`, ASCII case
  mapping, and the `isInt`/`isLength`/`isMongoId` checks.
- `Seqs`: filter, count, first match, skip/limit, sums.
- `Sorting`: a stable insertion sort over a total preorder, standing for the database's sort.
- `Requests`: request bodies and the answer type `Outcome`.
- `Aggregation`: BSON equality with and without the ObjectId cast.

The clock, the random suffix of confirmation codes, the password hash and the password check
are parameters. The caller's id and type, which the verified token carries, are inputs.

## Model

| member | source | states |
|---|---|---|
| Validation.MatchPhoneMeaning | backend/utils/validation.js:22 | the phone regex accepts a text iff it is an optional `+` followed by 9 to 15 digits, white space, `-`, `(` or `)` |
| Validation.PhoneShape | backend/utils/validation.js:22 | an accepted phone has 9 to 16 characters and contains no letter |
| Validation.MatchTimeMeaning | backend/utils/validation.js:123 | the time regex accepts a text iff it is H:MM or HH:MM with hour 0-23 and minute 00-59 |
| Validation.FormatTimeAccepted | backend/utils/validation.js:123 | every clock time written HH:MM is accepted and reads back to the same hour and minute |
| Validation.RateRoundTrip | backend/utils/validation.js:78 | every amount written `€<n>/h` passes the rate regex and reads back to n |
| Text.ParseIntDecimal | frontend/src/pages/ProfilePage.js:15 | `parseInt` reads back the decimal text of every non-negative integer |
| Text.ParseIntOfWord | frontend/src/pages/HomePage.js:34-35 | `parseInt` of a text that starts with a letter is NaN |
| Text.TrimShape | backend/utils/validation.js:9 | `trim()` yields a contiguous slice with no white space at either end, and trimming twice changes nothing |
| Requests.NumericValueAt | backend/models/Booking.js:47-55 | the Number an unsigned numeric text casts to is its whole digits, plus its fraction digits over the power of ten of their count |
| Requests.NumericValueOfDecimal | backend/models/Booking.js:47-55 | the decimal text of every natural number is numeric and casts back to that number |
| Seqs.Page | backend/routes/profiles.js:94-96 | `.skip(s).limit(l)` yields at most l consecutive elements starting at position s |
| Seqs.PageCount | backend/routes/profiles.js:133 | `Math.ceil(total / limit)` is the fewest pages of `limit` items that hold `total` |
| Sorting.SortWithSorted | backend/routes/profiles.js:94 | the database sort is a permutation of its input ordered by the sort key |
| Profiles.NewProfile | backend/models/Profile.js:3-132 | a new profile has the given fields, trimmed where the schema trims. It is not verified, featured or online, and is active. Its rating is 0/0, its view counters are 0, it has no images, its category is `Independiente`, its availability is the default one and all three dates are now |
| Profiles.DefaultAvailabilityOpenExceptSunday | backend/models/Profile.js:65-73 | by default every weekday is available and Sunday is not |
| Profiles.NewProfileValid | backend/models/Profile.js:3-132 | a new profile passes the schema iff its owner is set, its trimmed name is non-empty and at most 100 code units, its age is 18-100, its trimmed location is non-empty, its description is non-empty with at most 2000 code units, its ethnicity is one of the seven and both rates are non-empty |
| Profiles.Viewed | backend/models/Profile.js:154-157 | each of the three view counters goes up by exactly one |
| Profiles.Profile.Save | backend/models/Profile.js:135-138 | a save stamps `updatedAt` with the clock when the schema passes and changes nothing when it fails |
| Profiles.Profile.IncrementViews | backend/models/Profile.js:154-159 | the three counters go up by one and nothing else changes except `updatedAt` on a successful save |
| Profiles.Profile.SetOnlineStatus | backend/models/Profile.js:162-166 | `isOnline` becomes the given value (missing, null or a Boolean) and `lastActive` the clock; nothing else changes except `updatedAt` |
| Profiles.Hydrated | backend/models/Profile.js:82-85 | a document a query loads has `isOnline` filled with its default false when the stored document lacks it; a stored null or Boolean is kept, and no other field changes |
| Profiles.CountersAndStatusKeepSchema | backend/models/Profile.js:154-166 | neither filling defaults, view counting nor the online toggle changes whether a profile passes the schema |
| Profiles.FindOwned | backend/routes/profiles.js:234-237 | the lookup finds a profile with the given id and owner exactly when one exists |
| Profiles.ProfileStore.Insert | backend/models/Profile.js:4-9 | an insert succeeds iff the schema passes and neither the id nor the owner is taken (the unique index on userId); the store is extended by exactly that profile |
| Profiles.ProfileStore.Replace | backend/routes/profiles.js:263 | writing back a saved profile replaces exactly the stored one with its id |
| ProfileRoutes.PagingDefaults | backend/routes/profiles.js:30-31 | once the rules pass, page and limit are the values sent or 1 and 20, with limit in 1..50 |
| ProfileRoutes.SharedQueryRules | backend/utils/validation.js:159-189 | the shared `profileQuery` rules accept a query iff the inline rules, page and limit aside, do and the trimmed search has 1 to 100 characters; an empty search passes the route but not the shared rules |
| ProfileRoutes.AllRejectedForAgesAndCategory | backend/routes/profiles.js:9-19 | the `all` sentinel sent for minAge, maxAge or category fails the query rules, so only location and ethnicity ever see it |
| ProfileRoutes.BuildFilter | backend/routes/profiles.js:35-68 | the filter object built clause by clause is the filter the query describes (QueryFilter), and it selects exactly the active profiles that the query's location, age range, ethnicity, category and search admit |
| ProfileRoutes.AgeBoundParsed | backend/routes/profiles.js:41-51 | under the rules, the handler's presence test and its `parseInt` agree with the bound the query denotes |
| ProfileRoutes.QueryFilterAdmits | backend/routes/profiles.js:35-68 | the filter whose clauses hold the values the query sent selects exactly what the query admits |
| ProfileRoutes.SortKeyOf | backend/routes/profiles.js:72-90 | an absent or unknown `sortBy` sorts as `featured` |
| ProfileRoutes.OrderIsTotalPreorder | backend/routes/profiles.js:72-90 | every sort key orders the profiles totally, so the sort is well defined |
| ProfileRoutes.PriceSortIsTextual | backend/routes/profiles.js:79-84 | the rates are compared as text, so `price-low` places `€150/h` before `€90/h` |
| ProfileRoutes.EncodeURIComponent | backend/routes/profiles.js:111 | the encoded name holds only unreserved characters and `%` escapes |
| ProfileRoutes.EncodeUnreservedIdentity | backend/routes/profiles.js:111 | a name of unreserved characters is left as it is |
| ProfileRoutes.EncodeSpace | backend/routes/profiles.js:111 | a space is encoded as `%20` |
| ProfileRoutes.PlaceholderKeepsOneParameter | backend/routes/profiles.js:110-112 | whatever the name, the placeholder URL keeps its base and has no `&`, `#`, space or second `?` after it |
| ProfileRoutes.ImageUrls | backend/routes/profiles.js:110-112 | a profile with images lists their URLs in stored order; one without lists exactly one placeholder made from its name |
| ProfileRoutes.Cards | backend/routes/profiles.js:104-123 | the transform maps each profile of the page to its card, in order |
| ProfileRoutes.PageNumber | backend/routes/profiles.js:30 | the page number used is at least 1 |
| ProfileRoutes.ListingLimit | backend/routes/profiles.js:31 | the limit used lies in 1..50 |
| ProfileRoutes.GetProfiles | backend/routes/profiles.js:9-144 | the listing built through the filter object equals the listing the query specifies |
| ProfileRoutes.ListingSelects | backend/routes/profiles.js:35-96 | every profile on the page is a stored active profile that the query admits, and the page is in sort order |
| ProfileRoutes.ListingPaging | backend/routes/profiles.js:30-134 | the page holds at most `limit` profiles starting at `(page-1)*limit`; `total` counts all matches and `pages` is ⌈total/limit⌉ (lines 30-32 for the paging numbers, 94-96 for skip and limit, 128-134 for the answer) |
| ProfileRoutes.ListingComplete | backend/routes/profiles.js:35-68 | every stored profile that the query admits is among the ranked matches |
| ProfileRoutes.GetProfile | backend/routes/profiles.js:148-201 | the detail view on the store equals its specification: counting the view through `incrementViews` on the document `findById` loads, defaults filled, and writing it back |
| ProfileRoutes.ViewCountsTheVisit | backend/routes/profiles.js:150-161 | the view succeeds iff the id names an active profile. The answer shows the visit already counted. The stored profile is written back as `findById` loaded it, defaults filled, with its three counters one higher; a failed view changes nothing |
| ProfileRoutes.DetailFillsOnline | backend/routes/profiles.js:150-175 | for a profile stored without `isOnline`, the `lean()` listing leaves `online` out while the detail view answers `online: false` and saves it; a stored null or Boolean is shown as stored by both |
| ProfileRoutes.SentRate | backend/routes/profiles.js:254-260 | a rate is copied iff it was sent and is non-empty once trimmed |
| ProfileRoutes.SharedUpdateRules | backend/utils/validation.js:43-85 | the shared `profileUpdate` rules accept a body iff the inline update rules do, the trimmed location has 2 to 100 characters and each trimmed rate matches the rate format; a location `x` passes the route but not the shared rules |
| ProfileRoutes.PutProfile | backend/routes/profiles.js:205-279 | the update on the store equals its specification: the loaded document is changed and saved, then written back |
| ProfileRoutes.ApplyUpdate | backend/routes/profiles.js:247-261 | the fields the change carries are written onto the loaded document, and no other field changes |
| ProfileRoutes.UpdateOnlyByOwner | backend/routes/profiles.js:226-243 | a successful update comes from a model who owns the profile; any other caller leaves the collection as it was |
| ProfileRoutes.UpdateTouchesOnlySentFields | backend/routes/profiles.js:247-263 | after a successful update name and age hold the sent values when sent. Every listed field that was not sent keeps its value, and a rate keeps its value unless a non-empty one is sent. `updatedAt` is the clock, a missing `isOnline` is saved as its default false, and no other field changes |
| ProfileRoutes.CastBoolean | backend/routes/profiles.js:306 | Mongoose's Boolean cast of `isOnline`: absent unsets the field, JSON `null` stores null; `true`, `'true'`, `1`, `'1'` and `'yes'` store true; `false`, `'false'`, `0`, `'0'` and `'no'` store false; any other value is refused |
| ProfileRoutes.CastNull | backend/routes/profiles.js:306 | JSON `null` stores null, while the text `'null'` and the number 2 are refused |
| ProfileRoutes.PatchOnlineStatus | backend/routes/profiles.js:283-319 | the toggle on the store equals its specification through `setOnlineStatus` |
| ProfileRoutes.ToggleEffects | backend/routes/profiles.js:294-306 | for the owning model, a value the Boolean cast accepts sets `isOnline` to the cast state (missing, null or a Boolean), and `lastActive` and `updatedAt` on that profile only; a value it refuses is answered 500, not 400, and nothing changes |
| ProfileRoutes.UnsetToggleThenView | backend/routes/profiles.js:294-306 | a toggle without `isOnline` unsets it, so the listing leaves `online` out and the next detail view answers and stores false; a toggle to `null` is shown as null by both |
| Bookings.ParseStatus | backend/models/Booking.js:61-65 | a text names a status iff it is one of the five enumeration values, and then names exactly that one |
| Bookings.ConfirmationCodeShape | backend/models/Booking.js:146 | a generated code is `VV`, then the timestamp's last 8 digits (all 8 once the clock reaches 10^7), then up to four base-36 characters upper-cased, so its tail is digits and capitals only |
| Bookings.Saved | backend/models/Booking.js:138-149 | a save stamps `updatedAt`, gives a new document its confirmation code, keeps an existing one's code and changes nothing else |
| Bookings.CodeStableAcrossSaves | backend/models/Booking.js:144-149 | once stored, no number of later saves changes a booking's confirmation code, and the last save's instant is its `updatedAt` |
| Bookings.Reference | backend/models/Booking.js:159-161 | the reference is the confirmation code when there is one, otherwise the id's last 8 characters upper-cased |
| Bookings.ReferenceAfterFirstSave | backend/models/Booking.js:144-161 | after its first save a booking's reference is its generated code, which starts with `VV` |
| Bookings.Booking.Save | backend/models/Booking.js:138-149 | the document afterwards is the hooks' result when the schema passes and unchanged otherwise; it is no longer new once saved |
| Bookings.Booking.Confirm | backend/models/Booking.js:164-167 | the status becomes confirmed, then the document is saved; nothing else changes |
| Bookings.Booking.Cancel | backend/models/Booking.js:170-176 | status, canceller, cancellation instant and reason are set, then the document is saved; nothing else changes |
| Bookings.Booking.Complete | backend/models/Booking.js:179-183 | the status becomes completed and `completedAt` the clock, then the document is saved; nothing else changes |
| Bookings.LifecycleEffects | backend/models/Booking.js:164-183 | on a stored booking, each lifecycle method changes exactly its own fields and `updatedAt` |
| Bookings.LifecycleKeepsSchema | backend/models/Booking.js:61-135 | confirming and completing keep a valid booking valid; cancelling does iff the reason has at most 500 characters |
| Bookings.CodeInUse | backend/models/Booking.js:88-93 | a code is in use iff some stored booking carries it |
| Bookings.BookingStore.Insert | backend/models/Booking.js:88-93 | an insert succeeds iff the id is new and the confirmation code is not in use; the store is extended by exactly that booking |
| Bookings.GroupByStatus | backend/models/Booking.js:193-198 | each group carries a status that occurs and the number of bookings with it |
| Bookings.StatusesPartition | backend/models/Booking.js:61-65 | every booking has exactly one of the five statuses |
| Bookings.GetStatsTotal | backend/models/Booking.js:186-200 | the group counts sum to the number of bookings that match the caller (with the caller's id cast to an ObjectId, the corrected match of the Findings table) |
| Bookings.GroupByStatusPresence | backend/models/Booking.js:193-198 | a status has a group iff some booking has it |
| Bookings.GetStatsCounts | backend/models/Booking.js:186-200 | each status's group counts the caller's bookings with that status: customers match on customerId, everyone else on modelId (with the caller's id cast to an ObjectId, the corrected match of the Findings table) |
| Bookings.GetStatsAsWrittenIsEmpty | backend/models/Booking.js:186-192 | as written, the uncast `$match` makes the stats empty for every caller (see Findings) |
| BookingRoutes.SharedRulesStricter | backend/routes/bookings.js:10-20 | every body the shared `createBooking` rule set accepts also passes the route's own rules |
| BookingRoutes.SharedRulesCreate | backend/utils/validation.js:103-145 | for a body the shared `createBooking` rule set accepts, from a customer, for an existing profile of that model, with no conflict: creation succeeds iff the payment method and notes fit the schema, and a created booking is dated after the clock, lasts 1 to 24 hours, lists at least one service, and has a valid time and phone |
| BookingRoutes.RouteRulesAcceptAnyTime | backend/routes/bookings.js:10-20 | the route's rules accept a time such as `soon`, which the shared rule set refuses |
| BookingRoutes.HasConflict | backend/routes/bookings.js:69-73 | there is a conflict iff a pending or confirmed booking of the model holds the same instant |
| BookingRoutes.ClosedBookingsNeverBlock | backend/routes/bookings.js:69-80 | cancelled, completed and no-show bookings never cause a conflict |
| BookingRoutes.Persist | backend/routes/bookings.js:103-110 | saving succeeds iff the schema passes and neither the id nor the new code is taken; it answers 201 with the saved booking, or 500 |
| BookingRoutes.CreateBooking | backend/routes/bookings.js:10-125 | creation on the store equals its specification, and the store grows by the new booking only on success |
| BookingRoutes.CreateOnlyByCustomers | backend/routes/bookings.js:32-38 | a caller who is not a customer gets 403 |
| BookingRoutes.CreateNeedsOwnedProfile | backend/routes/bookings.js:55-66 | without a profile of that id owned by that model, a customer gets 404 |
| BookingRoutes.CreateConflict | backend/routes/bookings.js:68-80 | with an owned profile, the answer is 409 iff a pending or confirmed booking of the model holds the instant |
| BookingRoutes.CreatedBookingFields | backend/routes/bookings.js:83-101 | a created booking has the caller as customer and the sent model and profile, and its status is pending. Its hourly rate and total are the Number values of the sent amount texts, in EUR. `customerNotes` defaults to empty, `paymentMethod` to `cash` and an absent location to an empty one. It carries a fresh confirmation code, and both dates are now |
| BookingRoutes.TotalAmountUnchecked | backend/routes/bookings.js:83-101 | the total amount is never checked against rate × duration: any numeric total gives the same answer code |
| BookingRoutes.ViewBooking | backend/routes/bookings.js:189-228 | a view succeeds iff the id names a booking of which the caller is customer or model; a non-participant gets 403 |
| BookingRoutes.TargetStatus | backend/routes/bookings.js:231-233 | each accepted target names a status other than pending |
| BookingRoutes.Switched | backend/routes/bookings.js:267-302 | the switch sets the target status and keeps id, parties, code and notes |
| BookingRoutes.SaveSwitched | backend/routes/bookings.js:300-320 | the two saves write a valid document with the same id and code iff the switched document passes the schema; success is 200 with that document, failure 500 |
| BookingRoutes.ApplyStatus | backend/routes/bookings.js:267-312 | the switch and the notes, applied through the booking's methods and `save()`, give the specified document and answer |
| BookingRoutes.UpdateStatus | backend/routes/bookings.js:231-327 | the status update on the store equals its specification, each successful save being written back |
| BookingRoutes.OutsidersCannotUpdate | backend/routes/bookings.js:253-262 | someone who is neither customer nor model of the booking gets 403, and nothing changes |
| BookingRoutes.OnlyModelsConfirmCompleteOrMarkNoShow | backend/routes/bookings.js:267-297 | confirming, completing and marking a no-show fail for a caller who is not a model, and nothing changes |
| BookingRoutes.CurrentStatusIgnored | backend/routes/bookings.js:267-302 | the answer does not depend on the booking's current status |
| BookingRoutes.CancelledBookingCanBeConfirmed | backend/routes/bookings.js:267-276 | for example, the model can confirm a cancelled booking |
| BookingRoutes.NotesRouting | backend/routes/bookings.js:278-312 | non-empty trimmed notes overwrite `customerNotes` for a customer and `modelNotes` otherwise, and become the reason on a cancel |
| BookingRoutes.FoldOverview | backend/routes/bookings.js:336-347 | the fold's total is the sum of the group counts. Each of the four fixed keys holds its group's count, or 0 when there is none, and the `no-show` key appears only when that group exists |
| BookingRoutes.StatsOverview | backend/routes/bookings.js:332-347 | the overview's total is the number of the caller's bookings, and each key counts the caller's bookings with that status (with the caller's id cast to an ObjectId, the corrected match of the Findings table) |
| Messages.NewMessage | backend/models/Message.js:3-53 | a new message has the given references, content and type; it is unread with no read time, not deleted, and both dates are now |
| Messages.NewMessageValid | backend/models/Message.js:3-53 | a new text message passes the schema iff its references are ObjectIds and its content is non-empty with at most 1000 characters |
| Messages.Message.Save | backend/models/Message.js:56-59 | a save stamps `updatedAt` when the schema passes and changes nothing when it fails |
| Messages.ConversationSymmetric | backend/models/Message.js:70-74 | the conversation is the same whichever of the two users asks |
| Messages.ConversationContents | backend/models/Message.js:67-83 | the page holds at most `limit` live messages between the two users about the profile, newest first, starting after `(page-1)*limit` of them |
| Messages.MarkedRead | backend/models/Message.js:86-96 | the update keeps the collection's length and applies the read mark to each message in place |
| Messages.MarkAsReadEffect | backend/models/Message.js:86-96 | exactly the unread messages from the other user to the caller about the profile become read at the clock; every other message is unchanged |
| Messages.MarkAsReadLeavesNoneUnread | backend/models/Message.js:86-96 | afterwards no message from the other user to the caller about the profile is unread |
| Messages.MarkAsReadIdempotent | backend/models/Message.js:87-92 | a second mark changes nothing |
| Messages.MarkAsReadKeepsStore | backend/models/Message.js:86-96 | marking keeps ids unique and every document valid |
| Messages.UnreadAfterMark | backend/models/Message.js:86-105 | after marking, the caller's unread count drops by the live messages marked, and every other user's count is unchanged |
| Messages.MessageStore.Insert | backend/routes/messages.js:36-44 | an insert succeeds iff the schema passes and the id is new; the store is extended by exactly that message |
| Messages.MessageStore.MarkAsRead | backend/models/Message.js:86-96 | the bulk update leaves the store equal to the marked collection |
| MessageRoutes.SendAccepted | backend/routes/messages.js:9-65 | a send succeeds iff the rules pass, the profile exists, the sender is an ObjectId, the trimmed content has 1 to 1000 UTF-16 units and the id is new. The stored message is a 201 answer with the caller as sender, the sent receiver and profile, the trimmed content and type `text`; it is unread and not deleted |
| MessageRoutes.SharedSendRules | backend/utils/validation.js:88-100 | the shared `sendMessage` rules accept a body iff the inline send rules do and some visible content is left after trimming; blank content passes the route but not the shared rules |
| MessageRoutes.SendReceiverUnchecked | backend/routes/messages.js:27-42 | the receiver is never checked against the profile's owner: any valid receiver gives the same answer code |
| MessageRoutes.BlankContentIsServerError | backend/routes/messages.js:9-65 | content of only white space passes the rules, is trimmed to nothing and fails the schema: 500, not 400 |
| MessageRoutes.SendMessage | backend/routes/messages.js:9-65 | sending on the store equals its specification, and the store grows only on success |
| MessageRoutes.PageOf | backend/routes/messages.js:83 | the page used is at least 1 |
| MessageRoutes.ConversationLimit | backend/routes/messages.js:84 | the limit used is the one sent, or 20, and lies in 1..50 |
| MessageRoutes.ConversationReply | backend/routes/messages.js:87-101 | the reply holds at most `limit` messages of the conversation, oldest first |
| MessageRoutes.ReadConversation | backend/routes/messages.js:68-116 | the page is read first, then the other party's messages to the caller are marked read; nothing changes on failure |
| MessageRoutes.PageRulesCapSharedRules | backend/routes/messages.js:69-70 | the conversation route's own page rules accept a query iff the shared pagination rules do and the limit is at most 50; a limit of 100, which the shared rules allow, is refused |
| MessageRoutes.GroupsPartition | backend/routes/messages.js:135-147 | there is one inbox group per key, and every message's key has a group |
| MessageRoutes.GroupsEntries | backend/routes/messages.js:135-161 | each group's last message and date come from its first message in the input, and its unread count is its unread messages to the caller |
| MessageRoutes.GroupsUnreadTotal | backend/routes/messages.js:148-161 | the groups' unread counts add up to the caller's unread messages |
| MessageRoutes.TimelineFacts | backend/routes/messages.js:121-133 | the timeline holds exactly the caller's live messages, newest first (with the caller's id cast to an ObjectId, the corrected match of the Findings table) |
| MessageRoutes.FirstIsNewest | backend/routes/messages.js:131-147 | the first message with a key in the timeline is a newest one with that key |
| MessageRoutes.GroupFacts | backend/routes/messages.js:131-161 | a group's last message is a newest message of its conversation, and its unread count is that conversation's unread messages to the caller (with the caller's id cast to an ObjectId, the corrected match of the Findings table) |
| MessageRoutes.InboxFromGroups | backend/routes/messages.js:193-198 | the inbox is the groups sorted by last message date, newest first, and at most 50 of them (with the caller's id cast to an ObjectId, the corrected match of the Findings table) |
| MessageRoutes.InboxEntries | backend/routes/messages.js:119-215 | each inbox line is keyed by profile and other party, carries its conversation's newest message and unread count, and the lines are newest first (with the caller's id cast to an ObjectId, the corrected match of the Findings table) |
| MessageRoutes.InboxListsAll | backend/routes/messages.js:119-198 | with at most 50 conversations, every live message of the caller's has its conversation listed (with the caller's id cast to an ObjectId, the corrected match of the Findings table) |
| MessageRoutes.InboxUnreadTotal | backend/routes/messages.js:148-198 | with at most 50 conversations, the inbox's unread counts sum to the caller's unread count (with the caller's id cast to an ObjectId, the corrected match of the Findings table) |
| MessageRoutes.InboxAsWrittenIsEmpty | backend/routes/messages.js:121-129 | as written, the uncast `$match` makes the inbox empty for every caller (see Findings) |
| MessageRoutes.UnreadCountMatchesInbox | backend/routes/messages.js:218-227 | the unread badge, whose `countDocuments` casts the id, equals the sum of the unread counts of the corrected inbox of the Findings table when there are at most 50 conversations; the inbox as written is empty, so its sum is 0 |
| MessageRoutes.FindOwnMessage | backend/routes/messages.js:241-247 | the lookup finds a message with that id of which the caller is sender or receiver exactly when one exists |
| MessageRoutes.DeleteAllowed | backend/routes/messages.js:239-271 | with well-formed ids, a delete succeeds iff the message exists and the caller sent or received it, and the message changes only in `isDeleted` and `updatedAt`; otherwise the answer is 404, as for a missing message |
| MessageRoutes.DeleteHides | backend/routes/messages.js:256-257 | a deleted message is in no conversation, and each user's unread count drops by one if it counted for them and is otherwise unchanged |
| MessageRoutes.DeleteMessage | backend/routes/messages.js:239-271 | deletion on the store equals its specification, writing back only the flagged message |
| Aggregation.CastDecides | backend/routes/messages.js:121-129 | an uncast comparison of a stored ObjectId with the token's text id never holds; a cast one holds iff the hex texts are equal |
| Accounts.ClaimsOf | backend/routes/auth.js:75-79 | the token's claims are the user's id and type |
| Accounts.FindBy | backend/routes/auth.js:35 | the lookup by e-mail address or by id finds a user with that key, and finds none exactly when no stored user has it |
| Accounts.SharedRegistrationRules | backend/utils/validation.js:6-30 | the shared `userRegistration` rules accept a body iff the inline register rules do and the trimmed phone matches the phone format; a phone such as `abc` passes the route but not the shared rules |
| Accounts.SharedLoginRules | backend/utils/validation.js:32-40 | the shared `userLogin` rules accept exactly the bodies the inline login rules accept |
| Accounts.UserStore.Insert | backend/routes/auth.js:53 | an insert succeeds iff the id is new; the store is extended by exactly that user |
| Accounts.NewUser | backend/routes/auth.js:44-51 | the new user has the trimmed name and phone, the normalized address, the hash, the type, an age of 18-100 and no last login |
| Accounts.DefaultProfile | backend/routes/auth.js:57-70 | a model's profile belongs to the user, takes its name and age, and has location Madrid, one service `Experiencia de Novia`, ethnicity Europea, category Independiente and rates €150/h and €200/h |
| Accounts.RegisterUser | backend/routes/auth.js:13-97 | registration on the two stores equals its specification |
| Accounts.StoreUser | backend/routes/auth.js:44-72 | writing the user, then a model's profile, on the stores equals its specification |
| Accounts.RegisterRejectsTakenEmail | backend/routes/auth.js:35-41 | an address already stored gets 400, and neither users nor profiles change |
| Accounts.StoreCreates | backend/routes/auth.js:53-72 | a successful store adds the user, and adds the profile exactly when the user is a model |
| Accounts.RegisterCreates | backend/routes/auth.js:44-85 | a successful registration answers 201 with the user and its claims and appends the user. A customer leaves the profiles unchanged, and a model gains exactly one default profile, named after the user |
| Accounts.RegisterKeepsUnique | backend/routes/auth.js:35-72 | registration keeps addresses distinct and each user owning at most one profile |
| Accounts.LoginUser | backend/routes/auth.js:100-162 | login on the store equals its specification, writing back the stamped user |
| Accounts.LoginFailuresAlike | backend/routes/auth.js:118-133 | an unknown address and a wrong password get the same 401 answer, and nothing changes |
| Accounts.LoginOnlyStamps | backend/routes/auth.js:136-137 | a successful login sets `lastLogin` to the clock on that user and changes nothing else |
| Accounts.LoginKeepsUnique | backend/routes/auth.js:136-137 | login keeps addresses distinct |
| Accounts.Me | backend/routes/auth.js:165-188 | a successful answer is 200 with the stored user whose id the token carries |
| Accounts.MeNotFound | backend/routes/auth.js:167-173 | for a well-formed id, /me answers 404 iff no stored user has that id |
| Accounts.TruthyTrimmed | backend/routes/auth.js:216-217 | a value is assigned iff it was sent and is non-empty once trimmed, and then it is the trimmed value |
| Accounts.ApplyChange | backend/routes/auth.js:216-218 | the truthy values are assigned to the loaded user; every other field keeps its value |
| Accounts.PutAccount | backend/routes/auth.js:191-236 | the update on the store equals its specification |
| Accounts.UpdateTouchesOnlyTruthy | backend/routes/auth.js:215-218 | after a successful update name, phone and age hold the truthy sent values or their old ones, and every other field is unchanged |
| Accounts.UpdateKeepsUnique | backend/routes/auth.js:206-220 | the update keeps addresses distinct |
| SearchFilters.HandleFilterChange | frontend/src/components/SearchFilters.js:12-17 | the changed key holds the new value and every other key is unchanged |
| SearchFilters.ClearFilters | frontend/src/components/SearchFilters.js:19-35 | clearing empties the search term and sets every text filter to `''` and every checkbox to false |
| SearchFilters.ClearedNothingTruthy | frontend/src/components/SearchFilters.js:19-33 | after clearing no filter is truthy |
| SearchFilters.ClearIdempotent | frontend/src/components/SearchFilters.js:19-35 | clearing twice is clearing once, and clearing forgets any earlier change |
| SearchFilters.ChangeOverwrites | frontend/src/components/SearchFilters.js:12-17 | a second change of the same key wins, and writing back a key's own value changes nothing |
| HomePage.FilteredExactly | frontend/src/pages/HomePage.js:28-44 | a listing is shown iff it is in the data and passes every filter (with `'all'` read as no choice, the corrected filter of the Findings table) |
| HomePage.InitialShowsNothing | frontend/src/pages/HomePage.js:10-34 | as written, with the initial `'all'` filters no listing is shown, since `parseInt('all')` is NaN |
| HomePage.InitialShowsEverything | frontend/src/pages/HomePage.js:10-25 | with `'all'` read as no choice, the initial record and an empty search show every listing |
| HomePage.AdmitsAgreesWithoutAll | frontend/src/pages/HomePage.js:33-37 | reading `'all'` as no choice changes nothing for a record in which no select filter is `'all'` |
| HomePage.AllIsCleared | frontend/src/components/SearchFilters.js:66 | choosing "All" for a select filter shows what clearing that filter shows |
| HomePage.ClearedShowsEverything | frontend/src/pages/HomePage.js:28-44 | after clearing, every listing is shown |
| HomePage.UnreadFilters | frontend/src/pages/HomePage.js:28-44 | the services, price, photo and video filters never affect what is shown (with `'all'` read as no choice, the corrected filter of the Findings table) |
| HomePage.SearchIgnoresCase | frontend/src/pages/HomePage.js:29-31 | upper- or lower-casing the term does not change what is shown (with `'all'` read as no choice, the corrected filter of the Findings table) |
| HomePage.PriceText | frontend/src/pages/HomePage.js:56-57 | the price text has no `£`, `/` or `h` left |
| HomePage.PriceOfRate | frontend/src/pages/HomePage.js:56-57 | a rate written `£<n>/h` has price n |
| HomePage.FeaturedFirst | frontend/src/pages/HomePage.js:49 | under the featured sort no listing that is not featured precedes a featured one |
| HomePage.CheapestFirst | frontend/src/pages/HomePage.js:54-59 | under `price-low` prices never decrease |
| HomePage.SortInPlace | frontend/src/pages/HomePage.js:47-67 | the in-place sort leaves the array equal to the insertion sort of its old contents: a permutation of them, keys non-increasing, and elements of equal key in their old order, as the stable `Array.prototype.sort` does |
| HomePage.InsertPermutes | frontend/src/pages/HomePage.js:47-67 | inserting an element into a run adds exactly that element |
| HomePage.InsertSorted | frontend/src/pages/HomePage.js:47-67 | inserting into a run with non-increasing keys keeps the keys non-increasing |
| HomePage.InsertStable | frontend/src/pages/HomePage.js:47-67 | an inserted element comes after every element with the same key |
| HomePage.InsertionSortSorts | frontend/src/pages/HomePage.js:47-67 | the insertion sort orders keys non-increasingly, keeps the elements, and keeps the order of elements that share a key |
| HomePage.FilteredProfiles | frontend/src/pages/HomePage.js:27-73 | the result is a permutation of the filtered listings and holds exactly the listings that pass. It is ordered by the chosen sort, with listings of equal key in their data order, and keeps the whole data order for an unknown sort (with `'all'` read as no choice, the corrected filter of the Findings table) |
| ProfilePage.FindProfile | frontend/src/pages/ProfilePage.js:15 | the found listing is the first whose id equals `parseInt` of the route's id; nothing is found when that is NaN or no id matches |
| ProfilePage.FindByOwnId | frontend/src/pages/ProfilePage.js:15 | with distinct ids, the decimal text of a listing's id finds that listing |
| ProfilePage.StepsAreModular | frontend/src/pages/ProfilePage.js:33-40 | `next` from index i is (i+1) mod n, wrapping from the last image to the first; `prev` is (i-1+n) mod n, wrapping from the first to the last |
| ProfilePage.RoundTrips | frontend/src/pages/ProfilePage.js:32-42 | `next` then `prev`, or `prev` then `next`, restores the index |
| ProfilePage.RunStaysInRange | frontend/src/pages/ProfilePage.js:32-42 | from an image that exists, any run of arrow and on-screen thumbnail presses (the thumbnails of line 146) keeps the index on an image that exists, and a thumbnail press shows exactly the pressed image |
| ProfilePage.NextsAdvance | frontend/src/pages/ProfilePage.js:33-36 | k presses of `next` advance the index by k modulo the number of images |
| ProfilePage.FullCycle | frontend/src/pages/ProfilePage.js:33-36 | one `next` per image returns to the image shown before |

## Left out

- Persistence, `populate` and the index declarations are outside the model. Collections are
  sequences and each query is a function over them. Unique indexes appear as conditions under
  which an insert fails. The `$lookup` joins of the inbox pipeline, which only attach names,
  are not modelled.
- Mongo sorts are modelled as a stable insertion sort, so ties keep insertion order; the
  database promises no order for ties. The `$regex` search is a case-insensitive substring
  match over ASCII case mapping. Regular-expression metacharacters in a search term are not
  modelled.
- An ObjectId is its 24-character hexadecimal text. A reference cast from another string,
  such as a 12-byte string, is not modelled.
- JWT signing and verification, password hashing and `comparePassword` are parameters.
  `backend/middleware/auth.js` and the `authenticateToken` copy in each route file are not
  modelled; the caller's id and type are inputs.
- backend/models/User.js is not part of this model. A user save is taken to succeed unless the
  id is taken. Distinct e-mail addresses are a proved invariant of the handlers, not a store
  index. `normalizeEmail` is modelled as lower-casing only, and the `isEmail` syntax check as
  presence only.
- The clock (`Date.now()`, `new Date()`) and `Math.random()` are parameters.
- Profiles.Hydrated: only `isOnline` can be missing from a stored profile here, so it is the only
  default a query fills in; every other path of a stored profile is always present.
- The conflict check of `POST /api/bookings` is a read followed by a write with no transaction.
  Requests are modelled one at a time, so two racing requests are not.
- Dates are integers (instants). A date that is not ISO 8601 text is None in the request types.
- A body whose list field (`services`) holds something other than an array is not expressible
  in the request types. `PUT /api/profiles/:id` answers such a body with 400.
- Message attachments, ratings and reviews, and the `image`/`system` message types beyond the
  enumeration, are not exercised by any modelled handler.
- ProfileRoutes.PutProfile: the source copies fields one at a time in a `forEach`. The model
  writes the merged document in one assignment, which is the same state.
- HomePage.Price: `parseInt` returning NaN for a price is taken as 0. The comparator's result
  for NaN is implementation-defined in JavaScript.
- HomePage.SortInPlace: `Array.prototype.sort` may use any stable algorithm; the model uses an
  insertion sort. Since a stable sort by a key has only one result, this is the same array.
- HomePage.FilteredProfiles: the filter keys are the panel's twelve. Arbitrary extra keys in the
  record are not modelled.
- Requests.NumericValue: amounts are exact rationals. The rounding of a decimal text to a
  JavaScript Number (IEEE 754 double) is not modelled.
- The shared `mongoId` rule set (backend/utils/validation.js:192-196) is `isMongoId` on a route
  parameter, which the model states as `Text.IsMongoId`. No route applies it; a malformed id
  reaches the database cast, which the model answers with 500 as the routes do.
- Accounts.DefaultProfile: the services list is stated element by element (one element,
  `Experiencia de Novia`) rather than as a whole.
- Case mapping (`toLowerCase`, `toUpperCase`) covers ASCII letters only. Unicode case mapping is
  not modelled.
- backend/server.js, backend/routes/status.js, the other frontend pages and components, the
  mock data and the constants file are not part of this model.

## Findings

| source | as written | input that shows it | evidently intended | confidence | as-written member | corrected member |
|---|---|---|---|---|---|---|
| backend/routes/messages.js:121-129 | the inbox `$match` compares `senderId`/`receiverId` with `req.userId`, the token's text id; an aggregation does not cast it to an ObjectId | any collection with a live message between users A and B, requested by A: no stored ObjectId equals the text, so the inbox is empty | match the caller's messages with the id cast to an ObjectId | not executed; high | MessageRoutes.InboxAsWrittenIsEmpty | MessageRoutes.InboxEntries |
| backend/models/Booking.js:186-192 | `getStats` builds its `$match` from the uncast `userId` string | a customer with bookings requests the stats overview: every count is 0 | match on the cast id, so each status counts the caller's bookings | not executed; high | Bookings.GetStatsAsWrittenIsEmpty | Bookings.GetStatsCounts |
| frontend/src/pages/HomePage.js:10-35 | the select filters start as `'all'`, the value of their "All" choices, and the filter tests them as a real location, age, ethnicity or category | the page as first opened, or after choosing "All locations": `parseInt('all')` is NaN, so no age passes and nothing is shown | `'all'` means the filter is not applied | not executed; high | HomePage.InitialShowsNothing | HomePage.InitialShowsEverything |

=== FILE: aggregation.dfy ===
/**
 * Equality as the database's aggregation pipeline applies it. A `find` filter
 * is cast to the schema's types first, so a hex text compared with an ObjectId
 * field is turned into an ObjectId. An `aggregate` pipeline is passed through
 * uncast, so a `$match` or `$eq` compares the values as given, and values of
 * different BSON types are never equal.
 *
 * The user id the handlers take from the verified token is text, because the
 * token payload was serialized as JSON when it was signed. A stored reference
 * field is an ObjectId.
 */
module Aggregation {
  /** A BSON value as the pipeline sees it: an ObjectId or a string. */
  datatype Bson = ObjectId(hex: string) | Text(s: string)

  /** `$eq`, and the equality of a `$match` field: same type and same value. */
  predicate BsonEq(x: Bson, y: Bson) {
    match (x, y)
    case (ObjectId(a), ObjectId(b)) => a == b
    case (Text(a), Text(b)) => a == b
    case _ => false
  }

  /** A stored reference field compared, uncast, with the token's user id. */
  predicate RefEqualsTokenId(stored: string, tokenId: string) {
    BsonEq(ObjectId(stored), Text(tokenId))
  }

  /** The same comparison once cast, as a `find` filter does it. */
  predicate RefEqualsCastId(stored: string, tokenId: string) {
    BsonEq(ObjectId(stored), ObjectId(tokenId))
  }

  /** Uncast, the comparison never holds; cast, it holds exactly for the same hex text. */
  lemma CastDecides(stored: string, tokenId: string)
    ensures !RefEqualsTokenId(stored, tokenId)
    ensures RefEqualsCastId(stored, tokenId) <==> stored == tokenId
  {
  }
}

=== FILE: auth.dfy ===
/**
 * The account store behind /api/auth (backend/routes/auth.js): registration with
 * its default profile for models, login, the current user, and the account update.
 *
 * backend/models/User.js is not part of this model. A user document is taken to
 * hold the fields the handlers set and read; its save is taken to accept every
 * document the route rules let through, except one whose `_id` is already
 * stored. Password hashing and its comparison are parameters, and so is the
 * token: a session carries the claims the token is signed over.
 */
module Accounts {
  import opened Text
  import opened Seqs
  import opened Requests
  import Profiles
  import Validation

  const ServerError := "Error del servidor"
  const BadData := "Datos de validación incorrectos"
  const EmailTaken := "El usuario ya existe con este email"
  const BadCredentials := "Credenciales inválidas"
  const UserNotFound := "Usuario no encontrado"

  /** A stored user. `passwordHash` is what the hashing pre-save hook wrote; `lastLogin` is None until the first login. */
  datatype UserDoc = UserDoc(
    id: string, name: string, email: string, passwordHash: string,
    phone: string, age: int, userType: string, lastLogin: Option<int>)

  /** What a successful register or login answers: the user and the claims of the signed token. */
  datatype Session = Session(user: UserDoc, claims: Caller)

  /** The token's claims for a user: its id and its type. */
  function ClaimsOf(u: UserDoc): (c: Caller)
    ensures c.userId == u.id && c.userType == u.userType
  {
    Caller(u.id, u.userType)
  }

  /**
   * `normalizeEmail()`: the address in lower case. The provider-specific rewrites
   * (dropping dots and `+` tags of Gmail addresses) are not modelled.
   */
  function NormalizeEmail(e: string): string {
    ToLower(e)
  }

  // ------------------------------------------------------------ collection

  predicate UniqueIds(us: seq<UserDoc>) {
    forall i, j :: 0 <= i < j < |us| ==> us[i].id != us[j].id
  }

  /** No two stored users share an e-mail address: the invariant registration keeps. */
  predicate UniqueEmails(us: seq<UserDoc>) {
    forall i, j :: 0 <= i < j < |us| ==> us[i].email != us[j].email
  }

  /** The fields a user is looked up by. */
  datatype UserKey = ById | ByEmail

  function KeyOf(u: UserDoc, k: UserKey): string {
    match k
    case ById => u.id
    case ByEmail => u.email
  }

  /** `User.findById(id)` and `User.findByEmail(email)`: the first user whose field holds v. */
  function FindBy(us: seq<UserDoc>, k: UserKey, v: string): (r: Option<nat>)
    ensures r.Some? ==> r.value < |us| && KeyOf(us[r.value], k) == v
    ensures r.None? ==> forall i :: 0 <= i < |us| ==> KeyOf(us[i], k) != v
  {
    FindFirst(us, (u: UserDoc) => KeyOf(u, k) == v)
  }

  /** A Mongoose document of the User model; the handlers assign its fields and save it. */
  class User {
    const id: string
    var name: string
    const email: string
    const passwordHash: string
    var phone: string
    var age: int
    const userType: string
    var lastLogin: Option<int>

    /** The stored form of this document. */
    function Doc(): (d: UserDoc)
      reads this
      ensures d.id == id && d.email == email && d.userType == userType
    {
      UserDoc(id, name, email, passwordHash, phone, age, userType, lastLogin)
    }

    /** The document a query returns for a stored user. */
    constructor Load(d: UserDoc)
      ensures Doc() == d
    {
      id, name, email, passwordHash := d.id, d.name, d.email, d.passwordHash;
      phone, age, userType, lastLogin := d.phone, d.age, d.userType, d.lastLogin;
    }
  }

  /** The user collection. */
  class UserStore {
    var users: seq<UserDoc>

    ghost predicate Valid()
      reads this
    {
      UniqueIds(users)
    }

    constructor ()
      ensures users == [] && Valid()
    {
      users := [];
    }

    /** Inserting a new document: the unique index on `_id` must pass, otherwise nothing is written. */
    method Insert(u: UserDoc) returns (ok: bool)
      requires Valid()
      modifies this
      ensures Valid()
      ensures ok <==> FindBy(old(users), ById, u.id).None?
      ensures users == if ok then old(users) + [u] else old(users)
    {
      ok := FindBy(users, ById, u.id).None?;
      if ok {
        users := users + [u];
      }
    }

    /** Writing back a saved document over the stored one with the same id. */
    method Replace(k: nat, u: UserDoc)
      requires Valid() && k < |users| && u.id == users[k].id
      modifies this
      ensures Valid()
      ensures users == old(users)[k := u]
    {
      users := users[k := u];
    }
  }

  // --------------------------------------------------------------- register

  /** Lines 13-19: the inline rules; the e-mail syntax check is not modelled, only its presence. */
  predicate RegisterRulesPass(b: RegisterBody) {
    && NotEmpty(b.name) && IsLengthInRange(Trim(b.name.value), 2, 100)
    && b.email.Some? && b.email.value != ""
    && b.password.Some? && VisibleLength(b.password.value) >= 6
    && NotEmpty(b.phone)
    && b.age.Some? && IsIntInRange(b.age.value, 18, 100)
    && IsIn(b.userType, UserTypes)
  }

  /**
   * The shared `userRegistration` rule set, which no route applies, accepts exactly
   * what the inline rules accept with a phone matching the phone format: a phone
   * such as `abc` passes the route and not the shared rules.
   */
  lemma SharedRegistrationRules(b: RegisterBody)
    ensures Validation.UserRegistration(b) <==> RegisterRulesPass(b) && Validation.MatchPhone(Trim(b.phone.value))
    ensures RegisterRulesPass(b) ==>
      RegisterRulesPass(b.(phone := Some("abc"))) && !Validation.UserRegistration(b.(phone := Some("abc")))
  {
    TrimNoLonger("abc");
    if Validation.MatchPhone(Trim("abc")) {
      Validation.PhoneShape(Trim("abc"));
    }
  }

  /** Lines 44-51: the new user from the sanitized body; `hash` is what the pre-save hook makes of the password. */
  function NewUser(id: string, b: RegisterBody, hash: string): (u: UserDoc)
    requires RegisterRulesPass(b)
    ensures u.id == id && u.name == Trim(b.name.value) && u.email == NormalizeEmail(b.email.value)
    ensures u.passwordHash == hash && u.phone == Trim(b.phone.value) && u.userType == b.userType.value
    ensures 18 <= u.age <= 100 && u.lastLogin.None?
  {
    UserDoc(id, Trim(b.name.value), NormalizeEmail(b.email.value), hash, Trim(b.phone.value),
            IntTextValue(b.age.value), b.userType.value, None)
  }

  const DefaultLocation := "Madrid"
  const DefaultDescription := "Acompañante profesional y discreta..."
  const DefaultServices: seq<string> := ["Experiencia de Novia"]
  const DefaultEthnicity := "Europea"
  const DefaultCategory := "Independiente"
  const DefaultRates := Profiles.Rates("€150/h", "€200/h")

  /** The default texts carry no surrounding blanks, so the schema's trimming keeps them. */
  lemma DefaultsTrimmed()
    ensures Trim(DefaultLocation) == DefaultLocation && Trim(DefaultServices[0]) == DefaultServices[0]
  {
    TrimUnpadded(DefaultLocation);
    TrimUnpadded(DefaultServices[0]);
  }

  /** Lines 57-70: the profile made for a new model, named and aged after the user. */
  function DefaultProfile(profileId: string, u: UserDoc, now: int): (p: Profiles.ProfileDoc)
    ensures p.id == profileId && p.userId == u.id && p.name == Trim(u.name) && p.age == u.age
    ensures p.location == DefaultLocation && p.description == DefaultDescription
    ensures |p.services| == 1 && p.services[0] == DefaultServices[0] && p.ethnicity == DefaultEthnicity
    ensures p.category == DefaultCategory && p.rates == DefaultRates
  {
    DefaultsTrimmed();
    var p := Profiles.NewProfile(profileId, u.id, u.name, u.age, DefaultLocation, DefaultDescription,
                                 DefaultServices, DefaultEthnicity, DefaultRates, now);
    p
  }

  /** The collections after a request, with its answer. */
  datatype RegisterResult = RegisterResult(
    out: Outcome<Session>, users: seq<UserDoc>, profiles: seq<Profiles.ProfileDoc>)

  /** The profile store's insert succeeds: the schema passes and neither the id nor the owner is taken. */
  predicate ProfileFits(ps: seq<Profiles.ProfileDoc>, p: Profiles.ProfileDoc) {
    && Profiles.SchemaValid(p) && Profiles.FindById(ps, p.id).None?
    && forall i :: 0 <= i < |ps| ==> ps[i].userId != p.userId
  }

  /**
   * Lines 44-72 once the checks have passed: the user is written, then a model's
   * default profile. The user is written first, so a profile that fails to save
   * leaves the user stored and answers 500.
   */
  function Store(us: seq<UserDoc>, ps: seq<Profiles.ProfileDoc>, u: UserDoc, p: Profiles.ProfileDoc): RegisterResult {
    if FindBy(us, ById, u.id).Some? then RegisterResult(Failure(500, ServerError), us, ps)
    else if u.userType != "model" then RegisterResult(Success(201, Session(u, ClaimsOf(u))), us + [u], ps)
    else if ProfileFits(ps, p) then RegisterResult(Success(201, Session(u, ClaimsOf(u))), us + [u], ps + [p])
    else RegisterResult(Failure(500, ServerError), us + [u], ps)
  }

  /**
   * POST /api/auth/register. `userId` and `profileId` are the ids the new documents
   * get, `hash` the stored form of the password, `now` the clock.
   */
  function Register(us: seq<UserDoc>, ps: seq<Profiles.ProfileDoc>, b: RegisterBody,
                    userId: string, profileId: string, hash: string, now: int): RegisterResult
  {
    if !RegisterRulesPass(b) then RegisterResult(Failure(400, BadData), us, ps)
    else if FindBy(us, ByEmail, NormalizeEmail(b.email.value)).Some? then RegisterResult(Failure(400, EmailTaken), us, ps)
    else
      var u := NewUser(userId, b, hash);
      Store(us, ps, u, DefaultProfile(profileId, u, now))
  }

  /** POST /api/auth/register on the two collections. */
  method RegisterUser(users: UserStore, profiles: Profiles.ProfileStore, b: RegisterBody,
                      userId: string, profileId: string, hash: string, now: int)
    returns (out: Outcome<Session>)
    requires users.Valid() && profiles.Valid()
    modifies users, profiles
    ensures users.Valid() && profiles.Valid()
    ensures RegisterResult(out, users.users, profiles.profiles)
         == Register(old(users.users), old(profiles.profiles), b, userId, profileId, hash, now)
  {
    if !RegisterRulesPass(b) {
      return Failure(400, BadData);
    }
    if FindBy(users.users, ByEmail, NormalizeEmail(b.email.value)).Some? {
      return Failure(400, EmailTaken);
    }
    var u := NewUser(userId, b, hash);
    out := StoreUser(users, profiles, u, DefaultProfile(profileId, u, now));
  }

  /** Lines 44-72 on the two collections. */
  method StoreUser(users: UserStore, profiles: Profiles.ProfileStore, u: UserDoc, p: Profiles.ProfileDoc)
    returns (out: Outcome<Session>)
    requires users.Valid() && profiles.Valid()
    modifies users, profiles
    ensures users.Valid() && profiles.Valid()
    ensures RegisterResult(out, users.users, profiles.profiles)
         == Store(old(users.users), old(profiles.profiles), u, p)
  {
    var saved := users.Insert(u);
    if !saved {
      return Failure(500, ServerError);
    }
    if u.userType == "model" {
      var ok := profiles.Insert(p);
      if !ok {
        return Failure(500, ServerError);
      }
    }
    out := Success(201, Session(u, ClaimsOf(u)));
  }

  /**
   * Registering an address already in use answers 400 and changes neither
   * collection.
   */
  lemma RegisterRejectsTakenEmail(us: seq<UserDoc>, ps: seq<Profiles.ProfileDoc>, b: RegisterBody,
                                  userId: string, profileId: string, hash: string, now: int)
    requires RegisterRulesPass(b)
    requires exists i :: 0 <= i < |us| && us[i].email == NormalizeEmail(b.email.value)
    ensures Register(us, ps, b, userId, profileId, hash, now) == RegisterResult(Failure(400, EmailTaken), us, ps)
  {
  }

  /**
   * Once the checks pass, a successful store adds exactly the user, and for a
   * model exactly its default profile; a customer gets none.
   */
  lemma StoreCreates(us: seq<UserDoc>, ps: seq<Profiles.ProfileDoc>, u: UserDoc, p: Profiles.ProfileDoc)
    requires Store(us, ps, u, p).out.Success?
    ensures var r := Store(us, ps, u, p);
      && FindBy(us, ById, u.id).None?
      && r.out == Success(201, Session(u, Caller(u.id, u.userType)))
      && r.users == us + [u]
      && (u.userType != "model" ==> r.profiles == ps)
      && (u.userType == "model" ==> ProfileFits(ps, p) && r.profiles == ps + [p])
  {
  }

  /**
   * A successful registration stores exactly one new user, built from the body, and
   * answers a token naming that user. A model also gets exactly one new profile:
   * the default one, owned by the new user and named and aged after it; a
   * customer gets none.
   */
  lemma RegisterCreates(us: seq<UserDoc>, ps: seq<Profiles.ProfileDoc>, b: RegisterBody,
                        userId: string, profileId: string, hash: string, now: int)
    requires Register(us, ps, b, userId, profileId, hash, now).out.Success?
    ensures RegisterRulesPass(b)
    ensures var r := Register(us, ps, b, userId, profileId, hash, now);
      var u := NewUser(userId, b, hash);
      && FindBy(us, ByEmail, NormalizeEmail(b.email.value)).None? && FindBy(us, ById, userId).None?
      && r.out == Success(201, Session(u, Caller(userId, b.userType.value)))
      && r.users == us + [u]
      && (b.userType.value == "customer" ==> r.profiles == ps)
      && (b.userType.value == "model" ==>
            r.profiles == ps + [DefaultProfile(profileId, u, now)] && DefaultProfile(profileId, u, now).name == u.name)
  {
    var u := NewUser(userId, b, hash);
    StoreCreates(us, ps, u, DefaultProfile(profileId, u, now));
    TrimShape(b.name.value);
  }

  /** Storing a user whose address is not taken keeps addresses distinct and owners unique. */
  lemma StoreKeepsUnique(us: seq<UserDoc>, ps: seq<Profiles.ProfileDoc>, u: UserDoc, p: Profiles.ProfileDoc)
    requires UniqueEmails(us) && Profiles.UniqueOwners(ps)
    requires forall i :: 0 <= i < |us| ==> us[i].email != u.email
    ensures var r := Store(us, ps, u, p);
      UniqueEmails(r.users) && Profiles.UniqueOwners(r.profiles)
  {
  }

  /**
   * Registration keeps every stored e-mail address distinct, and never stores a
   * second profile for a user.
   */
  lemma RegisterKeepsUnique(us: seq<UserDoc>, ps: seq<Profiles.ProfileDoc>, b: RegisterBody,
                            userId: string, profileId: string, hash: string, now: int)
    requires UniqueEmails(us) && Profiles.UniqueOwners(ps)
    ensures var r := Register(us, ps, b, userId, profileId, hash, now);
      UniqueEmails(r.users) && Profiles.UniqueOwners(r.profiles)
  {
    if RegisterRulesPass(b) && FindBy(us, ByEmail, NormalizeEmail(b.email.value)).None? {
      var u := NewUser(userId, b, hash);
      RegisterStores(us, ps, b, userId, profileId, hash, now);
      StoreKeepsUnique(us, ps, u, DefaultProfile(profileId, u, now));
    } else {
      assert Register(us, ps, b, userId, profileId, hash, now).users == us;
      assert Register(us, ps, b, userId, profileId, hash, now).profiles == ps;
    }
  }

  /** Once the checks pass, registration is the store of the new user, whose address no stored user has. */
  lemma RegisterStores(us: seq<UserDoc>, ps: seq<Profiles.ProfileDoc>, b: RegisterBody,
                       userId: string, profileId: string, hash: string, now: int)
    requires RegisterRulesPass(b) && FindBy(us, ByEmail, NormalizeEmail(b.email.value)).None?
    ensures var u := NewUser(userId, b, hash);
      && Register(us, ps, b, userId, profileId, hash, now) == Store(us, ps, u, DefaultProfile(profileId, u, now))
      && forall i :: 0 <= i < |us| ==> us[i].email != u.email
  {
    var u := NewUser(userId, b, hash);
    forall i | 0 <= i < |us|
      ensures us[i].email != u.email
    {
      assert KeyOf(us[i], ByEmail) != NormalizeEmail(b.email.value);
    }
  }

  // ------------------------------------------------------------------ login

  /** Lines 100-102. */
  predicate LoginRulesPass(b: LoginBody) {
    b.email.Some? && b.email.value != "" && NotEmpty(b.password)
  }

  /** The shared `userLogin` rule set accepts exactly what the inline login rules accept. */
  lemma SharedLoginRules(b: LoginBody)
    ensures Validation.UserLogin(b) <==> LoginRulesPass(b)
  {
  }

  datatype LoginResult = LoginResult(out: Outcome<Session>, users: seq<UserDoc>)

  /**
   * POST /api/auth/login. `matches(password, hash)` is the password comparison;
   * `now` is the clock that stamps `lastLogin`.
   */
  function Login(us: seq<UserDoc>, b: LoginBody, matches: (string, string) -> bool, now: int): LoginResult {
    if !LoginRulesPass(b) then LoginResult(Failure(400, BadData), us)
    else match FindBy(us, ByEmail, NormalizeEmail(b.email.value))
      case None => LoginResult(Failure(401, BadCredentials), us)
      case Some(k) =>
        if !matches(b.password.value, us[k].passwordHash) then LoginResult(Failure(401, BadCredentials), us)
        else
          var u := us[k].(lastLogin := Some(now));
          LoginResult(Success(200, Session(u, ClaimsOf(u))), us[k := u])
  }

  /** POST /api/auth/login on the collection: the loaded user's `lastLogin` is assigned and the user saved. */
  method LoginUser(store: UserStore, b: LoginBody, matches: (string, string) -> bool, now: int)
    returns (out: Outcome<Session>)
    requires store.Valid()
    modifies store
    ensures store.Valid()
    ensures LoginResult(out, store.users) == Login(old(store.users), b, matches, now)
  {
    if !LoginRulesPass(b) {
      return Failure(400, BadData);
    }
    var found := FindBy(store.users, ByEmail, NormalizeEmail(b.email.value));
    if found.None? {
      return Failure(401, BadCredentials);
    }
    var k := found.value;
    var user := new User.Load(store.users[k]);
    if !matches(b.password.value, user.passwordHash) {
      return Failure(401, BadCredentials);
    }
    user.lastLogin := Some(now);
    store.Replace(k, user.Doc());
    out := Success(200, Session(user.Doc(), ClaimsOf(user.Doc())));
  }

  /**
   * An unknown address and a wrong password get the same answer, and neither
   * changes the collection: the response does not tell which one it was.
   */
  lemma LoginFailuresAlike(us: seq<UserDoc>, b: LoginBody, matches: (string, string) -> bool, now: int)
    requires LoginRulesPass(b)
    ensures var r := Login(us, b, matches, now);
      var k := FindBy(us, ByEmail, NormalizeEmail(b.email.value));
      (k.None? || !matches(b.password.value, us[k.value].passwordHash))
        <==> r == LoginResult(Failure(401, BadCredentials), us)
  {
  }

  /**
   * A successful login finds the user by address, checks the password, and changes
   * nothing but that user's `lastLogin`; the token names that user.
   */
  lemma LoginOnlyStamps(us: seq<UserDoc>, b: LoginBody, matches: (string, string) -> bool, now: int)
    requires Login(us, b, matches, now).out.Success?
    ensures var r := Login(us, b, matches, now);
      var k := FindBy(us, ByEmail, NormalizeEmail(b.email.value));
      && LoginRulesPass(b) && k.Some?
      && matches(b.password.value, us[k.value].passwordHash)
      && r.out.value.user == us[k.value].(lastLogin := Some(now))
      && r.out.value.claims == Caller(us[k.value].id, us[k.value].userType)
      && |r.users| == |us|
      && (forall i :: 0 <= i < |us| && i != k.value ==> r.users[i] == us[i])
      && r.users[k.value].(lastLogin := us[k.value].lastLogin) == us[k.value]
  {
  }

  /** Login changes no address, so it keeps them distinct. */
  lemma LoginKeepsUnique(us: seq<UserDoc>, b: LoginBody, matches: (string, string) -> bool, now: int)
    requires UniqueEmails(us)
    ensures UniqueEmails(Login(us, b, matches, now).users)
  {
    var r := Login(us, b, matches, now);
    forall i | 0 <= i < |us|
      ensures r.users[i].email == us[i].email
    {
    }
  }

  // ----------------------------------------------------------------- /me

  /**
   * GET /api/auth/me. The caller's id is cast to an ObjectId first; one that
   * does not cast answers 500.
   */
  function Me(us: seq<UserDoc>, caller: Caller): (r: Outcome<UserDoc>)
    ensures r.Success? ==> r.code == 200 && r.value in us && r.value.id == caller.userId
  {
    if !IsMongoId(caller.userId) then Failure(500, ServerError)
    else match FindBy(us, ById, caller.userId)
      case None => Failure(404, UserNotFound)
      case Some(k) => Success(200, us[k])
  }

  /** /me answers 404 exactly when the token's valid id names no stored user. */
  lemma MeNotFound(us: seq<UserDoc>, caller: Caller)
    requires IsMongoId(caller.userId)
    ensures Me(us, caller) == Failure(404, UserNotFound) <==> forall i :: 0 <= i < |us| ==> us[i].id != caller.userId
  {
  }

  // -------------------------------------------------------- account update

  /** Lines 191-194: each field, when present, passes its rule. */
  predicate UpdateRulesPass(b: AccountUpdateBody) {
    && (b.name.None? || IsLengthInRange(Trim(b.name.value), 2, 100))
    && (b.age.None? || IsIntInRange(b.age.value, 18, 100))
  }

  /** The values lines 216-218 assign: each field of the sanitized body that is truthy. */
  datatype AccountChange = AccountChange(name: Option<string>, phone: Option<string>, age: Option<int>)

  function TruthyTrimmed(v: Option<string>): (r: Option<string>)
    ensures r.Some? <==> v.Some? && Trim(v.value) != ""
    ensures r.Some? ==> r.value == Trim(v.value)
  {
    if v.Some? && Trim(v.value) != "" then Some(Trim(v.value)) else None
  }

  function Change(b: AccountUpdateBody): AccountChange {
    AccountChange(
      TruthyTrimmed(b.name), TruthyTrimmed(b.phone),
      if Truthy(b.age) && IsIntText(b.age.value) then Some(IntTextValue(b.age.value)) else None)
  }

  function Updated(u: UserDoc, c: AccountChange): UserDoc {
    u.(name := if c.name.Some? then c.name.value else u.name,
       phone := if c.phone.Some? then c.phone.value else u.phone,
       age := if c.age.Some? then c.age.value else u.age)
  }

  datatype UpdateResult = UpdateResult(out: Outcome<UserDoc>, users: seq<UserDoc>)

  /** PUT /api/auth/profile. */
  function UpdateAccount(us: seq<UserDoc>, caller: Caller, b: AccountUpdateBody): UpdateResult {
    if !UpdateRulesPass(b) then UpdateResult(Failure(400, BadData), us)
    else if !IsMongoId(caller.userId) then UpdateResult(Failure(500, ServerError), us)
    else match FindBy(us, ById, caller.userId)
      case None => UpdateResult(Failure(404, UserNotFound), us)
      case Some(k) =>
        var u := Updated(us[k], Change(b));
        UpdateResult(Success(200, u), us[k := u])
  }

  /** Lines 216-218: each truthy value is assigned to the loaded user; the others keep their loaded values. */
  method ApplyChange(user: User, c: AccountChange)
    modifies user
    ensures user.Doc() == Updated(old(user.Doc()), c)
  {
    if c.name.Some? {
      user.name := c.name.value;
    }
    if c.phone.Some? {
      user.phone := c.phone.value;
    }
    if c.age.Some? {
      user.age := c.age.value;
    }
  }

  /** PUT /api/auth/profile on the collection. */
  method PutAccount(store: UserStore, caller: Caller, b: AccountUpdateBody) returns (out: Outcome<UserDoc>)
    requires store.Valid()
    modifies store
    ensures store.Valid()
    ensures UpdateResult(out, store.users) == UpdateAccount(old(store.users), caller, b)
  {
    if !UpdateRulesPass(b) {
      return Failure(400, BadData);
    }
    if !IsMongoId(caller.userId) {
      return Failure(500, ServerError);
    }
    var found := FindBy(store.users, ById, caller.userId);
    if found.None? {
      return Failure(404, UserNotFound);
    }
    var k := found.value;
    var user := new User.Load(store.users[k]);
    ApplyChange(user, Change(b));
    store.Replace(k, user.Doc());
    out := Success(200, user.Doc());
  }

  /**
   * A successful update changes only the caller's user, and in it only name,
   * phone and age: each is overwritten when the body's value is truthy after
   * trimming, and kept otherwise; a phone of blanks leaves the phone as it was.
   */
  lemma UpdateTouchesOnlyTruthy(us: seq<UserDoc>, caller: Caller, b: AccountUpdateBody)
    requires UpdateAccount(us, caller, b).out.Success?
    ensures var r := UpdateAccount(us, caller, b);
      var k := FindBy(us, ById, caller.userId);
      var u := r.out.value;
      && k.Some? && r.users == us[k.value := u]
      && (b.name.Some? ==> u.name == Trim(b.name.value))
      && (b.name.None? ==> u.name == us[k.value].name)
      && (b.phone.Some? && Trim(b.phone.value) != "" ==> u.phone == Trim(b.phone.value))
      && (b.phone.None? || Trim(b.phone.value) == "" ==> u.phone == us[k.value].phone)
      && (b.age.Some? ==> u.age == IntTextValue(b.age.value) && 18 <= u.age <= 100)
      && (b.age.None? ==> u.age == us[k.value].age)
      && u.(name := us[k.value].name, phone := us[k.value].phone, age := us[k.value].age) == us[k.value]
  {
  }

  /** The update changes no address, so it keeps them distinct. */
  lemma UpdateKeepsUnique(us: seq<UserDoc>, caller: Caller, b: AccountUpdateBody)
    requires UniqueEmails(us)
    ensures UniqueEmails(UpdateAccount(us, caller, b).users)
  {
    var r := UpdateAccount(us, caller, b);
    forall i | 0 <= i < |us|
      ensures r.users[i].email == us[i].email
    {
    }
  }
}

=== FILE: booking_model.dfy ===
/**
 * The booking document of backend/models/Booking.js: its fields and schema
 * bounds, the two pre-save hooks (updatedAt on every save, a confirmation code on
 * the first), the `reference` virtual, the instance methods `confirm`, `cancel`
 * and `complete` that change the document in place, and the `getStats` group
 * count. The booking collection keeps the sparse unique index on the code.
 */
module Bookings {
  import opened Text
  import opened Seqs
  import Aggregation

  datatype Status = Pending | Confirmed | Cancelled | Completed | NoShow

  const AllStatuses: seq<Status> := [Pending, Confirmed, Cancelled, Completed, NoShow]

  /** The text the schema's `status` enumeration stores. */
  function StatusName(s: Status): string {
    match s
    case Pending => "pending"
    case Confirmed => "confirmed"
    case Cancelled => "cancelled"
    case Completed => "completed"
    case NoShow => "no-show"
  }

  /** The status a text names, if it is one of the enumeration's values. */
  function ParseStatus(t: string): (r: Option<Status>)
    ensures r.Some? ==> StatusName(r.value) == t
    ensures r.None? ==> forall s :: StatusName(s) != t
  {
    if t == "pending" then Some(Pending)
    else if t == "confirmed" then Some(Confirmed)
    else if t == "cancelled" then Some(Cancelled)
    else if t == "completed" then Some(Completed)
    else if t == "no-show" then Some(NoShow)
    else None
  }

  datatype Location = Location(address: Option<string>, city: Option<string>, notes: Option<string>)

  /** `pricing`: the two amounts, which the schema stores as Numbers, and the currency. */
  datatype Pricing = Pricing(hourlyRate: real, totalAmount: real, currency: string)

  /** A stored booking. */
  datatype BookingDoc = BookingDoc(
    id: string, customerId: string, modelId: string, profileId: string,
    date: int, time: string, duration: int, serviceType: string,
    services: seq<string>, location: Location, pricing: Pricing,
    status: Status, customerNotes: Option<string>, modelNotes: Option<string>,
    customerPhone: string, paymentStatus: string, paymentMethod: string,
    confirmationCode: Option<string>, cancelledBy: Option<string>,
    cancelledAt: Option<int>, cancellationReason: Option<string>,
    completedAt: Option<int>, createdAt: int, updatedAt: int)

  /**
   * The validators `save` runs: required strings are non-empty, duration lies in
   * 1..24, the enumerations hold, and the note fields respect `maxlength: 500`
   * (counted in UTF-16 units).
   */
  predicate SchemaValid(d: BookingDoc) {
    && d.customerId != "" && d.modelId != "" && d.profileId != ""
    && d.time != "" && d.customerPhone != ""
    && 1 <= d.duration <= 24
    && d.serviceType in ["incall", "outcall"]
    && d.paymentStatus in ["pending", "paid", "refunded"]
    && d.paymentMethod in ["cash", "card", "transfer"]
    && MaxLength(d.customerNotes, 500) && MaxLength(d.modelNotes, 500)
    && MaxLength(d.cancellationReason, 500)
  }

  /** A member of the lower-case base-36 alphabet `Number.prototype.toString(36)` writes. */
  predicate IsBase36(c: char) { IsDigit(c) || 'a' <= c <= 'z' }

  /**
   * The code the pre-save hook assigns to a new booking: `VV`, the last eight
   * digits of the millisecond clock, then the first four base-36 digits of the
   * random fraction (`rnd`, the text after `0.`), upper-cased.
   */
  function ConfirmationCode(now: nat, rnd: string): string {
    "VV" + Last(DecimalString(now), 8) + ToUpper(rnd[..Min(4, |rnd|)])
  }

  /**
   * The shape of a generated code: `VV`, then the last eight (or fewer) digits
   * of the time, then at most four digits or capitals.
   */
  lemma ConfirmationCodeShape(now: nat, rnd: string)
    requires forall i :: 0 <= i < |rnd| ==> IsBase36(rnd[i])
    ensures var code := ConfirmationCode(now, rnd);
      var k := |Last(DecimalString(now), 8)|;
      && |code| == 2 + k + Min(4, |rnd|)
      && code[..2] == "VV"
      && 1 <= k <= 8 && (now >= 10_000_000 ==> k == 8)
      && code[2..2 + k] == Last(DecimalString(now), 8) && AllDigits(code[2..2 + k])
      && forall i :: 2 + k <= i < |code| ==> IsDigit(code[i]) || 'A' <= code[i] <= 'Z'
  {
    CodeUnfold(now, rnd);
    UpperBase36(rnd[..Min(4, |rnd|)]);
    CodeTimeDigits(now);
    CodeParts(ConfirmationCode(now, rnd), Last(DecimalString(now), 8), ToUpper(rnd[..Min(4, |rnd|)]));
    CodeTail(ConfirmationCode(now, rnd), Last(DecimalString(now), 8), ToUpper(rnd[..Min(4, |rnd|)]));
  }

  lemma CodeUnfold(now: nat, rnd: string)
    ensures ConfirmationCode(now, rnd) == "VV" + Last(DecimalString(now), 8) + ToUpper(rnd[..Min(4, |rnd|)])
    ensures |ToUpper(rnd[..Min(4, |rnd|)])| == Min(4, |rnd|)
  {
    assert |rnd[..Min(4, |rnd|)]| == Min(4, |rnd|);
  }

  /** The time part of a code: one to eight digits, eight from 10^7 milliseconds on. */
  lemma CodeTimeDigits(now: nat)
    ensures 1 <= |Last(DecimalString(now), 8)| <= 8
    ensures now >= 10_000_000 ==> |Last(DecimalString(now), 8)| == 8
    ensures AllDigits(Last(DecimalString(now), 8))
  {
    var s := DecimalString(now);
    if now >= 10_000_000 {
      Pow10Seven();
      DecimalLengthAtLeast(now, 7);
    }
    LastOfDigits(s, 8);
  }

  /** Where the prefix and the digits of a code sit. */
  lemma CodeParts(code: string, time: string, up: string)
    requires code == "VV" + time + up
    ensures code[..2] == "VV" && code[2..2 + |time|] == time && |code| == 2 + |time| + |up|
  {
    assert code[..2] == "VV";
    assert code[2..2 + |time|] == time;
  }

  /** The characters after the digits are those of the tail. */
  lemma CodeTail(code: string, time: string, up: string)
    requires code == "VV" + time + up
    requires forall j :: 0 <= j < |up| ==> IsDigit(up[j]) || 'A' <= up[j] <= 'Z'
    ensures forall i :: 2 + |time| <= i < |code| ==> IsDigit(code[i]) || 'A' <= code[i] <= 'Z'
  {
    forall i | 2 + |time| <= i < |code|
      ensures IsDigit(code[i]) || 'A' <= code[i] <= 'Z'
    {
      assert code[i] == up[i - 2 - |time|];
    }
  }

  lemma Pow10Seven()
    ensures Pow10(7) == 10_000_000
  {
    assert Pow10(1) == 10 && Pow10(2) == 100 && Pow10(3) == 1000 && Pow10(4) == 10_000;
    assert Pow10(5) == 100_000 && Pow10(6) == 1_000_000;
  }

  /** Upper-casing base-36 text leaves only digits and capitals. */
  lemma UpperBase36(s: string)
    requires forall i :: 0 <= i < |s| ==> IsBase36(s[i])
    ensures |ToUpper(s)| == |s|
    ensures forall i :: 0 <= i < |s| ==> IsDigit(ToUpper(s)[i]) || 'A' <= ToUpper(s)[i] <= 'Z'
  {
    forall i | 0 <= i < |s|
      ensures IsDigit(ToUpper(s)[i]) || 'A' <= ToUpper(s)[i] <= 'Z'
    {
      assert ToUpper(s)[i] == UpperChar(s[i]);
    }
  }

  /** A number of at least 10^k has more than k decimal digits. */
  lemma {:induction false} DecimalLengthAtLeast(n: nat, k: nat)
    requires n >= Pow10(k)
    ensures |DecimalString(n)| > k
  {
    if k > 0 {
      DecimalLengthAtLeast(n / 10, k - 1);
    }
  }

  /** The two pre-save hooks: updatedAt is stamped, and a new document gets its confirmation code. */
  function Saved(d: BookingDoc, isNew: bool, now: nat, rnd: string): (r: BookingDoc)
    ensures r.updatedAt == now
    ensures isNew ==> r.confirmationCode == Some(ConfirmationCode(now, rnd))
    ensures !isNew ==> r.confirmationCode == d.confirmationCode
    ensures r.(updatedAt := d.updatedAt, confirmationCode := d.confirmationCode) == d
  {
    d.(updatedAt := now,
       confirmationCode := if isNew then Some(ConfirmationCode(now, rnd)) else d.confirmationCode)
  }

  /** Saving a stored document any number of times, at the given instants. */
  function SavedAgain(d: BookingDoc, nows: seq<nat>, rnds: seq<string>): BookingDoc
    requires |nows| == |rnds|
    decreases |nows|
  {
    if nows == [] then d else SavedAgain(Saved(d, false, nows[0], rnds[0]), nows[1..], rnds[1..])
  }

  /** Once a booking is stored, no later save changes its confirmation code. */
  lemma {:induction false} CodeStableAcrossSaves(d: BookingDoc, nows: seq<nat>, rnds: seq<string>)
    requires |nows| == |rnds|
    ensures SavedAgain(d, nows, rnds).confirmationCode == d.confirmationCode
    ensures nows != [] ==> SavedAgain(d, nows, rnds).updatedAt == nows[|nows| - 1]
    decreases |nows|
  {
    if nows != [] {
      CodeStableAcrossSaves(Saved(d, false, nows[0], rnds[0]), nows[1..], rnds[1..]);
      if |nows| > 1 {
        assert nows[1..][|nows[1..]| - 1] == nows[|nows| - 1];
      }
    }
  }

  /** The `reference` virtual: the confirmation code when there is one, else the id's last eight characters upper-cased. */
  function Reference(d: BookingDoc): (r: string)
    ensures d.confirmationCode.Some? && d.confirmationCode.value != "" ==> r == d.confirmationCode.value
    ensures !(d.confirmationCode.Some? && d.confirmationCode.value != "") ==>
      |r| == Min(8, |d.id|) && forall i :: 0 <= i < |r| ==> r[i] == UpperChar(d.id[|d.id| - |r| + i])
  {
    if d.confirmationCode.Some? && d.confirmationCode.value != "" then d.confirmationCode.value
    else ToUpper(Last(d.id, 8))
  }

  /** After its first save a booking's reference is its generated code, which starts with `VV`. */
  lemma ReferenceAfterFirstSave(d: BookingDoc, now: nat, rnd: string)
    ensures var s := Saved(d, true, now, rnd);
      Reference(s) == ConfirmationCode(now, rnd) && Reference(s)[..2] == "VV"
  {
  }

  /** A Mongoose document of the Booking model, changed in place by its methods. */
  class Booking {
    const id: string
    const customerId: string
    const modelId: string
    const profileId: string
    const date: int
    const time: string
    const duration: int
    const serviceType: string
    const services: seq<string>
    const location: Location
    const pricing: Pricing
    var status: Status
    var customerNotes: Option<string>
    var modelNotes: Option<string>
    const customerPhone: string
    const paymentStatus: string
    const paymentMethod: string
    var confirmationCode: Option<string>
    var cancelledBy: Option<string>
    var cancelledAt: Option<int>
    var cancellationReason: Option<string>
    var completedAt: Option<int>
    const createdAt: int
    var updatedAt: int
    /** Whether the document has never been saved. */
    var isNew: bool

    function Doc(): (d: BookingDoc)
      reads this
      ensures d.id == id && d.customerId == customerId && d.modelId == modelId
    {
      BookingDoc(id, customerId, modelId, profileId, date, time, duration, serviceType,
                 services, location, pricing, status, customerNotes, modelNotes,
                 customerPhone, paymentStatus, paymentMethod, confirmationCode,
                 cancelledBy, cancelledAt, cancellationReason, completedAt, createdAt, updatedAt)
    }

    /** `new Booking({...})`: a document not yet saved. */
    constructor Create(d: BookingDoc)
      ensures Doc() == d && isNew
    {
      id, customerId, modelId, profileId, date, time := d.id, d.customerId, d.modelId, d.profileId, d.date, d.time;
      duration, serviceType, services, location, pricing := d.duration, d.serviceType, d.services, d.location, d.pricing;
      status, customerNotes, modelNotes, customerPhone := d.status, d.customerNotes, d.modelNotes, d.customerPhone;
      paymentStatus, paymentMethod, confirmationCode := d.paymentStatus, d.paymentMethod, d.confirmationCode;
      cancelledBy, cancelledAt, cancellationReason := d.cancelledBy, d.cancelledAt, d.cancellationReason;
      completedAt, createdAt, updatedAt := d.completedAt, d.createdAt, d.updatedAt;
      isNew := true;
    }

    /** The document a query returns for a stored booking. */
    constructor Load(d: BookingDoc)
      ensures Doc() == d && !isNew
    {
      id, customerId, modelId, profileId, date, time := d.id, d.customerId, d.modelId, d.profileId, d.date, d.time;
      duration, serviceType, services, location, pricing := d.duration, d.serviceType, d.services, d.location, d.pricing;
      status, customerNotes, modelNotes, customerPhone := d.status, d.customerNotes, d.modelNotes, d.customerPhone;
      paymentStatus, paymentMethod, confirmationCode := d.paymentStatus, d.paymentMethod, d.confirmationCode;
      cancelledBy, cancelledAt, cancellationReason := d.cancelledBy, d.cancelledAt, d.cancellationReason;
      completedAt, createdAt, updatedAt := d.completedAt, d.createdAt, d.updatedAt;
      isNew := false;
    }

    /**
     * `save()`: the validators run first; when they pass, the pre-save hooks run
     * and the document is no longer new. A failed save changes nothing.
     */
    method Save(now: nat, rnd: string) returns (ok: bool)
      modifies this
      ensures ok == SchemaValid(old(Doc()))
      ensures Doc() == if ok then Saved(old(Doc()), old(isNew), now, rnd) else old(Doc())
      ensures isNew == (old(isNew) && !ok)
    {
      ok := SchemaValid(Doc());
      if ok {
        updatedAt := now;
        if isNew {
          confirmationCode := Some(ConfirmationCode(now, rnd));
        }
        isNew := false;
      }
    }

    /** `confirm()`: the status becomes confirmed, then the document is saved. */
    method Confirm(now: nat, rnd: string) returns (ok: bool)
      modifies this
      ensures var changed := old(Doc()).(status := Confirmed);
        && ok == SchemaValid(changed)
        && Doc() == if ok then Saved(changed, old(isNew), now, rnd) else changed
      ensures isNew == (old(isNew) && !ok)
    {
      status := Confirmed;
      ok := Save(now, rnd);
    }

    /** `cancel(userId, reason)`: status, canceller, cancellation time and reason are set, then the document is saved. */
    method Cancel(userId: string, reason: Option<string>, now: nat, rnd: string) returns (ok: bool)
      modifies this
      ensures var changed := old(Doc()).(status := Cancelled, cancelledBy := Some(userId),
                                         cancelledAt := Some(now), cancellationReason := reason);
        && ok == SchemaValid(changed)
        && Doc() == if ok then Saved(changed, old(isNew), now, rnd) else changed
      ensures isNew == (old(isNew) && !ok)
    {
      status := Cancelled;
      cancelledBy := Some(userId);
      cancelledAt := Some(now);
      cancellationReason := reason;
      ok := Save(now, rnd);
    }

    /** `complete()`: the status becomes completed and completedAt the current time, then the document is saved. */
    method Complete(now: nat, rnd: string) returns (ok: bool)
      modifies this
      ensures var changed := old(Doc()).(status := Completed, completedAt := Some(now));
        && ok == SchemaValid(changed)
        && Doc() == if ok then Saved(changed, old(isNew), now, rnd) else changed
      ensures isNew == (old(isNew) && !ok)
    {
      status := Completed;
      completedAt := Some(now);
      ok := Save(now, rnd);
    }
  }

  /**
   * The field effects of the three methods on a stored document, once saved:
   * only the named fields and updatedAt differ, and the confirmation code stays.
   */
  lemma LifecycleEffects(d: BookingDoc, u: string, reason: Option<string>, now: nat, rnd: string)
    ensures Saved(d.(status := Confirmed), false, now, rnd) == d.(status := Confirmed, updatedAt := now)
    ensures Saved(d.(status := Cancelled, cancelledBy := Some(u), cancelledAt := Some(now), cancellationReason := reason), false, now, rnd)
         == d.(status := Cancelled, cancelledBy := Some(u), cancelledAt := Some(now), cancellationReason := reason, updatedAt := now)
    ensures Saved(d.(status := Completed, completedAt := Some(now)), false, now, rnd)
         == d.(status := Completed, completedAt := Some(now), updatedAt := now)
  {
  }

  /** Confirming and completing never break the schema; cancelling does not when the reason fits. */
  lemma LifecycleKeepsSchema(d: BookingDoc, u: string, reason: Option<string>, now: nat)
    requires SchemaValid(d)
    ensures SchemaValid(d.(status := Confirmed))
    ensures SchemaValid(d.(status := Completed, completedAt := Some(now)))
    ensures SchemaValid(d.(status := Cancelled, cancelledBy := Some(u), cancelledAt := Some(now), cancellationReason := reason))
        <==> MaxLength(reason, 500)
  {
  }

  // ------------------------------------------------------------ collection

  predicate UniqueIds(bs: seq<BookingDoc>) {
    forall i, j :: 0 <= i < j < |bs| ==> bs[i].id != bs[j].id
  }

  /** The sparse unique index: no two bookings carry the same confirmation code. */
  predicate UniqueCodes(bs: seq<BookingDoc>) {
    forall i, j :: 0 <= i < j < |bs| && bs[i].confirmationCode.Some? ==> bs[i].confirmationCode != bs[j].confirmationCode
  }

  predicate AllValid(bs: seq<BookingDoc>) {
    forall i :: 0 <= i < |bs| ==> SchemaValid(bs[i])
  }

  /** `Booking.findById(id)`. */
  function FindById(bs: seq<BookingDoc>, id: string): (r: Option<nat>)
    ensures r.Some? ==> r.value < |bs| && bs[r.value].id == id
    ensures r.None? ==> forall i :: 0 <= i < |bs| ==> bs[i].id != id
  {
    FindFirst(bs, (b: BookingDoc) => b.id == id)
  }

  function CodeInUse(bs: seq<BookingDoc>, code: Option<string>): (r: bool)
    ensures r <==> code.Some? && exists i :: 0 <= i < |bs| && bs[i].confirmationCode == code
  {
    code.Some? && FindFirst(bs, (b: BookingDoc) => b.confirmationCode == code).Some?
  }

  /** The booking collection. */
  class BookingStore {
    var bookings: seq<BookingDoc>

    ghost predicate Valid()
      reads this
    {
      UniqueIds(bookings) && UniqueCodes(bookings) && AllValid(bookings)
    }

    constructor ()
      ensures bookings == [] && Valid()
    {
      bookings := [];
    }

    /** Inserting a saved document; a duplicate id or confirmation code is refused by the unique indexes. */
    method Insert(d: BookingDoc) returns (ok: bool)
      requires Valid() && SchemaValid(d)
      modifies this
      ensures Valid()
      ensures ok <==> FindById(old(bookings), d.id).None? && !CodeInUse(old(bookings), d.confirmationCode)
      ensures bookings == if ok then old(bookings) + [d] else old(bookings)
    {
      ok := FindById(bookings, d.id).None? && !CodeInUse(bookings, d.confirmationCode);
      if ok {
        bookings := bookings + [d];
      }
    }

    /** Writing back a saved document over the stored one with the same id and code. */
    method Replace(k: nat, d: BookingDoc)
      requires Valid() && k < |bookings| && SchemaValid(d)
      requires d.id == bookings[k].id && d.confirmationCode == bookings[k].confirmationCode
      modifies this
      ensures Valid()
      ensures bookings == old(bookings)[k := d]
    {
      bookings := bookings[k := d];
    }
  }

  // ------------------------------------------------------------ getStats

  /** One group of the `getStats` aggregation: a status and how many bookings have it. */
  datatype StatGroup = StatGroup(status: Status, count: nat)

  /** The `$match` stage: customers see the bookings they made, everyone else the bookings made with them. */
  function MatchesCaller(userId: string, userType: string): BookingDoc -> bool {
    (b: BookingDoc) => if userType == "customer" then b.customerId == userId else b.modelId == userId
  }

  function CountWithStatus(bs: seq<BookingDoc>, s: Status): (n: nat)
    ensures n <= |bs|
  {
    if bs == [] then 0 else (if bs[0].status == s then 1 else 0) + CountWithStatus(bs[1..], s)
  }

  /** The `$group` stage: one group per status that occurs among the given bookings. */
  function GroupByStatus(bs: seq<BookingDoc>, statuses: seq<Status>): (r: seq<StatGroup>)
    ensures |r| <= |statuses|
    ensures forall i :: 0 <= i < |r| ==> r[i].status in statuses && r[i].count == CountWithStatus(bs, r[i].status) && r[i].count > 0
  {
    if statuses == [] then []
    else
      var s := statuses[|statuses| - 1];
      var n := CountWithStatus(bs, s);
      GroupByStatus(bs, statuses[..|statuses| - 1]) + (if n > 0 then [StatGroup(s, n)] else [])
  }

  /** `Booking.getStats(userId, userType)`: the groups of the bookings that match the caller. */
  function GetStats(bs: seq<BookingDoc>, userId: string, userType: string): seq<StatGroup> {
    GroupByStatus(Filter(bs, MatchesCaller(userId, userType)), AllStatuses)
  }

  /** The sum of the group counts. */
  function SumCounts(gs: seq<StatGroup>): int {
    if gs == [] then 0 else SumCounts(gs[..|gs| - 1]) + gs[|gs| - 1].count
  }

  /** The count of the last group with status s, or 0 when there is none. */
  function LastCount(gs: seq<StatGroup>, s: Status): int {
    if gs == [] then 0
    else if gs[|gs| - 1].status == s then gs[|gs| - 1].count
    else LastCount(gs[..|gs| - 1], s)
  }

  ghost predicate HasGroup(gs: seq<StatGroup>, s: Status) {
    exists i :: 0 <= i < |gs| && gs[i].status == s
  }

  function SumStatusCounts(bs: seq<BookingDoc>, statuses: seq<Status>): int {
    if statuses == [] then 0
    else SumStatusCounts(bs, statuses[..|statuses| - 1]) + CountWithStatus(bs, statuses[|statuses| - 1])
  }

  /** The five statuses' counts, one by one. */
  lemma SumOfAllStatuses(bs: seq<BookingDoc>)
    ensures SumStatusCounts(bs, AllStatuses)
         == CountWithStatus(bs, Pending) + CountWithStatus(bs, Confirmed) + CountWithStatus(bs, Cancelled)
            + CountWithStatus(bs, Completed) + CountWithStatus(bs, NoShow)
  {
    var s4 := [Pending, Confirmed, Cancelled, Completed];
    var s3 := [Pending, Confirmed, Cancelled];
    var s2 := [Pending, Confirmed];
    var s1 := [Pending];
    assert AllStatuses[..4] == s4 && s4[..3] == s3 && s3[..2] == s2 && s2[..1] == s1 && s1[..0] == [];
    assert SumStatusCounts(bs, s1) == CountWithStatus(bs, Pending);
    assert SumStatusCounts(bs, s2) == SumStatusCounts(bs, s1) + CountWithStatus(bs, Confirmed);
    assert SumStatusCounts(bs, s3) == SumStatusCounts(bs, s2) + CountWithStatus(bs, Cancelled);
    assert SumStatusCounts(bs, s4) == SumStatusCounts(bs, s3) + CountWithStatus(bs, Completed);
  }

  /** Every booking has exactly one of the five statuses. */
  lemma {:induction false} StatusesPartition(bs: seq<BookingDoc>)
    ensures |bs| == CountWithStatus(bs, Pending) + CountWithStatus(bs, Confirmed) + CountWithStatus(bs, Cancelled)
                    + CountWithStatus(bs, Completed) + CountWithStatus(bs, NoShow)
  {
    if bs != [] {
      StatusesPartition(bs[1..]);
    }
  }

  /** The groups' counts add up to the statuses' counts. */
  lemma {:induction false} GroupSum(bs: seq<BookingDoc>, statuses: seq<Status>)
    ensures SumCounts(GroupByStatus(bs, statuses)) == SumStatusCounts(bs, statuses)
  {
    if statuses != [] {
      var init := statuses[..|statuses| - 1];
      var s := statuses[|statuses| - 1];
      var g := GroupByStatus(bs, init);
      GroupSum(bs, init);
      if CountWithStatus(bs, s) > 0 {
        assert (g + [StatGroup(s, CountWithStatus(bs, s))])[..|g|] == g;
      } else {
        assert g + [] == g;
      }
    }
  }

  /** The group counts sum to the number of bookings that match the caller. */
  lemma GetStatsTotal(bs: seq<BookingDoc>, userId: string, userType: string)
    ensures SumCounts(GetStats(bs, userId, userType)) == Count(bs, MatchesCaller(userId, userType))
  {
    var m := Filter(bs, MatchesCaller(userId, userType));
    GroupSum(m, AllStatuses);
    CountIsFilterSize(bs, MatchesCaller(userId, userType));
    SumOfAllStatuses(m);
    StatusesPartition(m);
  }

  /** The last group with a listed status holds that status's count. */
  lemma {:induction false} GroupByStatusCounts(bs: seq<BookingDoc>, statuses: seq<Status>, s: Status)
    ensures LastCount(GroupByStatus(bs, statuses), s) == if s in statuses then CountWithStatus(bs, s) else 0
  {
    if statuses != [] {
      var init := statuses[..|statuses| - 1];
      var last := statuses[|statuses| - 1];
      var g := GroupByStatus(bs, init);
      GroupByStatusCounts(bs, init, s);
      assert s in statuses <==> s in init || s == last;
      var n := CountWithStatus(bs, last);
      if n > 0 {
        assert (g + [StatGroup(last, n)])[..|g|] == g;
      } else {
        assert g + [] == g;
      }
    }
  }

  /** A listed status has a group exactly when some booking has it. */
  lemma {:induction false} GroupByStatusPresence(bs: seq<BookingDoc>, statuses: seq<Status>, s: Status)
    ensures HasGroup(GroupByStatus(bs, statuses), s) <==> s in statuses && CountWithStatus(bs, s) > 0
  {
    if statuses != [] {
      var init := statuses[..|statuses| - 1];
      var last := statuses[|statuses| - 1];
      var g := GroupByStatus(bs, init);
      GroupByStatusPresence(bs, init, s);
      assert statuses == init + [last];
      assert s in statuses <==> s in init || s == last;
      var n := CountWithStatus(bs, last);
      if n > 0 {
        assert GroupByStatus(bs, statuses) == g + [StatGroup(last, n)];
        HasGroupAppend(g, StatGroup(last, n), s);
      } else {
        assert GroupByStatus(bs, statuses) == g + [];
        assert g + [] == g;
      }
    }
  }

  /** One more group adds its status to those that have a group. */
  lemma HasGroupAppend(g: seq<StatGroup>, x: StatGroup, s: Status)
    ensures HasGroup(g + [x], s) <==> HasGroup(g, s) || x.status == s
  {
    var r := g + [x];
    if HasGroup(g, s) {
      var i :| 0 <= i < |g| && g[i].status == s;
      assert r[i] == g[i];
    }
    if HasGroup(r, s) && x.status != s {
      var i :| 0 <= i < |r| && r[i].status == s;
      assert i < |g| && g[i] == r[i];
    }
    if x.status == s {
      assert r[|g|] == x;
    }
  }

  /** The stats of a caller: each status's group holds the number of matching bookings with it. */
  lemma GetStatsCounts(bs: seq<BookingDoc>, userId: string, userType: string, s: Status)
    ensures var m := Filter(bs, MatchesCaller(userId, userType));
      && LastCount(GetStats(bs, userId, userType), s) == CountWithStatus(m, s)
      && (HasGroup(GetStats(bs, userId, userType), s) <==> CountWithStatus(m, s) > 0)
  {
    GroupByStatusCounts(Filter(bs, MatchesCaller(userId, userType)), AllStatuses, s);
    GroupByStatusPresence(Filter(bs, MatchesCaller(userId, userType)), AllStatuses, s);
  }

  /**
   * The `$match` stage as the pipeline runs it: the caller's id from the token is
   * text and is compared, uncast, with the stored ObjectId reference.
   */
  function MatchesCallerAsWritten(userId: string, userType: string): BookingDoc -> bool {
    (b: BookingDoc) => if userType == "customer" then Aggregation.RefEqualsTokenId(b.customerId, userId)
                       else Aggregation.RefEqualsTokenId(b.modelId, userId)
  }

  /** `Booking.getStats` as written, with the uncast `$match`. */
  function GetStatsAsWritten(bs: seq<BookingDoc>, userId: string, userType: string): seq<StatGroup> {
    GroupByStatus(Filter(bs, MatchesCallerAsWritten(userId, userType)), AllStatuses)
  }

  /** No bookings make no groups. */
  lemma {:induction false} NoBookingsNoGroups(statuses: seq<Status>)
    ensures GroupByStatus([], statuses) == []
  {
    if statuses != [] {
      NoBookingsNoGroups(statuses[..|statuses| - 1]);
    }
  }

  /** As written, the stats are empty for every caller, whatever bookings are stored. */
  lemma GetStatsAsWrittenIsEmpty(bs: seq<BookingDoc>, userId: string, userType: string)
    ensures GetStatsAsWritten(bs, userId, userType) == []
  {
    forall i | 0 <= i < |bs|
      ensures !MatchesCallerAsWritten(userId, userType)(bs[i])
    {
      Aggregation.CastDecides(bs[i].customerId, userId);
      Aggregation.CastDecides(bs[i].modelId, userId);
    }
    FilterNone(bs, MatchesCallerAsWritten(userId, userType));
    NoBookingsNoGroups(AllStatuses);
  }
}

=== FILE: booking_routes.dfy ===
/**
 * The booking endpoints of backend/routes/bookings.js: creation with its guards
 * (validation, customer role, profile ownership, the same-date conflict), viewing
 * one booking, the status update with its per-role switch and notes routing, and
 * the statistics overview fold.
 */
module BookingRoutes {
  import opened Text
  import opened Seqs
  import opened Requests
  import opened Bookings
  import Profiles
  import Validation

  const ServerError := "Error del servidor"

  // -------------------------------------------------------------- creation

  /** The inline rules of POST /api/bookings (lines 10-20); a trimmed-away time or phone still passes. */
  predicate CreateRulesPass(b: BookingBody) {
    && b.modelId.Some? && IsMongoId(b.modelId.value)
    && b.profileId.Some? && IsMongoId(b.profileId.value)
    && b.date.Some?
    && NotEmpty(b.time)
    && b.duration.Some? && IsIntInRange(b.duration.value, 1, 24)
    && IsIn(b.serviceType, ServiceTypes)
    && b.services.Some?
    && NotEmpty(b.customerPhone)
    && b.pricing.Some?
    && b.pricing.value.hourlyRate.Some? && IsNumericText(b.pricing.value.hourlyRate.value)
    && b.pricing.value.totalAmount.Some? && IsNumericText(b.pricing.value.totalAmount.value)
  }

  /** Every body the shared `createBooking` rule set accepts also passes the route's own rules. */
  lemma SharedRulesStricter(b: BookingBody, now: int)
    requires Validation.CreateBooking(b, now)
    ensures CreateRulesPass(b)
  {
  }

  /** The route's rules accept any non-empty time, such as `soon`, which the shared rule set refuses. */
  lemma RouteRulesAcceptAnyTime(b: BookingBody, now: int)
    requires CreateRulesPass(b)
    ensures CreateRulesPass(b.(time := Some("soon")))
    ensures !Validation.CreateBooking(b.(time := Some("soon")), now)
  {
    var b2 := b.(time := Some("soon"));
    assert b2.time.value == "soon";
    assert Trim("soon") == "soon" by {
      assert TrimStart("soon") == "soon";
      assert TrimEnd("soon") == "soon";
    }
    assert !Validation.MatchTime("soon") by {
      Validation.MatchTimeMeaning("soon");
      assert "soon"[1] != ':';
    }
  }

  /** A booking of the model on that instant whose status still holds the slot. */
  predicate Blocks(b: BookingDoc, modelId: string, date: int) {
    b.modelId == modelId && b.date == date && (b.status == Pending || b.status == Confirmed)
  }

  /** The conflict query `findOne({ modelId, date, status: { $in: ['pending', 'confirmed'] } })`. */
  function HasConflict(bs: seq<BookingDoc>, modelId: string, date: int): (r: bool)
    ensures r <==> exists i :: 0 <= i < |bs| && Blocks(bs[i], modelId, date)
  {
    FindFirst(bs, (b: BookingDoc) => Blocks(b, modelId, date)).Some?
  }

  /** Cancelled, completed and no-show bookings never hold a slot. */
  lemma ClosedBookingsNeverBlock(bs: seq<BookingDoc>, b: BookingDoc, modelId: string, date: int)
    requires b.status in [Cancelled, Completed, NoShow]
    ensures HasConflict(bs + [b], modelId, date) == HasConflict(bs, modelId, date)
  {
    if HasConflict(bs + [b], modelId, date) {
      var i :| 0 <= i < |bs + [b]| && Blocks((bs + [b])[i], modelId, date);
      assert i < |bs| && (bs + [b])[i] == bs[i];
    }
    if HasConflict(bs, modelId, date) {
      var i :| 0 <= i < |bs| && Blocks(bs[i], modelId, date);
      assert (bs + [b])[i] == bs[i];
    }
  }

  /**
   * `new Booking({...})` (lines 83-101): the caller is the customer, the sanitized
   * time and phone are stored trimmed, the schema trims each service, the location
   * defaults to an empty one, the amounts are cast to Numbers with currency EUR,
   * notes default to the empty text and the payment method to cash.
   */
  function NewBookingDoc(id: string, caller: Caller, b: BookingBody, now: nat): (d: BookingDoc)
    requires CreateRulesPass(b)
  {
    var location := if b.location.Some?
      then Location(b.location.value.address, b.location.value.city, b.location.value.notes)
      else Location(None, None, None);
    BookingDoc(
      id, caller.userId, b.modelId.value, b.profileId.value, b.date.value, Trim(b.time.value),
      IntTextValue(b.duration.value), b.serviceType.value, TrimEach(b.services.value), location,
      Pricing(NumericValue(b.pricing.value.hourlyRate.value), NumericValue(b.pricing.value.totalAmount.value), "EUR"),
      Pending, Some(if Truthy(b.customerNotes) then b.customerNotes.value else ""), None,
      Trim(b.customerPhone.value), "pending",
      if Truthy(b.paymentMethod) then b.paymentMethod.value else "cash",
      None, None, None, None, None, now, now)
  }

  /** The answer of POST /api/bookings, in the order the handler checks. */
  function CreateOutcome(bs: seq<BookingDoc>, ps: seq<Profiles.ProfileDoc>, caller: Caller,
                         b: BookingBody, id: string, now: nat, rnd: string): Outcome<BookingDoc>
  {
    if !CreateRulesPass(b) then Failure(400, "Datos de validación incorrectos")
    else if caller.userType != "customer" then Failure(403, "Solo los clientes pueden crear reservas")
    else if Profiles.FindOwned(ps, b.profileId.value, b.modelId.value).None? then Failure(404, "Perfil no encontrado")
    else if HasConflict(bs, b.modelId.value, b.date.value) then Failure(409, "Ya existe una reserva para esta fecha")
    else Persist(bs, NewBookingDoc(id, caller, b, now), now, rnd)
  }

  /**
   * `booking.save()` on a new document: the validators, the hooks, then the
   * unique indexes on the id and the confirmation code; any failure answers 500.
   */
  function Persist(bs: seq<BookingDoc>, d: BookingDoc, now: nat, rnd: string): (r: Outcome<BookingDoc>)
    ensures r.Success? <==> SchemaValid(d) && FindById(bs, d.id).None? && !CodeInUse(bs, Some(ConfirmationCode(now, rnd)))
    ensures r.Success? ==> r.code == 201 && r.value == Saved(d, true, now, rnd)
    ensures r.Failure? ==> r.code == 500
  {
    if !SchemaValid(d) then Failure(500, ServerError)
    else
      var saved := Saved(d, true, now, rnd);
      if FindById(bs, d.id).Some? || CodeInUse(bs, saved.confirmationCode) then Failure(500, ServerError)
      else Success(201, saved)
  }

  /** Saving a new booking and writing it to the collection. */
  method SaveNew(store: BookingStore, d: BookingDoc, now: nat, rnd: string) returns (out: Outcome<BookingDoc>)
    requires store.Valid()
    modifies store
    ensures store.Valid()
    ensures out == Persist(old(store.bookings), d, now, rnd)
    ensures store.bookings == if out.Success? then old(store.bookings) + [out.value] else old(store.bookings)
  {
    var booking := new Booking.Create(d);
    var saved := booking.Save(now, rnd);
    if !saved {
      return Failure(500, ServerError);
    }
    var stored := store.Insert(booking.Doc());
    if !stored {
      return Failure(500, ServerError);
    }
    out := Success(201, booking.Doc());
  }

  /** POST /api/bookings: the new booking is saved (hooks included) and stored only on success. */
  method CreateBooking(store: BookingStore, profiles: Profiles.ProfileStore, caller: Caller,
                       b: BookingBody, id: string, now: nat, rnd: string) returns (out: Outcome<BookingDoc>)
    requires store.Valid()
    modifies store
    ensures store.Valid()
    ensures out == CreateOutcome(old(store.bookings), profiles.profiles, caller, b, id, now, rnd)
    ensures store.bookings == if out.Success? then old(store.bookings) + [out.value] else old(store.bookings)
  {
    if !CreateRulesPass(b) {
      return Failure(400, "Datos de validación incorrectos");
    }
    if caller.userType != "customer" {
      return Failure(403, "Solo los clientes pueden crear reservas");
    }
    if Profiles.FindOwned(profiles.profiles, b.profileId.value, b.modelId.value).None? {
      return Failure(404, "Perfil no encontrado");
    }
    if HasConflict(store.bookings, b.modelId.value, b.date.value) {
      return Failure(409, "Ya existe una reserva para esta fecha");
    }
    out := SaveNew(store, NewBookingDoc(id, caller, b, now), now, rnd);
  }

  /** Only customers create bookings: anyone else gets 403 once the body passes validation. */
  lemma CreateOnlyByCustomers(bs: seq<BookingDoc>, ps: seq<Profiles.ProfileDoc>, caller: Caller,
                              b: BookingBody, id: string, now: nat, rnd: string)
    requires CreateRulesPass(b) && caller.userType != "customer"
    ensures CreateOutcome(bs, ps, caller, b, id, now, rnd).Failure?
    ensures CreateOutcome(bs, ps, caller, b, id, now, rnd).code == 403
  {
  }

  /** A customer's booking needs a profile with the given id owned by the given model. */
  lemma CreateNeedsOwnedProfile(bs: seq<BookingDoc>, ps: seq<Profiles.ProfileDoc>, caller: Caller,
                                b: BookingBody, id: string, now: nat, rnd: string)
    requires CreateRulesPass(b) && caller.userType == "customer"
    requires forall i :: 0 <= i < |ps| ==> ps[i].id != b.profileId.value || ps[i].userId != b.modelId.value
    ensures CreateOutcome(bs, ps, caller, b, id, now, rnd) == Failure(404, "Perfil no encontrado")
  {
  }

  /** With an owned profile, the request is refused with 409 exactly when a pending or confirmed booking holds the instant. */
  lemma CreateConflict(bs: seq<BookingDoc>, ps: seq<Profiles.ProfileDoc>, caller: Caller,
                       b: BookingBody, id: string, now: nat, rnd: string)
    requires CreateRulesPass(b) && caller.userType == "customer"
    requires exists i :: 0 <= i < |ps| && ps[i].id == b.profileId.value && ps[i].userId == b.modelId.value
    ensures CreateOutcome(bs, ps, caller, b, id, now, rnd).code == 409
        <==> exists i :: 0 <= i < |bs| && bs[i].modelId == b.modelId.value && bs[i].date == b.date.value
                         && bs[i].status in [Pending, Confirmed]
  {
    var k :| 0 <= k < |ps| && ps[k].id == b.profileId.value && ps[k].userId == b.modelId.value;
    assert Profiles.FindOwned(ps, b.profileId.value, b.modelId.value).Some?;
    var m, t := b.modelId.value, b.date.value;
    if HasConflict(bs, m, t) {
      var i :| 0 <= i < |bs| && Blocks(bs[i], m, t);
      assert bs[i].status in [Pending, Confirmed];
    } else {
      assert CreateOutcome(bs, ps, caller, b, id, now, rnd) == Persist(bs, NewBookingDoc(id, caller, b, now), now, rnd);
      forall i | 0 <= i < |bs| && bs[i].modelId == m && bs[i].date == t
        ensures bs[i].status !in [Pending, Confirmed]
      {
        assert !Blocks(bs[i], m, t);
      }
    }
  }

  /** What a created booking holds. */
  lemma CreatedBookingFields(bs: seq<BookingDoc>, ps: seq<Profiles.ProfileDoc>, caller: Caller,
                             b: BookingBody, id: string, now: nat, rnd: string)
    requires CreateOutcome(bs, ps, caller, b, id, now, rnd).Success?
    ensures var d := CreateOutcome(bs, ps, caller, b, id, now, rnd).value;
      && d.customerId == caller.userId && d.modelId == b.modelId.value && d.profileId == b.profileId.value
      && d.status == Pending && d.pricing.currency == "EUR"
      && d.pricing.hourlyRate == NumericValue(b.pricing.value.hourlyRate.value)
      && d.pricing.totalAmount == NumericValue(b.pricing.value.totalAmount.value)
      && d.customerNotes == Some(if b.customerNotes.Some? && b.customerNotes.value != "" then b.customerNotes.value else "")
      && d.paymentMethod == (if b.paymentMethod.Some? && b.paymentMethod.value != "" then b.paymentMethod.value else "cash")
      && (b.location.None? ==> d.location == Location(None, None, None))
      && d.confirmationCode == Some(ConfirmationCode(now, rnd))
      && d.createdAt == now && d.updatedAt == now
  {
  }

  /**
   * A body the shared `createBooking` rules accept, sent by a customer for a profile
   * the model owns on a free slot with a new id and code, is created exactly when
   * the two fields no rule reads, the payment method and the customer notes, pass
   * the schema. The booking then lies after the validation clock, lasts 1 to 24
   * hours, names at least one service and keeps a time and phone the shared
   * patterns accept.
   */
  lemma SharedRulesCreate(bs: seq<BookingDoc>, ps: seq<Profiles.ProfileDoc>, caller: Caller,
                          b: BookingBody, id: string, now: nat, rnd: string)
    requires Validation.CreateBooking(b, now) && caller.userType == "customer" && caller.userId != ""
    requires Profiles.FindOwned(ps, b.profileId.value, b.modelId.value).Some?
    requires !HasConflict(bs, b.modelId.value, b.date.value)
    requires FindById(bs, id).None? && !CodeInUse(bs, Some(ConfirmationCode(now, rnd)))
    ensures var r := CreateOutcome(bs, ps, caller, b, id, now, rnd);
      && (r.Success? <==>
            && (!Truthy(b.paymentMethod) || b.paymentMethod.value in ["cash", "card", "transfer"])
            && (!Truthy(b.customerNotes) || Utf16Length(b.customerNotes.value) <= 500))
      && (r.Success? ==>
            && r.value.date > now && 1 <= r.value.duration <= 24 && |r.value.services| >= 1
            && Validation.MatchTime(r.value.time) && Validation.MatchPhone(r.value.customerPhone))
  {
    SharedRulesStricter(b, now);
    var d := NewBookingDoc(id, caller, b, now);
    assert CreateOutcome(bs, ps, caller, b, id, now, rnd) == Persist(bs, d, now, rnd);
    SharedRulesSchema(id, caller, b, now);
  }

  /** The schema rules a booking built from a body the shared rules accept can still fail. */
  lemma SharedRulesSchema(id: string, caller: Caller, b: BookingBody, now: nat)
    requires Validation.CreateBooking(b, now) && caller.userId != ""
    ensures CreateRulesPass(b)
    ensures var d := NewBookingDoc(id, caller, b, now);
      && (SchemaValid(d) <==>
            && (!Truthy(b.paymentMethod) || b.paymentMethod.value in ["cash", "card", "transfer"])
            && (!Truthy(b.customerNotes) || Utf16Length(b.customerNotes.value) <= 500))
      && d.date > now && 1 <= d.duration <= 24 && |d.services| >= 1
      && Validation.MatchTime(d.time) && Validation.MatchPhone(d.customerPhone)
  {
    SharedRulesStricter(b, now);
    assert Trim(b.time.value) != "" by {
      Validation.MatchTimeMeaning(Trim(b.time.value));
    }
    assert Trim(b.customerPhone.value) != "" by {
      Validation.MatchPhoneMeaning(Trim(b.customerPhone.value));
    }
    NewBookingSchema(id, caller, b, now);
  }

  /** A new booking passes the schema exactly when its payment method and notes do. */
  lemma NewBookingSchema(id: string, caller: Caller, b: BookingBody, now: nat)
    requires CreateRulesPass(b) && caller.userId != ""
    requires Trim(b.time.value) != "" && Trim(b.customerPhone.value) != ""
    ensures SchemaValid(NewBookingDoc(id, caller, b, now)) <==>
      && (!Truthy(b.paymentMethod) || b.paymentMethod.value in ["cash", "card", "transfer"])
      && (!Truthy(b.customerNotes) || Utf16Length(b.customerNotes.value) <= 500)
  {
    var d := NewBookingDoc(id, caller, b, now);
    assert d.customerId == caller.userId && d.modelId == b.modelId.value && d.profileId == b.profileId.value;
    assert d.time == Trim(b.time.value) && d.customerPhone == Trim(b.customerPhone.value);
    assert 1 <= d.duration <= 24 && d.serviceType in ["incall", "outcall"] && d.paymentStatus == "pending";
    assert d.modelNotes.None? && d.cancellationReason.None?;
    assert d.paymentMethod == if Truthy(b.paymentMethod) then b.paymentMethod.value else "cash";
    assert d.customerNotes == Some(if Truthy(b.customerNotes) then b.customerNotes.value else "");
    assert Utf16Length("") == 0;
    SchemaOfNew(d);
  }

  /** For a document whose required fields are set, the schema rests on the payment method and the notes. */
  lemma SchemaOfNew(d: BookingDoc)
    requires d.customerId != "" && d.modelId != "" && d.profileId != "" && d.time != "" && d.customerPhone != ""
    requires 1 <= d.duration <= 24 && d.serviceType in ["incall", "outcall"] && d.paymentStatus == "pending"
    requires d.modelNotes.None? && d.cancellationReason.None?
    ensures SchemaValid(d) <==> d.paymentMethod in ["cash", "card", "transfer"] && MaxLength(d.customerNotes, 500)
  {
  }

  /** The total amount is never checked against the hourly rate and the duration: any numeric total gives the same answer code. */
  lemma TotalAmountUnchecked(bs: seq<BookingDoc>, ps: seq<Profiles.ProfileDoc>, caller: Caller,
                             b: BookingBody, id: string, now: nat, rnd: string, total: string)
    requires CreateRulesPass(b) && IsNumericText(total)
    ensures var b2 := b.(pricing := Some(b.pricing.value.(totalAmount := Some(total))));
      CreateOutcome(bs, ps, caller, b2, id, now, rnd).code == CreateOutcome(bs, ps, caller, b, id, now, rnd).code
  {
  }

  // ------------------------------------------------------------------ view

  /** The caller is the booking's customer or its model. */
  predicate IsParticipant(d: BookingDoc, userId: string) {
    d.customerId == userId || d.modelId == userId
  }

  /** GET /api/bookings/:id (lines 189-228). An id that is not an ObjectId fails the cast (500). */
  function ViewBooking(bs: seq<BookingDoc>, caller: Caller, id: string): (r: Outcome<BookingDoc>)
    ensures r.Success? <==> IsMongoId(id) && FindById(bs, id).Some? && IsParticipant(bs[FindById(bs, id).value], caller.userId)
    ensures r.Success? ==> r.code == 200 && r.value.id == id && IsParticipant(r.value, caller.userId)
    ensures IsMongoId(id) && FindById(bs, id).Some? && !IsParticipant(bs[FindById(bs, id).value], caller.userId)
            ==> r.Failure? && r.code == 403
  {
    if !IsMongoId(id) then Failure(500, ServerError)
    else match FindById(bs, id)
      case None => Failure(404, "Reserva no encontrada")
      case Some(k) =>
        if IsParticipant(bs[k], caller.userId) then Success(200, bs[k])
        else Failure(403, "No autorizado para ver esta reserva")
  }

  // --------------------------------------------------------- status update

  /** The inline rules of PATCH /api/bookings/:id/status (lines 231-233). */
  predicate StatusRulesPass(b: StatusBody) {
    IsIn(b.status, TargetStatuses) && (b.notes.None? || VisibleLength(Trim(b.notes.value)) <= 500)
  }

  function TargetStatus(t: string): (s: Status)
    requires t in TargetStatuses
    ensures s != Pending && StatusName(s) == t
  {
    if t == "confirmed" then Confirmed
    else if t == "cancelled" then Cancelled
    else if t == "completed" then Completed
    else NoShow
  }

  /** The switch of lines 267-302 on a document the caller may change. */
  function Switched(d: BookingDoc, target: Status, userId: string, notes: Option<string>, now: nat): (r: BookingDoc)
    ensures r.id == d.id && r.customerId == d.customerId && r.modelId == d.modelId
    ensures r.confirmationCode == d.confirmationCode
    ensures r.customerNotes == d.customerNotes && r.modelNotes == d.modelNotes
    ensures target != Pending ==> r.status == target
  {
    match target
    case Confirmed => d.(status := Confirmed)
    case Cancelled => d.(status := Cancelled, cancelledBy := Some(userId), cancelledAt := Some(now), cancellationReason := notes)
    case Completed => d.(status := Completed, completedAt := Some(now))
    case NoShow => d.(status := NoShow)
    case Pending => d
  }

  /** Lines 305-311: a customer's notes go to customerNotes, anyone else's to modelNotes. */
  function WithNotes(d: BookingDoc, userType: string, notes: string): BookingDoc {
    if userType == "customer" then d.(customerNotes := Some(notes)) else d.(modelNotes := Some(notes))
  }

  function RoleMessage(target: Status): string {
    match target
    case Confirmed => "Solo el modelo puede confirmar la reserva"
    case Completed => "Solo el modelo puede marcar como completada"
    case _ => "Solo el modelo puede marcar como no presentado"
  }

  /** The notes after the `trim()` sanitizer. */
  function TrimmedNotes(b: StatusBody): Option<string> {
    if b.notes.Some? then Some(Trim(b.notes.value)) else None
  }

  /** The answer of the two saves and the document they leave written, if any. */
  datatype Saves = Saves(out: Outcome<BookingDoc>, written: Option<BookingDoc>)

  /**
   * The save inside the switch, then (for notes present after trimming) the
   * second save: a failure of the second leaves the first written.
   */
  function SaveSwitched(d1: BookingDoc, userType: string, notes: Option<string>, now: nat): (r: Saves)
    ensures r.written.Some? <==> SchemaValid(d1)
    ensures r.written.Some? ==> SchemaValid(r.written.value) && r.written.value.id == d1.id
                                && r.written.value.confirmationCode == d1.confirmationCode
    ensures r.out.Success? ==> r.out.code == 200 && r.written == Some(r.out.value)
    ensures r.out.Failure? ==> r.out.code == 500
  {
    if !SchemaValid(d1) then Saves(Failure(500, ServerError), None)
    else
      var s1 := d1.(updatedAt := now);
      if !Truthy(notes) then Saves(Success(200, s1), Some(s1))
      else
        var d2 := WithNotes(s1, userType, notes.value);
        if !SchemaValid(d2) then Saves(Failure(500, ServerError), Some(s1))
        else Saves(Success(200, d2.(updatedAt := now)), Some(d2.(updatedAt := now)))
  }

  /** The answer and the stored bookings after a status update. */
  datatype UpdateResult = UpdateResult(out: Outcome<BookingDoc>, bookings: seq<BookingDoc>)

  /** PATCH /api/bookings/:id/status. */
  function StatusUpdate(bs: seq<BookingDoc>, caller: Caller, id: string, b: StatusBody, now: nat): UpdateResult {
    if !StatusRulesPass(b) then UpdateResult(Failure(400, "Datos de validación incorrectos"), bs)
    else if !IsMongoId(id) then UpdateResult(Failure(500, ServerError), bs)
    else match FindById(bs, id)
      case None => UpdateResult(Failure(404, "Reserva no encontrada"), bs)
      case Some(k) =>
        if !IsParticipant(bs[k], caller.userId) then
          UpdateResult(Failure(403, "No autorizado para actualizar esta reserva"), bs)
        else
          var target := TargetStatus(b.status.value);
          if target != Cancelled && caller.userType != "model" then
            UpdateResult(Failure(403, RoleMessage(target)), bs)
          else
            var r := SaveSwitched(Switched(bs[k], target, caller.userId, TrimmedNotes(b), now),
                                  caller.userType, TrimmedNotes(b), now);
            UpdateResult(r.out, if r.written.Some? then bs[k := r.written.value] else bs)
  }

  /** The switch and the notes on a loaded booking, through its methods and `save()`. */
  method ApplyStatus(booking: Booking, target: Status, caller: Caller, notes: Option<string>, now: nat)
    returns (r: Saves)
    requires !booking.isNew && target != Pending
    modifies booking
    ensures r == SaveSwitched(Switched(old(booking.Doc()), target, caller.userId, notes, now), caller.userType, notes, now)
  {
    ghost var d1 := Switched(booking.Doc(), target, caller.userId, notes, now);
    var ok: bool;
    if target == Confirmed {
      ok := booking.Confirm(now, "");
    } else if target == Cancelled {
      ok := booking.Cancel(caller.userId, notes, now, "");
    } else if target == Completed {
      ok := booking.Complete(now, "");
    } else {
      booking.status := NoShow;
      ok := booking.Save(now, "");
    }
    assert ok == SchemaValid(d1);
    if !ok {
      return Saves(Failure(500, ServerError), None);
    }
    assert booking.Doc() == d1.(updatedAt := now);
    var first := booking.Doc();
    if Truthy(notes) {
      if caller.userType == "customer" {
        booking.customerNotes := notes;
      } else {
        booking.modelNotes := notes;
      }
      assert booking.Doc() == WithNotes(first, caller.userType, notes.value);
      ok := booking.Save(now, "");
      if !ok {
        return Saves(Failure(500, ServerError), Some(first));
      }
      assert booking.Doc() == WithNotes(first, caller.userType, notes.value).(updatedAt := now);
    }
    r := Saves(Success(200, booking.Doc()), Some(booking.Doc()));
  }

  /** PATCH /api/bookings/:id/status on the collection; each successful save is written back. */
  method UpdateStatus(store: BookingStore, caller: Caller, id: string, b: StatusBody, now: nat)
    returns (out: Outcome<BookingDoc>)
    requires store.Valid()
    modifies store
    ensures store.Valid()
    ensures UpdateResult(out, store.bookings) == StatusUpdate(old(store.bookings), caller, id, b, now)
  {
    if !StatusRulesPass(b) {
      return Failure(400, "Datos de validación incorrectos");
    }
    if !IsMongoId(id) {
      return Failure(500, ServerError);
    }
    var found := FindById(store.bookings, id);
    if found.None? {
      return Failure(404, "Reserva no encontrada");
    }
    var k := found.value;
    var booking := new Booking.Load(store.bookings[k]);
    var isCustomer := booking.customerId == caller.userId;
    var isModel := booking.modelId == caller.userId;
    if !isCustomer && !isModel {
      return Failure(403, "No autorizado para actualizar esta reserva");
    }
    var target := TargetStatus(b.status.value);
    if target != Cancelled && caller.userType != "model" {
      return Failure(403, RoleMessage(target));
    }
    var r := ApplyStatus(booking, target, caller, TrimmedNotes(b), now);
    if r.written.Some? {
      store.Replace(k, r.written.value);
    }
    out := r.out;
  }

  /** Someone who is neither the customer nor the model of the booking gets 403, and nothing changes. */
  lemma OutsidersCannotUpdate(bs: seq<BookingDoc>, caller: Caller, id: string, b: StatusBody, now: nat)
    requires StatusRulesPass(b) && IsMongoId(id) && FindById(bs, id).Some?
    requires !IsParticipant(bs[FindById(bs, id).value], caller.userId)
    ensures StatusUpdate(bs, caller, id, b, now) == UpdateResult(Failure(403, "No autorizado para actualizar esta reserva"), bs)
  {
  }

  /** Confirming, completing and marking a no-show need the model role; a customer who asks gets 403 and nothing changes. */
  lemma OnlyModelsConfirmCompleteOrMarkNoShow(bs: seq<BookingDoc>, caller: Caller, id: string, b: StatusBody, now: nat)
    requires StatusRulesPass(b) && b.status.value != "cancelled" && caller.userType != "model"
    ensures var r := StatusUpdate(bs, caller, id, b, now);
      r.out.Failure? && r.bookings == bs
  {
    assert TargetStatus(b.status.value) != Cancelled;
  }

  /**
   * The current status is never consulted: the answer is the same whatever
   * status the stored booking had, since every transition is allowed.
   */
  lemma CurrentStatusIgnored(bs: seq<BookingDoc>, caller: Caller, id: string, b: StatusBody, now: nat, k: nat, s: Status)
    requires k < |bs|
    ensures StatusUpdate(bs, caller, id, b, now).out == StatusUpdate(bs[k := bs[k].(status := s)], caller, id, b, now).out
  {
    var bs2 := bs[k := bs[k].(status := s)];
    assert forall i :: 0 <= i < |bs| ==> bs2[i] == bs[i].(status := bs2[i].status);
    FindFirstCongruent(bs, bs2, (d: BookingDoc) => d.id == id, (d: BookingDoc) => d.id == id);
    if StatusRulesPass(b) && IsMongoId(id) && FindById(bs, id).Some? {
      var j := FindById(bs, id).value;
      SwitchedForgetsStatus(bs[j], bs2[j].status, TargetStatus(b.status.value), caller.userId, TrimmedNotes(b), now);
    }
  }

  /** A switch to a status other than pending overwrites whatever status the booking had. */
  lemma SwitchedForgetsStatus(d: BookingDoc, s: Status, target: Status, userId: string, notes: Option<string>, now: nat)
    requires target != Pending
    ensures Switched(d.(status := s), target, userId, notes, now) == Switched(d, target, userId, notes, now)
  {
  }

  /** For example, the model can confirm a cancelled booking. */
  lemma CancelledBookingCanBeConfirmed(bs: seq<BookingDoc>, id: string, now: nat)
    requires IsMongoId(id) && FindById(bs, id).Some?
    requires var d := bs[FindById(bs, id).value]; d.status == Cancelled && SchemaValid(d)
    ensures var d := bs[FindById(bs, id).value];
      var r := StatusUpdate(bs, Caller(d.modelId, "model"), id, StatusBody(Some("confirmed"), None), now);
      r.out.Success? && r.out.value.status == Confirmed
  {
  }

  /** Trimmed notes that are not empty go to the caller's side of the booking; on cancel they are also the reason. */
  lemma NotesRouting(bs: seq<BookingDoc>, caller: Caller, id: string, b: StatusBody, now: nat)
    requires StatusUpdate(bs, caller, id, b, now).out.Success?
    ensures FindById(bs, id).Some?
    ensures var d := StatusUpdate(bs, caller, id, b, now).out.value;
      var old_ := bs[FindById(bs, id).value];
      && (b.notes.Some? && Trim(b.notes.value) != "" && caller.userType == "customer" ==>
            d.customerNotes == Some(Trim(b.notes.value)) && d.modelNotes == old_.modelNotes)
      && (b.notes.Some? && Trim(b.notes.value) != "" && caller.userType != "customer" ==>
            d.modelNotes == Some(Trim(b.notes.value)) && d.customerNotes == old_.customerNotes)
      && (b.notes.None? || Trim(b.notes.value) == "" ==>
            d.customerNotes == old_.customerNotes && d.modelNotes == old_.modelNotes)
      && (b.status.value == "cancelled" ==>
            && d.status == Cancelled && d.cancelledBy == Some(caller.userId) && d.cancelledAt == Some(now)
            && d.cancellationReason == (if b.notes.Some? then Some(Trim(b.notes.value)) else None))
  {
    var k := FindById(bs, id).value;
    var d1 := Switched(bs[k], TargetStatus(b.status.value), caller.userId, TrimmedNotes(b), now);
    assert StatusUpdate(bs, caller, id, b, now).out == SaveSwitched(d1, caller.userType, TrimmedNotes(b), now).out;
  }

  // ----------------------------------------------------------- statistics

  /** The `overview` object: the four fixed keys, and the `no-show` key only when that group exists. */
  datatype Overview = Overview(total: int, pending: int, confirmed: int, completed: int, cancelled: int, noShow: Option<int>)

  /** The `forEach` of lines 344-347: each group adds to total and sets the key named by its status. */
  method FoldOverview(stats: seq<StatGroup>) returns (o: Overview)
    ensures o.total == SumCounts(stats)
    ensures o.pending == LastCount(stats, Pending) && o.confirmed == LastCount(stats, Confirmed)
    ensures o.completed == LastCount(stats, Completed) && o.cancelled == LastCount(stats, Cancelled)
    ensures o.noShow == if HasGroup(stats, NoShow) then Some(LastCount(stats, NoShow)) else None
  {
    o := Overview(0, 0, 0, 0, 0, None);
    var i := 0;
    while i < |stats|
      invariant 0 <= i <= |stats|
      invariant o.total == SumCounts(stats[..i])
      invariant o.pending == LastCount(stats[..i], Pending) && o.confirmed == LastCount(stats[..i], Confirmed)
      invariant o.completed == LastCount(stats[..i], Completed) && o.cancelled == LastCount(stats[..i], Cancelled)
      invariant o.noShow == if HasGroup(stats[..i], NoShow) then Some(LastCount(stats[..i], NoShow)) else None
    {
      var g := stats[i];
      assert stats[..i + 1][..i] == stats[..i] && stats[..i + 1][i] == g;
      o := o.(total := o.total + g.count);
      match g.status {
        case Pending => o := o.(pending := g.count);
        case Confirmed => o := o.(confirmed := g.count);
        case Completed => o := o.(completed := g.count);
        case Cancelled => o := o.(cancelled := g.count);
        case NoShow => o := o.(noShow := Some(g.count));
      }
      if g.status == NoShow {
        assert HasGroup(stats[..i + 1], NoShow) by { assert stats[..i + 1][i].status == NoShow; }
      } else {
        assert HasGroup(stats[..i + 1], NoShow) == HasGroup(stats[..i], NoShow) by {
          if HasGroup(stats[..i + 1], NoShow) {
            var j :| 0 <= j < i + 1 && stats[..i + 1][j].status == NoShow;
            assert j < i && stats[..i][j] == stats[..i + 1][j];
          }
          if HasGroup(stats[..i], NoShow) {
            var j :| 0 <= j < i && stats[..i][j].status == NoShow;
            assert stats[..i + 1][j] == stats[..i][j];
          }
        }
      }
      i := i + 1;
    }
    assert stats[..i] == stats;
  }

  /**
   * GET /api/bookings/stats/overview: total is the number of the caller's bookings,
   * each fixed key is the number with that status (0 when none), and the no-show
   * key appears exactly when some booking has that status.
   */
  method StatsOverview(bs: seq<BookingDoc>, caller: Caller) returns (o: Overview)
    ensures var mine := Filter(bs, MatchesCaller(caller.userId, caller.userType));
      && o.total == |mine|
      && o.pending == CountWithStatus(mine, Pending) && o.confirmed == CountWithStatus(mine, Confirmed)
      && o.completed == CountWithStatus(mine, Completed) && o.cancelled == CountWithStatus(mine, Cancelled)
      && o.noShow == if CountWithStatus(mine, NoShow) > 0 then Some(CountWithStatus(mine, NoShow)) else None
  {
    var stats := GetStats(bs, caller.userId, caller.userType);
    o := FoldOverview(stats);
    GetStatsTotal(bs, caller.userId, caller.userType);
    CountIsFilterSize(bs, MatchesCaller(caller.userId, caller.userType));
    GetStatsCounts(bs, caller.userId, caller.userType, Pending);
    GetStatsCounts(bs, caller.userId, caller.userType, Confirmed);
    GetStatsCounts(bs, caller.userId, caller.userType, Completed);
    GetStatsCounts(bs, caller.userId, caller.userType, Cancelled);
    GetStatsCounts(bs, caller.userId, caller.userType, NoShow);
  }
}

=== FILE: home_page.dfy ===
/**
 * The browse page (frontend/src/pages/HomePage.js): the listings of the page's
 * mock data that pass the search term and the filter record, then reordered in
 * place by the chosen sort.
 */
module HomePage {
  import opened Text
  import opened Seqs
  import opened SearchFilters

  /** A listing of the page's mock data. */
  datatype Listing = Listing(
    id: int, name: string, age: int, location: string, description: string,
    images: seq<string>, verified: bool, featured: bool, online: bool,
    incall: string, outcall: string, services: seq<string>, ethnicity: string, category: string)

  /** Lines 10-23: the record the page starts with. */
  const InitialFilters := Filters(
    Str("all"), Str("all"), Str("all"), Str("all"), Str(""), Str(""), Str(""), Str(""),
    Str("all"), Flag(false), Flag(false), Flag(false))

  /** `String(v)`, the text `parseInt` reads. */
  function AsText(v: Value): string {
    match v
    case Str(s) => s
    case Flag(b) => if b then "true" else "false"
  }

  // -------------------------------------------------------------- filtering

  /** Lines 29-31: the term occurs, ignoring case, in the name, the description or the location. */
  predicate SearchOk(p: Listing, term: string) {
    || ContainsIgnoreCase(p.name, term)
    || ContainsIgnoreCase(p.description, term)
    || ContainsIgnoreCase(p.location, term)
  }

  /** Lines 33, 36, 37: `!filters[key] || field === filters[key]`. */
  predicate EqualsOrUnset(v: Value, field: string) {
    !Truthy(v) || v == Str(field)
  }

  /** Lines 34-35: `!filters[key] || age >= parseInt(filters[key])` (or `<=`); a comparison with NaN is false. */
  predicate AgeBoundOk(v: Value, age: int, atLeast: bool) {
    !Truthy(v) ||
      match ParseInt(AsText(v))
      case None => false
      case Some(n) => if atLeast then age >= n else age <= n
  }

  /** Lines 28-44 as written: the predicate the page filters with, reading `'all'` as a value. */
  predicate PageAdmitsAsWritten(p: Listing, term: string, f: Filters) {
    && SearchOk(p, term)
    && EqualsOrUnset(f.location, p.location)
    && AgeBoundOk(f.minAge, p.age, true)
    && AgeBoundOk(f.maxAge, p.age, false)
    && EqualsOrUnset(f.ethnicity, p.ethnicity)
    && EqualsOrUnset(f.category, p.category)
    && (!Truthy(f.verified) || p.verified)
    && (!Truthy(f.availability) || f.availability != Str("online") || p.online)
  }

  /**
   * With the record the page starts with nothing is shown: `minAge` is `'all'`,
   * which `parseInt` reads as NaN, and no age compares true with NaN.
   */
  lemma InitialShowsNothing(p: Listing, term: string)
    ensures !PageAdmitsAsWritten(p, term, InitialFilters)
  {
    ParseIntOfWord("all");
  }

  /** `'all'`, the value of the panel's "All" choices, stands for no choice. */
  function Chosen(v: Value): (r: Value)
    ensures !Truthy(r) <==> !Truthy(v) || v == Str("all")
    ensures v != Str("all") ==> r == v
  {
    if v == Str("all") then Str("") else v
  }

  /** The record with every `'all'` of the five select filters read as no choice. */
  function ChosenFilters(f: Filters): Filters {
    f.(location := Chosen(f.location), minAge := Chosen(f.minAge), maxAge := Chosen(f.maxAge),
       ethnicity := Chosen(f.ethnicity), category := Chosen(f.category))
  }

  /** The predicate the page filters with, `'all'` meaning that the filter is not applied. */
  predicate PageAdmits(p: Listing, term: string, f: Filters) {
    PageAdmitsAsWritten(p, term, ChosenFilters(f))
  }

  /** With the record the page starts with and no search term, every listing is shown. */
  lemma InitialShowsEverything(p: Listing)
    ensures PageAdmits(p, "", InitialFilters)
  {
    EmptyTermMatches(p.name);
  }

  /** The correction changes nothing for a record in which no select filter is `'all'`. */
  lemma AdmitsAgreesWithoutAll(p: Listing, term: string, f: Filters)
    requires f.location != Str("all") && f.minAge != Str("all") && f.maxAge != Str("all")
    requires f.ethnicity != Str("all") && f.category != Str("all")
    ensures PageAdmits(p, term, f) == PageAdmitsAsWritten(p, term, f)
  {
    assert ChosenFilters(f) == f;
  }

  /** Choosing "All" for a select filter is clearing it. */
  lemma AllIsCleared(p: Listing, term: string, f: Filters, k: Key)
    requires k in {Location, MinAge, MaxAge, Ethnicity, Category}
    ensures PageAdmits(p, term, HandleFilterChange(f, k, Str("all"))) == PageAdmits(p, term, HandleFilterChange(f, k, Str("")))
  {
    assert ChosenFilters(HandleFilterChange(f, k, Str("all"))) == ChosenFilters(HandleFilterChange(f, k, Str("")));
  }

  function Matches(term: string, f: Filters): Listing -> bool {
    (p: Listing) => PageAdmits(p, term, f)
  }

  /** Line 28: `mockProfiles.filter(...)`. */
  function Filtered(ps: seq<Listing>, term: string, f: Filters): seq<Listing> {
    Filter(ps, Matches(term, f))
  }

  /** Every listing shown passes all the filters, and every listing that passes them is shown. */
  lemma FilteredExactly(ps: seq<Listing>, term: string, f: Filters)
    ensures forall p :: p in Filtered(ps, term, f) <==> p in ps && PageAdmits(p, term, f)
  {
    forall p | p in ps && PageAdmits(p, term, f)
      ensures p in Filtered(ps, term, f)
    {
      var i :| 0 <= i < |ps| && ps[i] == p;
    }
  }

  /** After `clearFilters` every listing is shown. */
  lemma ClearedShowsEverything(p: Listing, panel: Panel)
    ensures var c := ClearFilters(panel);
      PageAdmits(p, c.searchTerm, c.filters)
  {
    EmptyTermMatches(p.name);
  }

  /** The services, price, photo and video filters are never read: changing them changes nothing shown. */
  lemma UnreadFilters(p: Listing, term: string, f: Filters, k: Key, v: Value)
    requires k in {Services, PriceMin, PriceMax, WithPhotos, WithVideo}
    ensures PageAdmits(p, term, HandleFilterChange(f, k, v)) == PageAdmits(p, term, f)
  {
  }

  /** Lowering a text's case twice is lowering it once. */
  lemma ToLowerIdempotent(s: string)
    ensures ToLower(ToLower(s)) == ToLower(s)
  {
  }

  /** Lower-casing what upper-casing made is lower-casing the original. */
  lemma ToLowerOfUpper(s: string)
    ensures ToLower(ToUpper(s)) == ToLower(s)
  {
  }

  /** The search ignores the case of the term. */
  lemma SearchIgnoresCase(p: Listing, term: string, f: Filters)
    ensures PageAdmits(p, ToLower(term), f) == PageAdmits(p, term, f)
    ensures PageAdmits(p, ToUpper(term), f) == PageAdmits(p, term, f)
  {
    ToLowerIdempotent(term);
    ToLowerOfUpper(term);
  }

  // ---------------------------------------------------------------- sorting

  /** The keys never increase along s. */
  ghost predicate NonIncreasing<T>(s: seq<T>, key: T -> int) {
    forall i, j :: 0 <= i < j < |s| ==> key(s[i]) >= key(s[j])
  }

  /** Line 49: a featured listing ranks 1, any other 0. */
  function FeaturedRank(p: Listing): int {
    if p.featured then 1 else 0
  }

  /** Line 52. */
  function Newness(p: Listing): int {
    p.id
  }

  /** Lines 56-57: the incall rate with every `£`, `/` and `h` deleted. */
  function PriceText(rate: string): (r: string)
    ensures forall i :: 0 <= i < |r| ==> r[i] != '£' && r[i] != '/' && r[i] != 'h'
  {
    Filter(rate, KeptInPrice)
  }

  /** The characters `replace(/[£\/h]/g, '')` keeps. */
  predicate KeptInPrice(c: char) {
    c != '£' && c != '/' && c != 'h'
  }

  /** Lines 56-57: `parseInt` of the price text; NaN is taken as 0. */
  function Price(p: Listing): int {
    match ParseInt(PriceText(p.incall))
    case Some(n) => n
    case None => 0
  }

  function Cheapness(p: Listing): int {
    -Price(p)
  }

  /**
   * Lines 47-70: each known sort is `(a, b) => key(b) - key(a)` for some key, which
   * puts larger keys first; any other choice leaves the order alone.
   */
  function SortKey(sortBy: string): Option<Listing -> int> {
    if sortBy == "featured" then Some(FeaturedRank)
    else if sortBy == "newest" then Some(Newness)
    else if sortBy == "price-low" then Some(Cheapness)
    else if sortBy == "price-high" then Some(Price)
    else None
  }

  /** A rate written `£<n>/h` has price n. */
  lemma PriceOfRate(p: Listing, n: nat)
    requires p.incall == "£" + DecimalString(n) + "/h"
    ensures Price(p) == n
  {
    var d := DecimalString(n);
    PriceTextOfDigits(d);
    ParseIntDecimal(n);
  }

  /** The price text of `£<digits>/h` is the digits. */
  lemma PriceTextOfDigits(d: string)
    requires AllDigits(d)
    ensures PriceText("£" + d + "/h") == d
  {
    FilterAppend("£" + d, "/h", KeptInPrice);
    FilterAppend("£", d, KeptInPrice);
    FilterAll(d, KeptInPrice);
    FilterNone("£", KeptInPrice);
    FilterNone("/h", KeptInPrice);
  }

  /** Sorted by featured rank: no listing that is not featured comes before one that is. */
  lemma FeaturedFirst(s: seq<Listing>)
    requires NonIncreasing(s, FeaturedRank)
    ensures forall i, j :: 0 <= i < j < |s| && s[j].featured ==> s[i].featured
  {
  }

  /** Sorted by cheapness: prices never decrease. */
  lemma CheapestFirst(s: seq<Listing>)
    requires NonIncreasing(s, Cheapness)
    ensures forall i, j :: 0 <= i < j < |s| ==> Price(s[i]) <= Price(s[j])
  {
  }

  /**
   * Inserting x behind a run s that is already in order: x moves left past the
   * elements whose key is smaller than its own and stops behind the first one
   * that is not, so it stays behind every element with an equal key.
   */
  function Insert<T>(s: seq<T>, x: T, key: T -> int): seq<T>
    decreases |s|
  {
    if s == [] then [x]
    else if key(s[|s| - 1]) < key(x) then Insert(s[..|s| - 1], x, key) + [s[|s| - 1]]
    else s + [x]
  }

  /** Insertion sort by key, larger keys first. */
  function InsertionSort<T>(s: seq<T>, key: T -> int): seq<T>
    decreases |s|
  {
    if s == [] then [] else Insert(InsertionSort(s[..|s| - 1], key), s[|s| - 1], key)
  }

  /** The elements whose key is k. */
  function WithKey<T>(key: T -> int, k: int): T -> bool {
    (x: T) => key(x) == k
  }

  /** For every key, the elements with that key come in the same order in t as in s. */
  ghost predicate Stable<T>(s: seq<T>, t: seq<T>, key: T -> int) {
    forall k :: Filter(t, WithKey(key, k)) == Filter(s, WithKey(key, k))
  }

  /** Inserting adds x to the elements. */
  lemma {:induction false} InsertPermutes<T>(s: seq<T>, x: T, key: T -> int)
    ensures multiset(Insert(s, x, key)) == multiset(s) + multiset{x}
    decreases |s|
  {
    if s != [] && key(s[|s| - 1]) < key(x) {
      InsertPermutes(s[..|s| - 1], x, key);
      assert s == s[..|s| - 1] + [s[|s| - 1]];
    }
  }

  /** A lower bound on every key of s and on x's key bounds every key of the insertion. */
  lemma InsertKeysAtLeast<T>(s: seq<T>, x: T, key: T -> int, lo: int)
    requires forall i :: 0 <= i < |s| ==> key(s[i]) >= lo
    requires key(x) >= lo
    ensures forall i :: 0 <= i < |Insert(s, x, key)| ==> key(Insert(s, x, key)[i]) >= lo
  {
    var r := Insert(s, x, key);
    InsertPermutes(s, x, key);
    forall i | 0 <= i < |r|
      ensures key(r[i]) >= lo
    {
      assert r[i] in multiset(s) + multiset{x};
      if r[i] in multiset(s) {
        var j :| 0 <= j < |s| && s[j] == r[i];
      }
    }
  }

  /** Inserting into a run in order keeps it in order. */
  lemma {:induction false} InsertSorted<T>(s: seq<T>, x: T, key: T -> int)
    requires NonIncreasing(s, key)
    ensures NonIncreasing(Insert(s, x, key), key)
    decreases |s|
  {
    if s != [] {
      var init, last := s[..|s| - 1], s[|s| - 1];
      if key(last) < key(x) {
        InsertSorted(init, x, key);
        InsertKeysAtLeast(init, x, key, key(last));
      }
    }
  }

  /** Two single elements that do not both pass p can be selected in either order. */
  lemma FilterSinglesCommute<T>(x: T, y: T, p: T -> bool)
    requires !(p(x) && p(y))
    ensures Filter([x], p) + Filter([y], p) == Filter([y], p) + Filter([x], p)
  {
    assert [x][1..] == [] && [y][1..] == [];
  }

  /** An inserted element comes behind every element with the same key. */
  lemma {:induction false} InsertStable<T>(s: seq<T>, x: T, key: T -> int, k: int)
    ensures Filter(Insert(s, x, key), WithKey(key, k)) == Filter(s + [x], WithKey(key, k))
    decreases |s|
  {
    var p := WithKey(key, k);
    if s != [] && key(s[|s| - 1]) < key(x) {
      var init, last := s[..|s| - 1], s[|s| - 1];
      InsertStable(init, x, key, k);
      calc {
        Filter(Insert(s, x, key), p);
        Filter(Insert(init, x, key) + [last], p);
        { FilterAppend(Insert(init, x, key), [last], p); }
        Filter(Insert(init, x, key), p) + Filter([last], p);
        { FilterAppend(init, [x], p); }
        Filter(init, p) + Filter([x], p) + Filter([last], p);
        { FilterSinglesCommute(x, last, p); }
        Filter(init, p) + Filter([last], p) + Filter([x], p);
        { FilterAppend(init, [last], p); assert init + [last] == s; }
        Filter(s, p) + Filter([x], p);
        { FilterAppend(s, [x], p); }
        Filter(s + [x], p);
      }
    }
  }

  /**
   * Insertion sort puts larger keys first, keeps the elements, and keeps the order
   * of the elements that share a key.
   */
  lemma {:induction false} InsertionSortSorts<T>(s: seq<T>, key: T -> int)
    ensures NonIncreasing(InsertionSort(s, key), key)
    ensures multiset(InsertionSort(s, key)) == multiset(s)
    ensures Stable(s, InsertionSort(s, key), key)
    decreases |s|
  {
    if s != [] {
      var init, last := s[..|s| - 1], s[|s| - 1];
      assert s == init + [last];
      InsertionSortSorts(init, key);
      InsertSorted(InsertionSort(init, key), last, key);
      InsertPermutes(InsertionSort(init, key), last, key);
      forall k
        ensures Filter(InsertionSort(s, key), WithKey(key, k)) == Filter(s, WithKey(key, k))
      {
        InsertStable(InsertionSort(init, key), last, key, k);
        FilterAppend(InsertionSort(init, key), [last], WithKey(key, k));
        FilterAppend(init, [last], WithKey(key, k));
      }
    }
  }

  /**
   * Lines 49-66: `Array.prototype.sort` with the comparator of a key, on the array
   * itself. The sort is stable (ECMAScript 2019 on), like the insertion sort here:
   * each element in turn moves left past the elements with smaller keys.
   */
  method SortInPlace<T>(a: array<T>, key: T -> int)
    modifies a
    ensures a[..] == InsertionSort(old(a[..]), key)
    ensures NonIncreasing(a[..], key)
    ensures multiset(a[..]) == multiset(old(a[..]))
    ensures Stable(old(a[..]), a[..], key)
  {
    ghost var s := a[..];
    var i := 0;
    while i < a.Length
      invariant 0 <= i <= a.Length
      invariant a[..i] == InsertionSort(s[..i], key)
      invariant a[i..] == s[i..]
    {
      SiftLeft(a, i, key);
      assert s[..i + 1][..i] == s[..i];
      i := i + 1;
    }
    assert a[..] == a[..a.Length] && s == s[..a.Length];
    InsertionSortSorts(s, key);
  }

  /** Moves a[i] left past the elements with smaller keys: a[..i + 1] becomes the insertion. */
  method SiftLeft<T>(a: array<T>, i: nat, key: T -> int)
    requires i < a.Length
    modifies a
    ensures a[..i + 1] == Insert(old(a[..i]), old(a[i]), key)
    ensures a[i + 1..] == old(a[i + 1..])
  {
    ghost var s, x, rest := a[..i], a[i], a[i + 1..];
    assert a[..] == s + [x] + rest;
    assert s[..i] == s && s[i..] == [];
    var j := i;
    while j > 0 && key(a[j - 1]) < key(a[j])
      invariant 0 <= j <= i
      invariant a[..] == s[..j] + [x] + s[j..] + rest
      invariant Insert(s, x, key) == Insert(s[..j], x, key) + s[j..]
    {
      ghost var before := a[..];
      a[j - 1], a[j] := a[j], a[j - 1];
      assert a[..] == before[j - 1 := before[j]][j := before[j - 1]];
      SwapLeft(s, x, rest, j);
      InsertStep(s, x, key, j);
      j := j - 1;
    }
    SiftStop(s, x, key, j);
    assert a[..i + 1] == (s[..j] + [x] + s[j..] + rest)[..i + 1] == s[..j] + [x] + s[j..];
    assert a[i + 1..] == (s[..j] + [x] + s[j..] + rest)[i + 1..] == rest;
  }

  /** Exchanging x with its left neighbour moves it one place left. */
  lemma SwapLeft<T>(s: seq<T>, x: T, rest: seq<T>, j: nat)
    requires 0 < j <= |s|
    ensures var t := s[..j] + [x] + s[j..] + rest;
      t[j - 1 := t[j]][j := t[j - 1]] == s[..j - 1] + [x] + s[j - 1..] + rest
  {
    var t := s[..j] + [x] + s[j..] + rest;
    var u := t[j - 1 := t[j]][j := t[j - 1]];
    var v := s[..j - 1] + [x] + s[j - 1..] + rest;
    assert |u| == |v|;
    forall m | 0 <= m < |u|
      ensures u[m] == v[m]
    {
      if m < j - 1 {
        assert u[m] == s[m] == v[m];
      } else if m > j {
        assert u[m] == t[m] == v[m];
      }
    }
  }

  /** Passing one element with a smaller key moves that element behind x's insertion. */
  lemma InsertStep<T>(s: seq<T>, x: T, key: T -> int, j: nat)
    requires 0 < j <= |s| && key(s[j - 1]) < key(x)
    ensures Insert(s[..j], x, key) + s[j..] == Insert(s[..j - 1], x, key) + s[j - 1..]
  {
    assert s[..j][..j - 1] == s[..j - 1];
    assert s[j - 1..] == [s[j - 1]] + s[j..];
  }

  /** Where x stops, the rest of its insertion is the elements before it. */
  lemma SiftStop<T>(s: seq<T>, x: T, key: T -> int, j: nat)
    requires j <= |s| && (j == 0 || key(s[j - 1]) >= key(x))
    ensures Insert(s[..j], x, key) == s[..j] + [x]
  {
  }

  /**
   * Lines 27-73: the listings to show. The result holds exactly the listings that
   * pass the filters, ordered by the chosen sort with listings of equal key in
   * their data order, or wholly in their data order when the sort is unknown.
   */
  method FilteredProfiles(ps: seq<Listing>, term: string, f: Filters, sortBy: string) returns (r: seq<Listing>)
    ensures multiset(r) == multiset(Filtered(ps, term, f))
    ensures forall p :: p in r <==> p in ps && PageAdmits(p, term, f)
    ensures SortKey(sortBy).Some? ==> NonIncreasing(r, SortKey(sortBy).value)
    ensures SortKey(sortBy).Some? ==> Stable(Filtered(ps, term, f), r, SortKey(sortBy).value)
    ensures SortKey(sortBy).None? ==> r == Filtered(ps, term, f)
  {
    var filtered := Filtered(ps, term, f);
    FilteredExactly(ps, term, f);
    var a := new Listing[|filtered|](i requires 0 <= i < |filtered| => filtered[i]);
    assert a[..] == filtered;
    var key := SortKey(sortBy);
    if key.Some? {
      SortInPlace(a, key.value);
    }
    r := a[..];
    forall p
      ensures p in r <==> p in filtered
    {
      assert p in r <==> p in multiset(r);
      assert p in filtered <==> p in multiset(filtered);
    }
  }
}

=== FILE: message_model.dfy ===
/**
 * The message document of backend/models/Message.js: its fields, defaults and
 * schema bounds, the pre-save hook that stamps `updatedAt`, and the three statics
 * the routes call: `getConversation` (a selection, newest first, paged),
 * `markAsRead` (a bulk update of one direction of a conversation) and
 * `getUnreadCount`. A reference field holds the hex text of an ObjectId.
 */
module Messages {
  import opened Text
  import opened Seqs
  import opened Sorting

  const MessageTypes: seq<string> := ["text", "image", "system"]

  /** A stored message; `readAt` is None until the message is marked read. */
  datatype MessageDoc = MessageDoc(
    id: string, senderId: string, receiverId: string, profileId: string,
    content: string, messageType: string, isRead: bool, readAt: Option<int>,
    isDeleted: bool, createdAt: int, updatedAt: int)

  /**
   * The schema validators that `save` runs: the three references are required
   * ObjectIds, the content is required (so not empty) and at most 1000 UTF-16
   * units long, and the type comes from its enumeration.
   */
  predicate SchemaValid(m: MessageDoc) {
    && IsMongoId(m.senderId) && IsMongoId(m.receiverId) && IsMongoId(m.profileId)
    && m.content != "" && Utf16Length(m.content) <= 1000
    && m.messageType in MessageTypes
  }

  /** `new Message({...})` with the references, the content and the type; the flags, `readAt` and the dates take their defaults. */
  function NewMessage(id: string, senderId: string, receiverId: string, profileId: string,
                      content: string, messageType: string, now: int): (m: MessageDoc)
    ensures m.id == id && m.senderId == senderId && m.receiverId == receiverId && m.profileId == profileId
    ensures m.content == content && m.messageType == messageType
    ensures !m.isRead && m.readAt.None? && !m.isDeleted
    ensures m.createdAt == now && m.updatedAt == now
  {
    MessageDoc(id, senderId, receiverId, profileId, content, messageType, false, None, false, now, now)
  }

  /** A new text message passes the schema exactly when its references are ObjectIds and its content is present and short enough. */
  lemma NewMessageValid(id: string, senderId: string, receiverId: string, profileId: string, content: string, now: int)
    ensures SchemaValid(NewMessage(id, senderId, receiverId, profileId, content, "text", now))
        <==> && IsMongoId(senderId) && IsMongoId(receiverId) && IsMongoId(profileId)
             && content != "" && Utf16Length(content) <= 1000
  {
    assert "text" == MessageTypes[0];
  }

  /** A Mongoose document of the Message model; the handlers change only the deletion flag in place. */
  class Message {
    const id: string
    const senderId: string
    const receiverId: string
    const profileId: string
    const content: string
    const messageType: string
    const isRead: bool
    const readAt: Option<int>
    var isDeleted: bool
    const createdAt: int
    var updatedAt: int

    /** The stored form of this document. */
    function Doc(): (d: MessageDoc)
      reads this
      ensures d.id == id && d.senderId == senderId && d.receiverId == receiverId
    {
      MessageDoc(id, senderId, receiverId, profileId, content, messageType, isRead, readAt,
                 isDeleted, createdAt, updatedAt)
    }

    /** The document a query returns for a stored message. */
    constructor Load(d: MessageDoc)
      ensures Doc() == d
    {
      id, senderId, receiverId, profileId := d.id, d.senderId, d.receiverId, d.profileId;
      content, messageType, isRead, readAt := d.content, d.messageType, d.isRead, d.readAt;
      isDeleted, createdAt, updatedAt := d.isDeleted, d.createdAt, d.updatedAt;
    }

    /**
     * `save()`: the schema validators run first; when they pass, the pre-save hook
     * stamps updatedAt and the document is written. A failed save changes nothing.
     */
    method Save(now: int) returns (ok: bool)
      modifies this
      ensures ok == SchemaValid(old(Doc()))
      ensures Doc() == if ok then old(Doc()).(updatedAt := now) else old(Doc())
    {
      ok := SchemaValid(Doc());
      if ok {
        updatedAt := now;
      }
    }
  }

  // ------------------------------------------------------------ collection

  predicate UniqueIds(ms: seq<MessageDoc>) {
    forall i, j :: 0 <= i < j < |ms| ==> ms[i].id != ms[j].id
  }

  predicate AllValid(ms: seq<MessageDoc>) {
    forall i :: 0 <= i < |ms| ==> SchemaValid(ms[i])
  }

  /** `Message.findOne(...)` on `_id`. */
  function FindById(ms: seq<MessageDoc>, id: string): (r: Option<nat>)
    ensures r.Some? ==> r.value < |ms| && ms[r.value].id == id
    ensures r.None? ==> forall i :: 0 <= i < |ms| ==> ms[i].id != id
  {
    FindFirst(ms, (m: MessageDoc) => m.id == id)
  }

  // ------------------------------------------------------------ getConversation

  /** The filter of `getConversation`: a message between a and b, in either direction, about profile p and not deleted. */
  predicate InConversation(m: MessageDoc, a: string, b: string, p: string) {
    && ((m.senderId == a && m.receiverId == b) || (m.senderId == b && m.receiverId == a))
    && m.profileId == p
    && !m.isDeleted
  }

  function Between(a: string, b: string, p: string): MessageDoc -> bool {
    (m: MessageDoc) => InConversation(m, a, b, p)
  }

  /** `sort({ createdAt: -1 })`. */
  const NewestFirst: (MessageDoc, MessageDoc) -> bool := Descending((m: MessageDoc) => m.createdAt)

  /** `Message.getConversation(a, b, p, page, limit)`: the page of the conversation, newest first. */
  function GetConversation(ms: seq<MessageDoc>, a: string, b: string, p: string, page: nat, limit: nat): seq<MessageDoc>
    requires page >= 1
  {
    Page(SortWith(Filter(ms, Between(a, b, p)), NewestFirst), Skip(page, limit), limit)
  }

  /** The conversation is the same whichever of the two users asks for it. */
  lemma ConversationSymmetric(ms: seq<MessageDoc>, a: string, b: string, p: string, page: nat, limit: nat)
    requires page >= 1
    ensures GetConversation(ms, a, b, p, page, limit) == GetConversation(ms, b, a, p, page, limit)
  {
    FilterCongruent(ms, Between(a, b, p), Between(b, a, p));
  }

  /**
   * A page of the conversation holds at most `limit` live messages between the
   * two users about the profile, newest first; the first page holds all of them
   * when there are no more than `limit`.
   */
  lemma ConversationContents(ms: seq<MessageDoc>, a: string, b: string, p: string, page: nat, limit: nat)
    requires page >= 1
    ensures var r := GetConversation(ms, a, b, p, page, limit);
      && |r| <= limit
      && (forall i :: 0 <= i < |r| ==> r[i] in ms && InConversation(r[i], a, b, p))
      && SortedBy(r, NewestFirst)
      && (page == 1 && Count(ms, Between(a, b, p)) <= limit ==>
            forall m :: m in ms && InConversation(m, a, b, p) ==> m in r)
  {
    var sorted := SortWith(Filter(ms, Between(a, b, p)), NewestFirst);
    DescendingIsTotalPreorder((m: MessageDoc) => m.createdAt);
    SelectThenSort(ms, Between(a, b, p), NewestFirst);
    SortWithSorted(Filter(ms, Between(a, b, p)), NewestFirst);
    PageSorted(sorted, Skip(page, limit), limit, NewestFirst);
    var r := GetConversation(ms, a, b, p, page, limit);
    forall i | 0 <= i < |r|
      ensures r[i] in ms && InConversation(r[i], a, b, p)
    {
      assert r[i] == sorted[Skip(page, limit) + i];
      assert r[i] in sorted;
    }
    CountIsFilterSize(ms, Between(a, b, p));
    if page == 1 && Count(ms, Between(a, b, p)) <= limit {
      assert r == sorted;
    }
  }

  // ------------------------------------------------------------ markAsRead

  /** The filter of `markAsRead(user, other, p)`: an unread message from other to user about p. */
  predicate ToMark(m: MessageDoc, user: string, other: string, p: string) {
    m.senderId == other && m.receiverId == user && m.profileId == p && !m.isRead
  }

  /** One message under the update: a match becomes read at `now`. */
  function ReadMark(m: MessageDoc, user: string, other: string, p: string, now: int): MessageDoc {
    if ToMark(m, user, other, p) then m.(isRead := true, readAt := Some(now)) else m
  }

  /** `updateMany` over the collection: every message, in place, under ReadMark. */
  function MarkedRead(ms: seq<MessageDoc>, user: string, other: string, p: string, now: int): (r: seq<MessageDoc>)
    ensures |r| == |ms|
    ensures forall i :: 0 <= i < |ms| ==> r[i] == ReadMark(ms[i], user, other, p, now)
  {
    if ms == [] then [] else [ReadMark(ms[0], user, other, p, now)] + MarkedRead(ms[1..], user, other, p, now)
  }

  /**
   * What `markAsRead` changes: each unread message from `other` to `user` about p
   * becomes read, with `readAt` the current time, and nothing else about it
   * changes (`updateMany` runs no save hook, so `updatedAt` stays); every other
   * message, including those `user` sent to `other`, is left as it was.
   */
  lemma MarkAsReadEffect(ms: seq<MessageDoc>, user: string, other: string, p: string, now: int)
    ensures var r := MarkedRead(ms, user, other, p, now);
      forall i :: 0 <= i < |ms| ==>
        && r[i].(isRead := ms[i].isRead, readAt := ms[i].readAt) == ms[i]
        && (r[i].isRead <==> ms[i].isRead || ToMark(ms[i], user, other, p))
        && (ToMark(ms[i], user, other, p) ==> r[i].readAt == Some(now))
        && (!ToMark(ms[i], user, other, p) ==> r[i] == ms[i])
        && (ms[i].senderId == user && user != other ==> r[i] == ms[i])
  {
  }

  /** Afterwards nothing from `other` to `user` about p is unread. */
  lemma MarkAsReadLeavesNoneUnread(ms: seq<MessageDoc>, user: string, other: string, p: string, now: int)
    ensures var r := MarkedRead(ms, user, other, p, now);
      forall i :: 0 <= i < |r| ==> !ToMark(r[i], user, other, p)
  {
  }

  /** Marking twice is marking once: the second pass finds nothing to change. */
  lemma MarkAsReadIdempotent(ms: seq<MessageDoc>, user: string, other: string, p: string, now: int, later: int)
    ensures var r := MarkedRead(ms, user, other, p, now);
      MarkedRead(r, user, other, p, later) == r
  {
    var r := MarkedRead(ms, user, other, p, now);
    var r2 := MarkedRead(r, user, other, p, later);
    assert |r2| == |r|;
    forall i | 0 <= i < |r|
      ensures r2[i] == r[i]
    {
      assert !ToMark(r[i], user, other, p);
    }
  }

  /** Marking keeps every id and every document's validity. */
  lemma MarkAsReadKeepsStore(ms: seq<MessageDoc>, user: string, other: string, p: string, now: int)
    requires UniqueIds(ms) && AllValid(ms)
    ensures var r := MarkedRead(ms, user, other, p, now);
      && UniqueIds(r) && AllValid(r)
      && forall i :: 0 <= i < |r| ==> r[i].id == ms[i].id
  {
  }

  // ------------------------------------------------------------ getUnreadCount

  /** A message that counts towards u's unread total. */
  predicate UnreadFor(m: MessageDoc, u: string) {
    m.receiverId == u && !m.isRead && !m.isDeleted
  }

  /** `Message.getUnreadCount(u)`. */
  function UnreadCount(ms: seq<MessageDoc>, u: string): nat {
    Count(ms, (m: MessageDoc) => UnreadFor(m, u))
  }

  /** The live messages `markAsRead(user, other, p)` turns read. */
  function MarkedLive(ms: seq<MessageDoc>, user: string, other: string, p: string): nat {
    Count(ms, (m: MessageDoc) => ToMark(m, user, other, p) && !m.isDeleted)
  }

  /**
   * Marking a conversation read lowers the reader's unread total by exactly the
   * live messages it marked, and leaves everybody else's total as it was.
   */
  lemma {:induction false} UnreadAfterMark(ms: seq<MessageDoc>, user: string, other: string, p: string, now: int, v: string)
    ensures UnreadCount(MarkedRead(ms, user, other, p, now), v)
         == UnreadCount(ms, v) - (if v == user then MarkedLive(ms, user, other, p) else 0)
  {
    if ms != [] {
      var r := MarkedRead(ms, user, other, p, now);
      assert r[0] == ReadMark(ms[0], user, other, p, now);
      assert r[1..] == MarkedRead(ms[1..], user, other, p, now);
      UnreadAfterMark(ms[1..], user, other, p, now, v);
    }
  }

  // ------------------------------------------------------------ the collection

  /** The message collection. */
  class MessageStore {
    var messages: seq<MessageDoc>

    ghost predicate Valid()
      reads this
    {
      UniqueIds(messages) && AllValid(messages)
    }

    constructor ()
      ensures messages == [] && Valid()
    {
      messages := [];
    }

    /** Inserting a new document: the schema validators and the unique `_id` must pass, otherwise nothing is written. */
    method Insert(m: MessageDoc) returns (ok: bool)
      requires Valid()
      modifies this
      ensures Valid()
      ensures ok <==> SchemaValid(m) && FindById(old(messages), m.id).None?
      ensures messages == if ok then old(messages) + [m] else old(messages)
    {
      ok := SchemaValid(m) && FindById(messages, m.id).None?;
      if ok {
        messages := messages + [m];
      }
    }

    /** Writing back a saved document over the stored one with the same id. */
    method Replace(k: nat, m: MessageDoc)
      requires Valid() && k < |messages|
      requires m.id == messages[k].id && SchemaValid(m)
      modifies this
      ensures Valid()
      ensures messages == old(messages)[k := m]
    {
      messages := messages[k := m];
    }

    /** `Message.markAsRead(user, other, p)`: the matching messages are updated one by one. */
    method MarkAsRead(user: string, other: string, p: string, now: int)
      requires Valid()
      modifies this
      ensures Valid()
      ensures messages == MarkedRead(old(messages), user, other, p, now)
    {
      ghost var before := messages;
      var i := 0;
      while i < |messages|
        invariant |messages| == |before| && 0 <= i <= |before|
        invariant forall j :: 0 <= j < i ==> messages[j] == ReadMark(before[j], user, other, p, now)
        invariant forall j :: i <= j < |before| ==> messages[j] == before[j]
      {
        if ToMark(messages[i], user, other, p) {
          messages := messages[i := messages[i].(isRead := true, readAt := Some(now))];
        }
        i := i + 1;
      }
      assert messages == MarkedRead(before, user, other, p, now);
      MarkAsReadKeepsStore(before, user, other, p, now);
    }
  }
}

=== FILE: message_routes.dfy ===
/**
 * The message endpoints of backend/routes/messages.js: sending, reading a
 * conversation (which marks it read), the inbox aggregation, the unread count
 * and the soft delete. The caller is the user the verified token names.
 */
module MessageRoutes {
  import opened Text
  import opened Seqs
  import opened Sorting
  import opened Requests
  import opened Messages
  import opened Aggregation
  import Profiles
  import Validation

  const ServerError := "Error del servidor"

  // ------------------------------------------------------------------ send

  /** The inline rules of POST /api/messages: `notEmpty` looks at the content before `trim`, `isLength` after. */
  predicate SendRulesPass(b: MessageBody) {
    && b.receiverId.Some? && IsMongoId(b.receiverId.value)
    && b.profileId.Some? && IsMongoId(b.profileId.value)
    && NotEmpty(b.content) && IsLengthInRange(Trim(b.content.value), 0, 1000)
  }

  /**
   * The shared `sendMessage` rule set, which no route applies, accepts exactly what
   * the inline rules accept with some visible content left after trimming: blank
   * content passes the route (and then fails the schema) but not the shared rules.
   */
  lemma SharedSendRules(b: MessageBody)
    ensures Validation.SendMessage(b) <==> SendRulesPass(b) && VisibleLength(Trim(b.content.value)) >= 1
    ensures SendRulesPass(b) ==>
      SendRulesPass(b.(content := Some(" "))) && !Validation.SendMessage(b.(content := Some(" ")))
  {
    TrimNoLonger(" ");
  }

  /** The document the handler builds: the caller as sender, the sanitized (trimmed) content, type text. */
  function Outgoing(id: string, caller: Caller, b: MessageBody, now: int): MessageDoc
    requires SendRulesPass(b)
  {
    NewMessage(id, caller.userId, b.receiverId.value, b.profileId.value, Trim(b.content.value), "text", now)
  }

  /** The answer of POST /api/messages, in the order the handler checks. */
  function SendOutcome(ms: seq<MessageDoc>, ps: seq<Profiles.ProfileDoc>, caller: Caller,
                       b: MessageBody, id: string, now: int): Outcome<MessageDoc>
  {
    if !SendRulesPass(b) then Failure(400, "Datos de validación incorrectos")
    else if Profiles.FindById(ps, b.profileId.value).None? then Failure(404, "Perfil no encontrado")
    else
      var m := Outgoing(id, caller, b, now);
      if !SchemaValid(m) || FindById(ms, id).Some? then Failure(500, ServerError)
      else Success(201, m)
  }

  /**
   * A message is stored exactly when the body passes the rules, the profile
   * exists, the sender id is an ObjectId, the trimmed content is non-empty and
   * at most 1000 UTF-16 units, and the id is new; it is an unread, undeleted
   * text message from the caller holding the trimmed content.
   */
  lemma SendAccepted(ms: seq<MessageDoc>, ps: seq<Profiles.ProfileDoc>, caller: Caller,
                     b: MessageBody, id: string, now: int)
    ensures var r := SendOutcome(ms, ps, caller, b, id, now);
      && (r.Success? <==>
            && SendRulesPass(b) && Profiles.FindById(ps, b.profileId.value).Some?
            && IsMongoId(caller.userId)
            && Trim(b.content.value) != "" && Utf16Length(Trim(b.content.value)) <= 1000
            && FindById(ms, id).None?)
      && (r.Success? ==>
            && r.code == 201 && r.value.id == id
            && r.value.senderId == caller.userId && r.value.receiverId == b.receiverId.value
            && r.value.profileId == b.profileId.value && r.value.content == Trim(b.content.value)
            && r.value.messageType == "text" && !r.value.isRead && !r.value.isDeleted
            && r.value.createdAt == now)
  {
    if SendRulesPass(b) && Profiles.FindById(ps, b.profileId.value).Some? {
      var m := Outgoing(id, caller, b, now);
      assert SendOutcome(ms, ps, caller, b, id, now)
          == if !SchemaValid(m) || FindById(ms, id).Some? then Failure(500, ServerError) else Success(201, m);
      NewMessageValid(id, caller.userId, b.receiverId.value, b.profileId.value, Trim(b.content.value), now);
    }
  }

  /**
   * Nothing about the receiver is looked up beyond its form: swapping one
   * ObjectId for another gives the same answer code, whether or not such a
   * user exists or has anything to do with the profile.
   */
  lemma SendReceiverUnchecked(ms: seq<MessageDoc>, ps: seq<Profiles.ProfileDoc>, caller: Caller,
                              b: MessageBody, id: string, now: int, receiver: string)
    requires b.receiverId.Some? && IsMongoId(b.receiverId.value) && IsMongoId(receiver)
    ensures SendOutcome(ms, ps, caller, b.(receiverId := Some(receiver)), id, now).code
         == SendOutcome(ms, ps, caller, b, id, now).code
  {
  }

  /** Content made only of white space passes the rules, is trimmed to nothing and fails the schema: a server error, not 400. */
  lemma BlankContentIsServerError(ms: seq<MessageDoc>, ps: seq<Profiles.ProfileDoc>, caller: Caller,
                                  b: MessageBody, id: string, now: int)
    requires b.receiverId.Some? && IsMongoId(b.receiverId.value)
    requires b.profileId.Some? && IsMongoId(b.profileId.value)
    requires Profiles.FindById(ps, b.profileId.value).Some?
    requires b.content == Some(" ")
    ensures SendOutcome(ms, ps, caller, b, id, now) == Failure(500, ServerError)
  {
    assert " "[1..] == "";
    assert Trim(" ") == "";
  }

  /** POST /api/messages: the new message is saved and stored only on success. */
  method SendMessage(store: MessageStore, profiles: Profiles.ProfileStore, caller: Caller,
                     b: MessageBody, id: string, now: int) returns (out: Outcome<MessageDoc>)
    requires store.Valid()
    modifies store
    ensures store.Valid()
    ensures out == SendOutcome(old(store.messages), profiles.profiles, caller, b, id, now)
    ensures store.messages == if out.Success? then old(store.messages) + [out.value] else old(store.messages)
  {
    if !SendRulesPass(b) {
      return Failure(400, "Datos de validación incorrectos");
    }
    if Profiles.FindById(profiles.profiles, b.profileId.value).None? {
      return Failure(404, "Perfil no encontrado");
    }
    var m := Outgoing(id, caller, b, now);
    assert SendOutcome(store.messages, profiles.profiles, caller, b, id, now)
        == if !SchemaValid(m) || FindById(store.messages, id).Some? then Failure(500, ServerError) else Success(201, m);
    var message := new Message.Load(m);
    var saved := message.Save(now);
    if !saved {
      return Failure(500, ServerError);
    }
    assert message.Doc() == m;
    var stored := store.Insert(message.Doc());
    if !stored {
      return Failure(500, ServerError);
    }
    out := Success(201, message.Doc());
  }

  // ---------------------------------------------------------- conversation

  /** The query rules of GET /api/messages/conversation/:userId/:profileId. */
  predicate PageRulesPass(q: PageQuery) {
    && (q.page.None? || IsIntAtLeast(q.page.value, 1))
    && (q.limit.None? || IsIntInRange(q.limit.value, 1, 50))
  }

  /** `parseInt(page) || 1` once the rules pass. */
  function PageOf(q: PageQuery): (n: nat)
    requires PageRulesPass(q)
    ensures n >= 1
  {
    NumberOrPositive(q.page, 1);
    NumberOr(q.page, 1)
  }

  /** `parseInt(limit) || 20` once the rules pass: the limit sent, or 20. */
  function ConversationLimit(q: PageQuery): (n: nat)
    requires PageRulesPass(q)
    ensures 1 <= n <= 50
    ensures n == if q.limit.Some? then IntTextValue(q.limit.value) else 20
  {
    NumberOrPositive(q.limit, 20);
    NumberOr(q.limit, 20)
  }

  /**
   * The conversation route's query rules are the shared `paginationQuery` rules
   * with the limit capped at 50 instead of 100: a query the shared set accepts
   * still does so with a limit of 100, which this route refuses.
   */
  lemma PageRulesCapSharedRules(q: PageQuery)
    ensures PageRulesPass(q) <==> Validation.PaginationQuery(q) && (q.limit.None? || IntTextValue(q.limit.value) <= 50)
    ensures Validation.PaginationQuery(q) ==>
      Validation.PaginationQuery(q.(limit := Some("100"))) && !PageRulesPass(q.(limit := Some("100")))
  {
    var hundred := "100";
    assert IsIntText(hundred);
    assert DigitsValue(hundred) == 100 by {
      assert hundred[..2] == "10";
      assert "10"[..1] == "1";
    }
  }

  /** The reply: the page of messages, oldest first, with the page number and limit used. */
  datatype ConversationPage = ConversationPage(messages: seq<MessageDoc>, page: nat, limit: nat)

  /**
   * The answer of the conversation endpoint. The page is read before the
   * conversation is marked read; ids that are not ObjectIds fail the cast.
   */
  function ConversationOutcome(ms: seq<MessageDoc>, caller: Caller, other: string, profileId: string,
                               q: PageQuery): Outcome<ConversationPage>
  {
    if !PageRulesPass(q) then Failure(400, "Parámetros de consulta inválidos")
    else if !IsMongoId(caller.userId) || !IsMongoId(other) || !IsMongoId(profileId) then Failure(500, ServerError)
    else
      var page, limit := PageOf(q), ConversationLimit(q);
      Success(200, ConversationPage(Reverse(GetConversation(ms, caller.userId, other, profileId, page, limit)), page, limit))
  }

  /**
   * The reply holds at most `limit` live messages between the caller and the
   * other user about the profile, oldest first, each as it was stored before
   * the call marked the conversation read.
   */
  lemma ConversationReply(ms: seq<MessageDoc>, caller: Caller, other: string, profileId: string, q: PageQuery)
    requires ConversationOutcome(ms, caller, other, profileId, q).Success?
    ensures var r := ConversationOutcome(ms, caller, other, profileId, q).value;
      && |r.messages| <= r.limit <= 50 && r.page >= 1
      && (forall i :: 0 <= i < |r.messages| ==> r.messages[i] in ms && InConversation(r.messages[i], caller.userId, other, profileId))
      && (forall i, j :: 0 <= i < j < |r.messages| ==> r.messages[i].createdAt <= r.messages[j].createdAt)
  {
    var page, limit := PageOf(q), ConversationLimit(q);
    var c := GetConversation(ms, caller.userId, other, profileId, page, limit);
    ConversationContents(ms, caller.userId, other, profileId, page, limit);
    var r := Reverse(c);
    forall i, j | 0 <= i < j < |r|
      ensures r[i].createdAt <= r[j].createdAt
    {
      assert NewestFirst(c[|c| - 1 - j], c[|c| - 1 - i]);
    }
  }

  /** GET /api/messages/conversation/:userId/:profileId: the page is read, then the caller's side is marked read. */
  method ReadConversation(store: MessageStore, caller: Caller, other: string, profileId: string,
                          q: PageQuery, now: int) returns (out: Outcome<ConversationPage>)
    requires store.Valid()
    modifies store
    ensures store.Valid()
    ensures out == ConversationOutcome(old(store.messages), caller, other, profileId, q)
    ensures store.messages == if out.Success? then MarkedRead(old(store.messages), caller.userId, other, profileId, now)
                              else old(store.messages)
  {
    if !PageRulesPass(q) {
      return Failure(400, "Parámetros de consulta inválidos");
    }
    if !IsMongoId(caller.userId) || !IsMongoId(other) || !IsMongoId(profileId) {
      return Failure(500, ServerError);
    }
    var page, limit := PageOf(q), ConversationLimit(q);
    var messages := GetConversation(store.messages, caller.userId, other, profileId, page, limit);
    store.MarkAsRead(caller.userId, other, profileId, now);
    out := Success(200, ConversationPage(Reverse(messages), page, limit));
  }

  // ----------------------------------------------------------------- inbox

  /** The `$group` key: the profile, and the other party of the message. */
  datatype ConversationKey = ConversationKey(profileId: string, otherUserId: string)

  /** One inbox line: the key, the `$first` content and date, and the `$sum` of unread messages. */
  datatype InboxEntry = InboxEntry(key: ConversationKey, lastMessage: string, lastMessageDate: int, unreadCount: nat)

  /** The `$match` stage, with the caller's id cast: a live message the caller sent or received. */
  predicate InInbox(m: MessageDoc, u: string) {
    (m.senderId == u || m.receiverId == u) && !m.isDeleted
  }

  function Mine(u: string): MessageDoc -> bool {
    (m: MessageDoc) => InInbox(m, u)
  }

  /** The group key: the `$cond` picks the receiver when the caller sent the message, the sender otherwise. */
  function KeyOf(m: MessageDoc, u: string): ConversationKey {
    ConversationKey(m.profileId, if m.senderId == u then m.receiverId else m.senderId)
  }

  /** The `$sum` condition: a message to the caller, not yet read. */
  predicate CountsUnread(m: MessageDoc, u: string) {
    m.receiverId == u && !m.isRead
  }

  function WithKey(k: ConversationKey, u: string): MessageDoc -> bool {
    (m: MessageDoc) => KeyOf(m, u) == k
  }

  function UnreadWithKey(k: ConversationKey, u: string): MessageDoc -> bool {
    (m: MessageDoc) => KeyOf(m, u) == k && CountsUnread(m, u)
  }

  function Keys(gs: seq<InboxEntry>): seq<ConversationKey> {
    seq(|gs|, i requires 0 <= i < |gs| => gs[i].key)
  }

  /** Where the group with key k sits, if there is one. */
  function GroupOf(gs: seq<InboxEntry>, k: ConversationKey): (r: Option<nat>)
    ensures r.Some? ==> r.value < |gs| && gs[r.value].key == k
    ensures r.None? ==> k !in Keys(gs)
  {
    FindFirst(gs, (g: InboxEntry) => g.key == k)
  }

  /** One message through `$group`: a new key opens a group with this message as `$first`; a known key only adds to its unread sum. */
  function Absorb(gs: seq<InboxEntry>, m: MessageDoc, u: string): seq<InboxEntry> {
    var add := if CountsUnread(m, u) then 1 else 0;
    match GroupOf(gs, KeyOf(m, u))
    case Some(j) => gs[j := gs[j].(unreadCount := gs[j].unreadCount + add)]
    case None => gs + [InboxEntry(KeyOf(m, u), m.content, m.createdAt, add)]
  }

  /** `$group` over a sequence of messages, in order. */
  function Groups(s: seq<MessageDoc>, u: string): seq<InboxEntry> {
    if s == [] then [] else Absorb(Groups(s[..|s| - 1], u), s[|s| - 1], u)
  }

  predicate DistinctKeys(gs: seq<InboxEntry>) {
    forall i, j :: 0 <= i < j < |gs| ==> gs[i].key != gs[j].key
  }

  /** Absorbing a message adds its key when it is new, and keeps the keys distinct. */
  lemma AbsorbKeys(gs: seq<InboxEntry>, m: MessageDoc, u: string)
    ensures Keys(Absorb(gs, m, u)) == if KeyOf(m, u) in Keys(gs) then Keys(gs) else Keys(gs) + [KeyOf(m, u)]
    ensures DistinctKeys(gs) ==> DistinctKeys(Absorb(gs, m, u))
  {
    var r := Absorb(gs, m, u);
    match GroupOf(gs, KeyOf(m, u))
    case Some(j) => {
      assert Keys(gs)[j] == KeyOf(m, u);
      assert Keys(r) == Keys(gs);
    }
    case None => {
      assert Keys(r) == Keys(gs) + [KeyOf(m, u)];
    }
  }

  /** There is one group per key, and every message's key has a group. */
  lemma {:induction false} GroupsPartition(s: seq<MessageDoc>, u: string)
    ensures DistinctKeys(Groups(s, u))
    ensures forall j :: 0 <= j < |s| ==> KeyOf(s[j], u) in Keys(Groups(s, u))
  {
    if s != [] {
      var a, x := s[..|s| - 1], s[|s| - 1];
      GroupsPartition(a, u);
      AbsorbKeys(Groups(a, u), x, u);
      var keys := Keys(Groups(s, u));
      forall j | 0 <= j < |s|
        ensures KeyOf(s[j], u) in keys
      {
        if j < |a| {
          assert s[j] == a[j];
        }
      }
    }
  }

  /**
   * What a group states about a sequence of messages: the first message with its
   * key gives its content and date, and it counts the unread messages to the
   * caller with its key.
   */
  predicate EntryFacts(s: seq<MessageDoc>, g: InboxEntry, u: string) {
    var f := FindFirst(s, WithKey(g.key, u));
    && f.Some?
    && g.lastMessage == s[f.value].content && g.lastMessageDate == s[f.value].createdAt
    && g.unreadCount == Count(s, UnreadWithKey(g.key, u))
  }

  /** A group whose key differs from the new message's keeps its facts. */
  lemma EntryFactsSnoc(a: seq<MessageDoc>, x: MessageDoc, g: InboxEntry, u: string)
    requires EntryFacts(a, g, u) && g.key != KeyOf(x, u)
    ensures EntryFacts(a + [x], g, u)
  {
    FindFirstSnoc(a, x, WithKey(g.key, u));
    CountSnoc(a, x, UnreadWithKey(g.key, u));
  }

  /** One step of `$group`: the facts of every group carry over to the longer sequence. */
  lemma AbsorbEntry(a: seq<MessageDoc>, x: MessageDoc, u: string, before: seq<InboxEntry>, i: nat)
    requires DistinctKeys(before)
    requires forall j :: 0 <= j < |a| ==> KeyOf(a[j], u) in Keys(before)
    requires forall j :: 0 <= j < |before| ==> EntryFacts(a, before[j], u)
    requires i < |Absorb(before, x, u)|
    ensures EntryFacts(a + [x], Absorb(before, x, u)[i], u)
  {
    var k := KeyOf(x, u);
    var g := Absorb(before, x, u)[i];
    match GroupOf(before, k)
    case Some(j) => {
      if i == j {
        FindFirstSnoc(a, x, WithKey(k, u));
        CountSnoc(a, x, UnreadWithKey(k, u));
      } else {
        assert Keys(before)[i] == before[i].key;
        EntryFactsSnoc(a, x, before[i], u);
      }
    }
    case None => {
      if i < |before| {
        assert Keys(before)[i] == before[i].key;
        EntryFactsSnoc(a, x, before[i], u);
      } else {
        forall j | 0 <= j < |a|
          ensures !UnreadWithKey(k, u)(a[j]) && !WithKey(k, u)(a[j])
        {
          assert KeyOf(a[j], u) in Keys(before);
        }
        CountNone(a, UnreadWithKey(k, u));
        FindFirstSnoc(a, x, WithKey(k, u));
        CountSnoc(a, x, UnreadWithKey(k, u));
      }
    }
  }

  /**
   * Each group holds the content and date of the first message with its key
   * (the newest, once the messages are sorted newest first), and counts the
   * unread messages to the caller with its key.
   */
  lemma {:induction false} GroupsEntries(s: seq<MessageDoc>, u: string)
    ensures forall i :: 0 <= i < |Groups(s, u)| ==> EntryFacts(s, Groups(s, u)[i], u)
  {
    if s != [] {
      var a, x := s[..|s| - 1], s[|s| - 1];
      assert s == a + [x];
      GroupsEntries(a, u);
      GroupsPartition(a, u);
      forall i | 0 <= i < |Groups(s, u)|
        ensures EntryFacts(s, Groups(s, u)[i], u)
      {
        AbsorbEntry(a, x, u, Groups(a, u), i);
      }
    }
  }

  /** The caller's live messages, newest first: the `$match` and `$sort` stages. */
  function Timeline(ms: seq<MessageDoc>, u: string): seq<MessageDoc> {
    SortWith(Filter(ms, Mine(u)), NewestFirst)
  }

  /** `$sort: { lastMessageDate: -1 }`. */
  const LatestFirst: (InboxEntry, InboxEntry) -> bool := Descending((e: InboxEntry) => e.lastMessageDate)

  /** GET /api/messages/conversations with the caller's id cast: the 50 most recent conversations. */
  function Inbox(ms: seq<MessageDoc>, u: string): seq<InboxEntry> {
    Page(SortWith(Groups(Timeline(ms, u), u), LatestFirst), 0, 50)
  }

  /** The number of conversations: one per key among the caller's live messages. */
  function ConversationCount(ms: seq<MessageDoc>, u: string): nat {
    |Groups(Timeline(ms, u), u)|
  }

  function Unread(u: string): MessageDoc -> bool {
    (m: MessageDoc) => CountsUnread(m, u)
  }

  const UnreadOfEntry: InboxEntry -> nat := (g: InboxEntry) => g.unreadCount

  /** Absorbing a message adds one to the unread sums exactly when it is unread and to the caller. */
  lemma AbsorbUnread(gs: seq<InboxEntry>, x: MessageDoc, u: string)
    ensures SumOf(Absorb(gs, x, u), UnreadOfEntry) == SumOf(gs, UnreadOfEntry) + (if CountsUnread(x, u) then 1 else 0)
  {
    var add := if CountsUnread(x, u) then 1 else 0;
    match GroupOf(gs, KeyOf(x, u))
    case Some(j) => {
      SumOfUpdate(gs, j, gs[j].(unreadCount := gs[j].unreadCount + add), UnreadOfEntry);
    }
    case None => {
      SumOfSnoc(gs, InboxEntry(KeyOf(x, u), x.content, x.createdAt, add), UnreadOfEntry);
    }
  }

  /** The unread sums of the groups add up to the unread messages to the caller. */
  lemma {:induction false} GroupsUnreadTotal(s: seq<MessageDoc>, u: string)
    ensures SumOf(Groups(s, u), UnreadOfEntry) == Count(s, Unread(u))
  {
    if s != [] {
      var a, x := s[..|s| - 1], s[|s| - 1];
      assert s == a + [x];
      GroupsUnreadTotal(a, u);
      CountSnoc(a, x, Unread(u));
      AbsorbUnread(Groups(a, u), x, u);
    }
  }

  /** A live message to the caller, not yet read, in the conversation with key k. */
  function UnreadInConversation(k: ConversationKey, u: string): MessageDoc -> bool {
    (m: MessageDoc) => InInbox(m, u) && KeyOf(m, u) == k && CountsUnread(m, u)
  }

  /** The timeline holds the caller's live messages, newest first. */
  lemma TimelineFacts(ms: seq<MessageDoc>, u: string)
    ensures SortedBy(Timeline(ms, u), NewestFirst)
    ensures forall m :: m in Timeline(ms, u) <==> m in ms && InInbox(m, u)
  {
    DescendingIsTotalPreorder((m: MessageDoc) => m.createdAt);
    SortWithSorted(Filter(ms, Mine(u)), NewestFirst);
    SelectThenSort(ms, Mine(u), NewestFirst);
  }

  /** Counting over the timeline is counting over the caller's live messages in the collection. */
  lemma TimelineCount(ms: seq<MessageDoc>, u: string, p: MessageDoc -> bool, q: MessageDoc -> bool)
    requires forall m :: q(m) == (InInbox(m, u) && p(m))
    ensures Count(Timeline(ms, u), p) == Count(ms, q)
  {
    CountPermutation(Timeline(ms, u), Filter(ms, Mine(u)), p);
    CountFilter(ms, Mine(u), p, q);
  }

  /** The first message with a key in the timeline is a newest one with that key. */
  lemma FirstIsNewest(ms: seq<MessageDoc>, u: string, k: ConversationKey, f: nat)
    requires FindFirst(Timeline(ms, u), WithKey(k, u)) == Some(f)
    ensures forall m :: m in ms && InInbox(m, u) && KeyOf(m, u) == k ==> m.createdAt <= Timeline(ms, u)[f].createdAt
  {
    var t := Timeline(ms, u);
    TimelineFacts(ms, u);
    forall m | m in ms && InInbox(m, u) && KeyOf(m, u) == k
      ensures m.createdAt <= t[f].createdAt
    {
      assert m in t;
      var j :| 0 <= j < |t| && t[j] == m;
      assert WithKey(k, u)(t[j]);
      if j != f {
        assert NewestFirst(t[f], t[j]);
      }
    }
  }

  /**
   * What one conversation's group states about the collection: its last message
   * is a live message of the caller's with its key, no such message is newer,
   * and its unread count is the number of such messages to the caller not yet read.
   */
  lemma GroupFacts(ms: seq<MessageDoc>, u: string, g: InboxEntry)
    requires g in Groups(Timeline(ms, u), u)
    ensures exists m :: m in ms && InInbox(m, u) && KeyOf(m, u) == g.key
                        && m.content == g.lastMessage && m.createdAt == g.lastMessageDate
    ensures forall m :: m in ms && InInbox(m, u) && KeyOf(m, u) == g.key ==> m.createdAt <= g.lastMessageDate
    ensures g.unreadCount == Count(ms, UnreadInConversation(g.key, u))
  {
    var t := Timeline(ms, u);
    GroupsEntries(t, u);
    assert EntryFacts(t, g, u);
    var f := FindFirst(t, WithKey(g.key, u)).value;
    TimelineFacts(ms, u);
    assert t[f] in t;
    FirstIsNewest(ms, u, g.key, f);
    TimelineCount(ms, u, UnreadWithKey(g.key, u), UnreadInConversation(g.key, u));
  }

  /** The inbox is the first 50 groups in order of their last message, most recent first. */
  lemma InboxFromGroups(ms: seq<MessageDoc>, u: string)
    ensures |Inbox(ms, u)| <= 50
    ensures SortedBy(Inbox(ms, u), LatestFirst)
    ensures forall e :: e in Inbox(ms, u) ==> e in Groups(Timeline(ms, u), u)
    ensures ConversationCount(ms, u) <= 50 ==> Inbox(ms, u) == SortWith(Groups(Timeline(ms, u), u), LatestFirst)
  {
    var gs := Groups(Timeline(ms, u), u);
    var sorted := SortWith(gs, LatestFirst);
    DescendingIsTotalPreorder((e: InboxEntry) => e.lastMessageDate);
    SortWithSorted(gs, LatestFirst);
    PageSorted(sorted, 0, 50, LatestFirst);
    assert |sorted| == |gs| by {
      assert |multiset(sorted)| == |multiset(gs)|;
    }
    forall e | e in Inbox(ms, u)
      ensures e in gs
    {
      assert e in multiset(sorted);
    }
  }

  /**
   * The inbox lists at most 50 conversations, most recent first; each line shows
   * the newest live message of its conversation and the number of unread
   * messages to the caller in it.
   */
  lemma InboxEntries(ms: seq<MessageDoc>, u: string)
    ensures var r := Inbox(ms, u);
      && |r| <= 50
      && SortedBy(r, LatestFirst)
      && forall i :: 0 <= i < |r| ==>
           && (exists m :: m in ms && InInbox(m, u) && KeyOf(m, u) == r[i].key
                           && m.content == r[i].lastMessage && m.createdAt == r[i].lastMessageDate)
           && (forall m :: m in ms && InInbox(m, u) && KeyOf(m, u) == r[i].key ==> m.createdAt <= r[i].lastMessageDate)
           && r[i].unreadCount == Count(ms, UnreadInConversation(r[i].key, u))
  {
    InboxFromGroups(ms, u);
    var r := Inbox(ms, u);
    forall i | 0 <= i < |r|
      ensures && (exists m :: m in ms && InInbox(m, u) && KeyOf(m, u) == r[i].key
                              && m.content == r[i].lastMessage && m.createdAt == r[i].lastMessageDate)
              && (forall m :: m in ms && InInbox(m, u) && KeyOf(m, u) == r[i].key ==> m.createdAt <= r[i].lastMessageDate)
              && r[i].unreadCount == Count(ms, UnreadInConversation(r[i].key, u))
    {
      assert r[i] in r;
      GroupFacts(ms, u, r[i]);
    }
  }

  /** Reordering the groups loses no key. */
  lemma KeysKept(gs: seq<InboxEntry>, sorted: seq<InboxEntry>, k: ConversationKey)
    requires multiset(sorted) == multiset(gs)
    requires k in Keys(gs)
    ensures k in Keys(sorted)
  {
    var i :| 0 <= i < |gs| && Keys(gs)[i] == k;
    assert gs[i] in multiset(sorted);
    var i' :| 0 <= i' < |sorted| && sorted[i'] == gs[i];
    assert Keys(sorted)[i'] == k;
  }

  /** With at most 50 conversations the inbox misses none: every live message of the caller's has its conversation listed. */
  lemma InboxListsAll(ms: seq<MessageDoc>, u: string)
    requires ConversationCount(ms, u) <= 50
    ensures forall m :: m in ms && InInbox(m, u) ==> KeyOf(m, u) in Keys(Inbox(ms, u))
  {
    var t := Timeline(ms, u);
    var gs := Groups(t, u);
    InboxFromGroups(ms, u);
    SortWithSorted(gs, LatestFirst);
    TimelineFacts(ms, u);
    GroupsPartition(t, u);
    forall m | m in ms && InInbox(m, u)
      ensures KeyOf(m, u) in Keys(Inbox(ms, u))
    {
      var j :| 0 <= j < |t| && t[j] == m;
      KeysKept(gs, Inbox(ms, u), KeyOf(m, u));
    }
  }

  /**
   * With at most 50 conversations the inbox's unread counts add up to the
   * caller's unread total, the number GET /api/messages/unread-count answers.
   */
  lemma InboxUnreadTotal(ms: seq<MessageDoc>, u: string)
    requires ConversationCount(ms, u) <= 50
    ensures SumOf(Inbox(ms, u), UnreadOfEntry) == UnreadCount(ms, u)
  {
    var t := Timeline(ms, u);
    InboxFromGroups(ms, u);
    SumOfPermutation(Inbox(ms, u), Groups(t, u), UnreadOfEntry);
    GroupsUnreadTotal(t, u);
    TimelineCount(ms, u, Unread(u), (m: MessageDoc) => UnreadFor(m, u));
  }

  /** The `$match` stage as written: the token's user id, which is text, compared uncast with the stored ObjectIds. */
  predicate InInboxAsWritten(m: MessageDoc, u: string) {
    (RefEqualsTokenId(m.senderId, u) || RefEqualsTokenId(m.receiverId, u)) && !m.isDeleted
  }

  /** GET /api/messages/conversations as written. */
  function InboxAsWritten(ms: seq<MessageDoc>, u: string): seq<InboxEntry> {
    Page(SortWith(Groups(SortWith(Filter(ms, (m: MessageDoc) => InInboxAsWritten(m, u)), NewestFirst), u), LatestFirst), 0, 50)
  }

  /** As written, the inbox is empty for every caller, whatever the collection holds. */
  lemma InboxAsWrittenIsEmpty(ms: seq<MessageDoc>, u: string)
    ensures InboxAsWritten(ms, u) == []
  {
    forall i | 0 <= i < |ms|
      ensures !InInboxAsWritten(ms[i], u)
    {
      CastDecides(ms[i].senderId, u);
      CastDecides(ms[i].receiverId, u);
    }
    FilterNone(ms, (m: MessageDoc) => InInboxAsWritten(m, u));
  }

  // ---------------------------------------------------------- unread count

  /** GET /api/messages/unread-count. */
  function UnreadCountOutcome(ms: seq<MessageDoc>, caller: Caller): Outcome<nat> {
    if !IsMongoId(caller.userId) then Failure(500, ServerError)
    else Success(200, UnreadCount(ms, caller.userId))
  }

  /** The unread badge agrees with the inbox: with at most 50 conversations it is the sum of their unread counts. */
  lemma UnreadCountMatchesInbox(ms: seq<MessageDoc>, caller: Caller)
    requires IsMongoId(caller.userId) && ConversationCount(ms, caller.userId) <= 50
    ensures UnreadCountOutcome(ms, caller) == Success(200, SumOf(Inbox(ms, caller.userId), UnreadOfEntry))
  {
    InboxUnreadTotal(ms, caller.userId);
  }

  // ---------------------------------------------------------------- delete

  predicate Participant(m: MessageDoc, u: string) {
    m.senderId == u || m.receiverId == u
  }

  /** `Message.findOne({ _id: id, $or: [{ senderId: u }, { receiverId: u }] })`. */
  function FindOwnMessage(ms: seq<MessageDoc>, id: string, u: string): (r: Option<nat>)
    ensures r.Some? ==> r.value < |ms| && ms[r.value].id == id && Participant(ms[r.value], u)
    ensures r.None? ==> forall i :: 0 <= i < |ms| ==> !(ms[i].id == id && Participant(ms[i], u))
  {
    FindFirst(ms, (m: MessageDoc) => m.id == id && Participant(m, u))
  }

  /**
   * The answer of DELETE /api/messages/:messageId: the message is flagged, not
   * removed, and saved (stamping updatedAt). An already deleted message is found
   * and flagged again.
   */
  function DeleteOutcome(ms: seq<MessageDoc>, caller: Caller, id: string, now: int): Outcome<MessageDoc> {
    if !IsMongoId(id) || !IsMongoId(caller.userId) then Failure(500, ServerError)
    else match FindOwnMessage(ms, id, caller.userId)
      case None => Failure(404, "Mensaje no encontrado")
      case Some(k) =>
        var flagged := ms[k].(isDeleted := true);
        if SchemaValid(flagged) then Success(200, flagged.(updatedAt := now)) else Failure(500, ServerError)
  }

  /**
   * In a valid collection, a delete succeeds exactly when the message exists and
   * the caller sent or received it; a stranger's request is answered as if the
   * message did not exist. The stored message changes only in its deletion flag
   * and updatedAt.
   */
  lemma DeleteAllowed(ms: seq<MessageDoc>, caller: Caller, id: string, now: int)
    requires AllValid(ms)
    ensures var r := DeleteOutcome(ms, caller, id, now);
      && (r.Success? <==> IsMongoId(id) && IsMongoId(caller.userId)
                          && exists k :: 0 <= k < |ms| && ms[k].id == id && Participant(ms[k], caller.userId))
      && (IsMongoId(id) && IsMongoId(caller.userId) && !r.Success? ==> r == Failure(404, "Mensaje no encontrado"))
      && (r.Success? ==> var k := FindOwnMessage(ms, id, caller.userId).value;
            r.value == ms[k].(isDeleted := true, updatedAt := now))
  {
    if IsMongoId(id) && IsMongoId(caller.userId) {
      match FindOwnMessage(ms, id, caller.userId)
      case None => {}
      case Some(k) => {
        assert SchemaValid(ms[k]);
      }
    }
  }

  /**
   * A deleted message leaves every conversation and every unread total: each
   * user's total drops by one if it counted for them, and is otherwise unchanged.
   */
  lemma DeleteHides(ms: seq<MessageDoc>, caller: Caller, id: string, now: int, v: string)
    requires DeleteOutcome(ms, caller, id, now).Success?
    ensures var k := FindOwnMessage(ms, id, caller.userId).value;
      var after := ms[k := DeleteOutcome(ms, caller, id, now).value];
      && (forall a, b, p :: !InConversation(after[k], a, b, p))
      && UnreadCount(after, v) == UnreadCount(ms, v) - (if UnreadFor(ms[k], v) then 1 else 0)
  {
    var k := FindOwnMessage(ms, id, caller.userId).value;
    CountUpdate(ms, k, DeleteOutcome(ms, caller, id, now).value, (m: MessageDoc) => UnreadFor(m, v));
  }

  /** DELETE /api/messages/:messageId. */
  method DeleteMessage(store: MessageStore, caller: Caller, id: string, now: int) returns (out: Outcome<MessageDoc>)
    requires store.Valid()
    modifies store
    ensures store.Valid()
    ensures out == DeleteOutcome(old(store.messages), caller, id, now)
    ensures store.messages == if out.Success? then old(store.messages)[FindOwnMessage(old(store.messages), id, caller.userId).value := out.value]
                              else old(store.messages)
  {
    if !IsMongoId(id) || !IsMongoId(caller.userId) {
      return Failure(500, ServerError);
    }
    var found := FindOwnMessage(store.messages, id, caller.userId);
    if found.None? {
      return Failure(404, "Mensaje no encontrado");
    }
    var k := found.value;
    var message := new Message.Load(store.messages[k]);
    message.isDeleted := true;
    var saved := message.Save(now);
    if !saved {
      return Failure(500, ServerError);
    }
    store.Replace(k, message.Doc());
    out := Success(200, message.Doc());
  }
}

=== FILE: profile_model.dfy ===
/**
 * The profile document of backend/models/Profile.js: its fields, defaults and
 * schema bounds, the pre-save hook, and the two instance methods that change it
 * in place (`incrementViews`, `setOnlineStatus`). The profile collection keeps
 * the unique index on `userId`.
 */
module Profiles {
  import opened Text
  import opened Seqs
  import Requests

  datatype Rates = Rates(incall: string, outcall: string)

  /** `rating`: an average score and the number of ratings. */
  datatype Rating = Rating(average: real, count: int)

  datatype Views = Views(total: int, thisWeek: int, thisMonth: int)

  /** One weekday of `availability`. */
  datatype Day = Day(start: Option<string>, end: Option<string>, available: bool)

  datatype Image = Image(url: Option<string>, filename: Option<string>, isMain: bool)

  /** A Boolean path as MongoDB holds it: missing from the document, `null`, or a Boolean. */
  datatype BoolPath = Missing | Null | Stored(b: bool)

  /** A stored profile. `isOnline` is missing once a request has unset it, and null once one has nulled it. */
  datatype ProfileDoc = ProfileDoc(
    id: string, userId: string, name: string, age: int, location: string,
    description: string, images: seq<Image>, services: seq<string>,
    ethnicity: string, category: string, rates: Rates,
    availability: seq<Day>, isVerified: bool, isFeatured: bool,
    isOnline: BoolPath, rating: Rating, views: Views, favorites: int,
    lastActive: int, isActive: bool, createdAt: int, updatedAt: int)

  /** The weekdays in `availability` order, Monday first. */
  const Weekdays: seq<string> := ["monday", "tuesday", "wednesday", "thursday", "friday", "saturday", "sunday"]

  /** The default availability: every day open except Sunday. */
  const DefaultAvailability: seq<Day> := [
    Day(None, None, true), Day(None, None, true), Day(None, None, true), Day(None, None, true),
    Day(None, None, true), Day(None, None, true), Day(None, None, false)]

  /**
   * The schema validators that `save` runs: required strings are non-empty, the
   * `maxlength` bounds count UTF-16 units, age and rating average lie in their
   * ranges, and ethnicity and category come from their enumerations.
   */
  predicate SchemaValid(p: ProfileDoc) {
    && p.userId != ""
    && p.name != "" && Utf16Length(p.name) <= 100
    && 18 <= p.age <= 100
    && p.location != ""
    && p.description != "" && Utf16Length(p.description) <= 2000
    && p.ethnicity in Requests.Ethnicities
    && p.category in Requests.Categories
    && p.rates.incall != "" && p.rates.outcall != ""
    && 0.0 <= p.rating.average <= 5.0
    && |p.availability| == 7
  }

  /**
   * The document a query hands back for a stored one: Mongoose fills a path the
   * stored document lacks with its schema default, so a missing `isOnline` reads
   * as false; a stored null is kept, and every other field is as stored.
   */
  function Hydrated(d: ProfileDoc): (h: ProfileDoc)
    ensures !h.isOnline.Missing?
    ensures d.isOnline.Missing? ==> h.isOnline == Stored(false)
    ensures !d.isOnline.Missing? ==> h == d
    ensures h.(isOnline := d.isOnline) == d
  {
    if d.isOnline.Missing? then d.(isOnline := Stored(false)) else d
  }

  /**
   * `new Profile({...})` with the fields a caller supplies; every other field takes
   * its schema default, and `trim: true` trims name, location and each service.
   */
  function NewProfile(id: string, userId: string, name: string, age: int, location: string,
                      description: string, services: seq<string>, ethnicity: string,
                      rates: Rates, now: int): (p: ProfileDoc)
    ensures p.id == id && p.userId == userId && p.age == age && p.rates == rates
    ensures p.name == Trim(name) && p.location == Trim(location) && p.description == description
    ensures |p.services| == |services| && forall i :: 0 <= i < |services| ==> p.services[i] == Trim(services[i])
    ensures !p.isVerified && !p.isFeatured && p.isOnline == Stored(false) && p.isActive
    ensures p.rating == Rating(0.0, 0) && p.views == Views(0, 0, 0) && p.favorites == 0
    ensures p.images == [] && p.category == "Independiente"
    ensures p.lastActive == now && p.createdAt == now && p.updatedAt == now
    ensures p.availability == DefaultAvailability
  {
    ProfileDoc(id, userId, Trim(name), age, Trim(location), description, [],
               seq(|services|, i requires 0 <= i < |services| => Trim(services[i])),
               ethnicity, "Independiente", rates, DefaultAvailability,
               false, false, Stored(false), Rating(0.0, 0), Views(0, 0, 0), 0,
               now, true, now, now)
  }

  /** By default every weekday is available and Sunday is not. */
  lemma DefaultAvailabilityOpenExceptSunday()
    ensures |DefaultAvailability| == 7 && |Weekdays| == 7
    ensures forall i :: 0 <= i < 7 ==> (DefaultAvailability[i].available <==> Weekdays[i] != "sunday")
  {
    forall i | 0 <= i < 7
      ensures DefaultAvailability[i].available <==> Weekdays[i] != "sunday"
    {
      assert Weekdays[i] == "sunday" <==> i == 6;
    }
  }

  /** A new profile passes the schema exactly when the supplied fields do. */
  lemma NewProfileValid(id: string, userId: string, name: string, age: int, location: string,
                        description: string, services: seq<string>, ethnicity: string,
                        rates: Rates, now: int)
    ensures SchemaValid(NewProfile(id, userId, name, age, location, description, services, ethnicity, rates, now))
        <==> && userId != "" && Trim(name) != "" && Utf16Length(Trim(name)) <= 100
             && 18 <= age <= 100 && Trim(location) != ""
             && description != "" && Utf16Length(description) <= 2000
             && ethnicity in Requests.Ethnicities
             && rates.incall != "" && rates.outcall != ""
  {
  }

  /** The counters after one more view. */
  function Viewed(v: Views): (r: Views)
    ensures r.total - v.total == 1 && r.thisWeek - v.thisWeek == 1 && r.thisMonth - v.thisMonth == 1
  {
    Views(v.total + 1, v.thisWeek + 1, v.thisMonth + 1)
  }

  /** A Mongoose document of the Profile model, changed in place by its methods. */
  class Profile {
    const id: string
    const userId: string
    var name: string
    var age: int
    var location: string
    var description: string
    const images: seq<Image>
    var services: seq<string>
    var ethnicity: string
    var category: string
    var rates: Rates
    const availability: seq<Day>
    const isVerified: bool
    const isFeatured: bool
    var isOnline: BoolPath
    const rating: Rating
    var views: Views
    const favorites: int
    var lastActive: int
    const isActive: bool
    const createdAt: int
    var updatedAt: int

    /** The stored form of this document. */
    function Doc(): (d: ProfileDoc)
      reads this
      ensures d.id == id && d.userId == userId
    {
      ProfileDoc(id, userId, name, age, location, description, images, services,
                 ethnicity, category, rates, availability, isVerified, isFeatured,
                 isOnline, rating, views, favorites, lastActive, isActive, createdAt, updatedAt)
    }

    /** The document `findById` or `findOne` returns for a stored profile, defaults filled in. */
    constructor Load(d: ProfileDoc)
      ensures Doc() == Hydrated(d)
    {
      var h := Hydrated(d);
      id, userId, name, age, location, description := h.id, h.userId, h.name, h.age, h.location, h.description;
      images, services, ethnicity, category, rates := h.images, h.services, h.ethnicity, h.category, h.rates;
      availability, isVerified, isFeatured, isOnline := h.availability, h.isVerified, h.isFeatured, h.isOnline;
      rating, views, favorites, lastActive := h.rating, h.views, h.favorites, h.lastActive;
      isActive, createdAt, updatedAt := h.isActive, h.createdAt, h.updatedAt;
    }

    /**
     * `save()`: the schema validators run first; when they pass, the pre-save hook
     * stamps updatedAt and the document is written. A failed save changes nothing.
     */
    method Save(now: int) returns (ok: bool)
      modifies this
      ensures ok == SchemaValid(old(Doc()))
      ensures Doc() == if ok then old(Doc()).(updatedAt := now) else old(Doc())
    {
      ok := SchemaValid(Doc());
      if ok {
        updatedAt := now;
      }
    }

    /** `incrementViews()`: each of the three counters goes up by one, then the document is saved. */
    method IncrementViews(now: int) returns (ok: bool)
      modifies this
      ensures ok == SchemaValid(old(Doc()))
      ensures var viewed := old(Doc()).(views := Viewed(old(views)));
        Doc() == if ok then viewed.(updatedAt := now) else viewed
    {
      views := Views(views.total + 1, views.thisWeek + 1, views.thisMonth + 1);
      ok := Save(now);
    }

    /** `setOnlineStatus(v)`: isOnline becomes v and lastActive the current time, then the document is saved. */
    method SetOnlineStatus(v: BoolPath, now: int) returns (ok: bool)
      modifies this
      ensures ok == SchemaValid(old(Doc()))
      ensures var changed := old(Doc()).(isOnline := v, lastActive := now);
        Doc() == if ok then changed.(updatedAt := now) else changed
    {
      isOnline := v;
      lastActive := now;
      ok := Save(now);
    }
  }

  /** Neither filling defaults, view counting nor the online toggle can break a valid profile. */
  lemma CountersAndStatusKeepSchema(p: ProfileDoc, v: BoolPath, now: int)
    ensures SchemaValid(Hydrated(p)) == SchemaValid(p)
    ensures SchemaValid(p.(views := Viewed(p.views))) == SchemaValid(p)
    ensures SchemaValid(p.(isOnline := v, lastActive := now)) == SchemaValid(p)
  {
  }

  // ------------------------------------------------------------ collection

  predicate UniqueIds(ps: seq<ProfileDoc>) {
    forall i, j :: 0 <= i < j < |ps| ==> ps[i].id != ps[j].id
  }

  /** The unique index on userId: no user owns two profiles. */
  predicate UniqueOwners(ps: seq<ProfileDoc>) {
    forall i, j :: 0 <= i < j < |ps| ==> ps[i].userId != ps[j].userId
  }

  predicate AllValid(ps: seq<ProfileDoc>) {
    forall i :: 0 <= i < |ps| ==> SchemaValid(ps[i])
  }

  /** `Profile.findOne(...)` on `_id`. */
  function FindById(ps: seq<ProfileDoc>, id: string): (r: Option<nat>)
    ensures r.Some? ==> r.value < |ps| && ps[r.value].id == id
    ensures r.None? ==> forall i :: 0 <= i < |ps| ==> ps[i].id != id
  {
    FindFirst(ps, (p: ProfileDoc) => p.id == id)
  }

  /** `Profile.findOne({ _id: id, userId: owner })`. */
  function FindOwned(ps: seq<ProfileDoc>, id: string, owner: string): (r: Option<nat>)
    ensures r.Some? ==> r.value < |ps| && ps[r.value].id == id && ps[r.value].userId == owner
    ensures r.None? ==> forall i :: 0 <= i < |ps| ==> !(ps[i].id == id && ps[i].userId == owner)
  {
    FindFirst(ps, (p: ProfileDoc) => p.id == id && p.userId == owner)
  }

  /** The profile collection. */
  class ProfileStore {
    var profiles: seq<ProfileDoc>

    ghost predicate Valid()
      reads this
    {
      UniqueIds(profiles) && UniqueOwners(profiles) && AllValid(profiles)
    }

    constructor ()
      ensures profiles == [] && Valid()
    {
      profiles := [];
    }

    /**
     * Inserting a new document: the schema validators and the unique indexes on
     * `_id` and `userId` must all pass, otherwise nothing is written.
     */
    method Insert(p: ProfileDoc) returns (ok: bool)
      requires Valid()
      modifies this
      ensures Valid()
      ensures ok <==> SchemaValid(p) && FindById(old(profiles), p.id).None?
                      && forall i :: 0 <= i < |old(profiles)| ==> old(profiles)[i].userId != p.userId
      ensures profiles == if ok then old(profiles) + [p] else old(profiles)
    {
      ok := SchemaValid(p) && FindById(profiles, p.id).None?
            && FindFirst(profiles, (q: ProfileDoc) => q.userId == p.userId).None?;
      if ok {
        profiles := profiles + [p];
      }
    }

    /** Writing back a saved document over the stored one with the same id. */
    method Replace(k: nat, p: ProfileDoc)
      requires Valid() && k < |profiles|
      requires p.id == profiles[k].id && p.userId == profiles[k].userId && SchemaValid(p)
      modifies this
      ensures Valid()
      ensures profiles == old(profiles)[k := p]
    {
      profiles := profiles[k := p];
    }
  }
}

=== FILE: profile_page.dfy ===
/**
 * The listing page (frontend/src/pages/ProfilePage.js): the listing named by the
 * route's id, and the index of the image its carousel shows. Every handler
 * passes an updater that computes the next index from the previous one.
 */
module ProfilePage {
  import opened Text
  import opened Seqs
  import opened HomePage

  /**
   * Line 15: `mockProfiles.find(p => p.id === parseInt(id))`. None stands for
   * `undefined`, for which the page shows its not-found message.
   */
  function FindProfile(ps: seq<Listing>, idText: string): (r: Option<Listing>)
    ensures r.Some? ==> ParseInt(idText) == Some(r.value.id)
    ensures r.Some? ==> exists k :: 0 <= k < |ps| && ps[k] == r.value && forall j :: 0 <= j < k ==> ps[j].id != r.value.id
    ensures r.None? ==> ParseInt(idText).None? || forall p :: p in ps ==> Some(p.id) != ParseInt(idText)
  {
    match ParseInt(idText)
    case None => None
    case Some(n) =>
      match FindFirst(ps, (p: Listing) => p.id == n)
      case None => None
      case Some(k) => Some(ps[k])
  }

  /** A link built from a listing's id leads back to that listing when ids are distinct. */
  lemma FindByOwnId(ps: seq<Listing>, k: nat)
    requires k < |ps| && ps[k].id >= 0
    requires forall i, j :: 0 <= i < j < |ps| ==> ps[i].id != ps[j].id
    ensures FindProfile(ps, DecimalString(ps[k].id)) == Some(ps[k])
  {
    ParseIntDecimal(ps[k].id);
  }

  // ---------------------------------------------------------------- carousel

  /** Lines 33-36: forward, from the last image back to the first. */
  function Next(prev: int, n: int): int {
    if prev == n - 1 then 0 else prev + 1
  }

  /** Lines 37-40: backward, from the first image round to the last. */
  function Prev(prev: int, n: int): int {
    if prev == 0 then n - 1 else prev - 1
  }

  /** Lines 32-42: `handleImageNavigation(direction)`; every direction but `'next'` goes back. */
  function Navigate(prev: int, n: int, direction: string): int {
    if direction == "next" then Next(prev, n) else Prev(prev, n)
  }

  /** What the shopper can do: press an arrow, or press the thumbnail at an index. */
  datatype Event = Arrow(direction: string) | Thumbnail(index: int)

  /** Lines 32-42 and 146: the index after one event. */
  function Step(prev: int, n: int, e: Event): int {
    match e
    case Arrow(d) => Navigate(prev, n, d)
    case Thumbnail(i) => i
  }

  /** The index after a run of events, starting from `start`. */
  function Run(start: int, n: int, es: seq<Event>): int
    decreases |es|
  {
    if es == [] then start else Run(Step(start, n, es[0]), n, es[1..])
  }

  /** The thumbnails on screen: one per image, so their indexes lie in [0, n). */
  predicate OnScreen(es: seq<Event>, n: int) {
    forall i :: 0 <= i < |es| ==> es[i].Thumbnail? ==> 0 <= es[i].index < n
  }

  /** Stepping forward and back is counting modulo the number of images. */
  lemma StepsAreModular(i: int, n: int)
    requires 0 <= i < n
    ensures Next(i, n) == (i + 1) % n
    ensures Prev(i, n) == (i - 1 + n) % n
  {
  }

  /** Forward then back, or back then forward, returns to the same image. */
  lemma RoundTrips(i: int, n: int)
    requires 0 <= i < n
    ensures Prev(Next(i, n), n) == i
    ensures Next(Prev(i, n), n) == i
  {
  }

  /**
   * From an image that exists, any run of arrow presses and on-screen thumbnail
   * presses keeps the index on an image that exists; a thumbnail press shows
   * exactly the pressed image.
   */
  lemma {:induction false} RunStaysInRange(start: int, n: int, es: seq<Event>)
    requires 0 <= start < n && OnScreen(es, n)
    ensures 0 <= Run(start, n, es) < n
    ensures es != [] && es[|es| - 1].Thumbnail? ==> Run(start, n, es) == es[|es| - 1].index
    decreases |es|
  {
    if es != [] {
      var next := Step(start, n, es[0]);
      assert OnScreen(es[1..], n) by {
        forall i | 0 <= i < |es[1..]| && es[1..][i].Thumbnail?
          ensures 0 <= es[1..][i].index < n
        {
          assert es[1..][i] == es[i + 1];
        }
      }
      RunStaysInRange(next, n, es[1..]);
    }
  }

  /** k presses of `'next'`. */
  function Nexts(k: nat): (es: seq<Event>)
    ensures |es| == k && forall i :: 0 <= i < k ==> es[i] == Arrow("next")
  {
    if k == 0 then [] else Nexts(k - 1) + [Arrow("next")]
  }

  /** One more event after a run is one more step from where the run ended. */
  lemma {:induction false} RunAppend(start: int, n: int, es: seq<Event>, e: Event)
    ensures Run(start, n, es + [e]) == Step(Run(start, n, es), n, e)
    decreases |es|
  {
    if es == [] {
      assert [e][1..] == [];
    } else {
      assert (es + [e])[1..] == es[1..] + [e];
      RunAppend(Step(start, n, es[0]), n, es[1..], e);
    }
  }

  /** k presses of `'next'` advance the index by k modulo the number of images, so n presses come back. */
  lemma {:induction false} NextsAdvance(i: int, n: int, k: nat)
    requires 0 <= i < n
    ensures Run(i, n, Nexts(k)) == (i + k) % n
    decreases k
  {
    if k == 0 {
      ModOfSmall(i, n);
    } else {
      NextsAdvance(i, n, k - 1);
      RunAppend(i, n, Nexts(k - 1), Arrow("next"));
      var at := (i + k - 1) % n;
      StepsAreModular(at, n);
      ModSucc(i + k - 1, n);
    }
  }

  /** Pressing `'next'` once per image comes back to the image shown before. */
  lemma FullCycle(i: int, n: int)
    requires 0 <= i < n
    ensures Run(i, n, Nexts(n)) == i
  {
    NextsAdvance(i, n, n);
    ModUnique(i + n, n, 1, i);
  }

  /** A remainder is fixed by any quotient-and-remainder split of the number. */
  lemma ModUnique(x: int, n: int, q: int, r: int)
    requires n > 0 && 0 <= r < n && x == q * n + r
    ensures x % n == r
  {
    var q', r' := x / n, x % n;
    assert (q - q') * n == r' - r;
    if q > q' {
      MulAtLeast(q - q', n);
    } else if q < q' {
      MulAtLeast(q' - q, n);
    }
  }

  lemma MulAtLeast(a: int, n: int)
    requires a >= 1 && n > 0
    ensures a * n >= n
  {
  }

  lemma ModOfSmall(r: int, n: int)
    requires 0 <= r < n
    ensures r % n == r
  {
    ModUnique(r, n, 0, r);
  }

  /** Adding one to a remainder and reducing again is adding one to the number. */
  lemma ModSucc(x: int, n: int)
    requires x >= 0 && n > 0
    ensures ((x % n) + 1) % n == (x + 1) % n
  {
    var q, r := x / n, x % n;
    assert x == q * n + r;
    if r + 1 < n {
      ModOfSmall(r + 1, n);
      ModUnique(x + 1, n, q, r + 1);
    } else {
      ModUnique(n, n, 1, 0);
      ModUnique(x + 1, n, q + 1, 0);
    }
  }
}

=== FILE: profile_routes.dfy ===
/**
 * The profile endpoints of backend/routes/profiles.js: the public listing (query
 * rules, the filter built from the query, the sort key, paging and the transform
 * with its placeholder image), the public detail view that counts a visit, the
 * owner-only partial update and the online toggle.
 */
module ProfileRoutes {
  import opened Text
  import opened Seqs
  import opened Sorting
  import opened Requests
  import opened Profiles
  import Validation

  const ServerError := "Error del servidor"

  // ------------------------------------------------------------ query rules

  /** The inline rules of GET /api/profiles (lines 9-19); location, ethnicity and search are only trimmed. */
  predicate QueryRulesPass(q: ProfileQuery) {
    && (q.page.None? || IsIntAtLeast(q.page.value, 1))
    && (q.limit.None? || IsIntInRange(q.limit.value, 1, 50))
    && (q.minAge.None? || IsIntAtLeast(q.minAge.value, 18))
    && (q.maxAge.None? || IsIntInRange(q.maxAge.value, 18, 100))
    && (q.category.None? || q.category.value in Categories)
    && (q.sortBy.None? || q.sortBy.value in SortOptions)
  }

  /**
   * The shared `profileQuery` rule set, which no route applies, leaves page and limit
   * to the inline rules and adds a search of 1 to 100 characters after trimming: an
   * empty search passes the route and not the shared rules.
   */
  lemma SharedQueryRules(q: ProfileQuery)
    ensures Validation.ProfileQueryRules(q) <==>
      QueryRulesPass(q.(page := None, limit := None)) && (q.search.None? || IsLengthInRange(Trim(q.search.value), 1, 100))
    ensures QueryRulesPass(q) ==>
      QueryRulesPass(q.(search := Some(""))) && !Validation.ProfileQueryRules(q.(search := Some("")))
  {
    TrimNoLonger("");
  }

  /** Page and limit once the rules pass: the values sent, or 1 and 20 when absent. */
  lemma PagingDefaults(q: ProfileQuery)
    requires QueryRulesPass(q)
    ensures NumberOr(q.page, 1) == if q.page.Some? then IntTextValue(q.page.value) else 1
    ensures NumberOr(q.limit, 20) == if q.limit.Some? then IntTextValue(q.limit.value) else 20
    ensures NumberOr(q.page, 1) >= 1 && 1 <= NumberOr(q.limit, 20) <= 50
  {
    NumberOrPositive(q.page, 1);
    NumberOrPositive(q.limit, 20);
  }

  /** The `all` sentinel reaches only location and ethnicity: for ages and category the rules refuse it. */
  lemma AllRejectedForAgesAndCategory(q: ProfileQuery)
    requires q.minAge == Some("all") || q.maxAge == Some("all") || q.category == Some("all")
    ensures !QueryRulesPass(q)
  {
    if q.minAge == Some("all") {
      assert !IsDigit("all"[0]);
    } else if q.maxAge == Some("all") {
      assert !IsDigit("all"[0]);
    }
  }

  // ----------------------------------------------------------------- filter

  /** The `age` clause: `$gte`, `$lte`, or both. */
  datatype AgeRange = AgeRange(gte: Option<int>, lte: Option<int>)

  /** The filter object; `isActive: true` is always part of it. */
  datatype ProfileFilter = ProfileFilter(
    location: Option<string>, age: Option<AgeRange>, ethnicity: Option<string>,
    category: Option<string>, search: Option<string>)

  /** A query value that constrains nothing: absent, empty, or the `all` sentinel. */
  predicate IsNoConstraint(v: Option<string>) {
    v.None? || v.value == "" || v.value == "all"
  }

  /** The trimmed form the sanitizer leaves in the query. */
  function Trimmed(v: Option<string>): Option<string> {
    if v.None? then None else Some(Trim(v.value))
  }

  /** Lines 61-67: the term occurs, ignoring case, in the name, description, location or one of the services. */
  predicate SearchMatches(p: ProfileDoc, term: string) {
    || ContainsIgnoreCase(p.name, term) || ContainsIgnoreCase(p.description, term)
    || ContainsIgnoreCase(p.location, term) || AnyContains(p.services, term)
  }

  predicate AnyContains(items: seq<string>, term: string) {
    exists i :: 0 <= i < |items| && ContainsIgnoreCase(items[i], term)
  }

  /** What the database selects with the filter. */
  predicate FilterAdmits(f: ProfileFilter, p: ProfileDoc) {
    && p.isActive
    && (f.location.None? || p.location == f.location.value)
    && (f.age.None? || ((f.age.value.gte.None? || p.age >= f.age.value.gte.value)
                        && (f.age.value.lte.None? || p.age <= f.age.value.lte.value)))
    && (f.ethnicity.None? || p.ethnicity == f.ethnicity.value)
    && (f.category.None? || p.category == f.category.value)
    && (f.search.None? || SearchMatches(p, f.search.value))
  }

  /** An age bound as the number it denotes; None when absent or not integer text. */
  function AgeBound(v: Option<string>): Option<int> {
    if v.Some? && IsIntText(v.value) then Some(IntTextValue(v.value)) else None
  }

  /**
   * The listing's selection stated on the query itself: active profiles only; location
   * and ethnicity constrain unless absent, empty or `all`; the age bounds are inclusive
   * and independent; the search term applies when it is not empty.
   */
  predicate QueryAdmits(q: ProfileQuery, p: ProfileDoc) {
    && p.isActive
    && (IsNoConstraint(Trimmed(q.location)) || p.location == Trim(q.location.value))
    && (AgeBound(q.minAge).None? || AgeBound(q.minAge).value <= p.age)
    && (AgeBound(q.maxAge).None? || p.age <= AgeBound(q.maxAge).value)
    && (IsNoConstraint(Trimmed(q.ethnicity)) || p.ethnicity == Trim(q.ethnicity.value))
    && (q.category.None? || p.category == q.category.value)
    && (q.search.None? || Trim(q.search.value) == "" || SearchMatches(p, Trim(q.search.value)))
  }

  /**
   * The filter a query describes: location and ethnicity once trimmed unless they
   * constrain nothing, the age range from whichever bounds are present, the
   * category as sent, and the trimmed search term unless it is empty.
   */
  function QueryFilter(q: ProfileQuery): ProfileFilter {
    ProfileFilter(
      if IsNoConstraint(Trimmed(q.location)) then None else Trimmed(q.location),
      if AgeBound(q.minAge).None? && AgeBound(q.maxAge).None? then None
      else Some(AgeRange(AgeBound(q.minAge), AgeBound(q.maxAge))),
      if IsNoConstraint(Trimmed(q.ethnicity)) then None else Trimmed(q.ethnicity),
      q.category,
      if q.search.None? || Trim(q.search.value) == "" then None else Trimmed(q.search))
  }

  /** Lines 35-68: the filter object, built one clause at a time. */
  method BuildFilter(q: ProfileQuery) returns (f: ProfileFilter)
    requires QueryRulesPass(q)
    ensures f == QueryFilter(q)
    ensures forall p :: FilterAdmits(f, p) <==> QueryAdmits(q, p)
  {
    var want := QueryFilter(q);
    f := ProfileFilter(None, None, None, None, None);
    var location := Trimmed(q.location);
    if location.Some? && location.value != "" && location.value != "all" {
      f := f.(location := location);
    }
    assert f == want.(age := None, ethnicity := None, category := None, search := None);
    AgeBoundParsed(q.minAge);
    AgeBoundParsed(q.maxAge);
    if q.minAge.Some? && q.minAge.value != "" && q.minAge.value != "all" {
      f := f.(age := Some(AgeRange(ParseInt(q.minAge.value), None)));
    }
    if q.maxAge.Some? && q.maxAge.value != "" && q.maxAge.value != "all" {
      if f.age.Some? {
        f := f.(age := Some(f.age.value.(lte := ParseInt(q.maxAge.value))));
      } else {
        f := f.(age := Some(AgeRange(None, ParseInt(q.maxAge.value))));
      }
    }
    assert f == want.(ethnicity := None, category := None, search := None);
    var ethnicity := Trimmed(q.ethnicity);
    if ethnicity.Some? && ethnicity.value != "" && ethnicity.value != "all" {
      f := f.(ethnicity := ethnicity);
    }
    assert f == want.(category := None, search := None);
    if q.category.Some? && q.category.value != "" && q.category.value != "all" {
      f := f.(category := q.category);
    }
    assert f == want.(search := None);
    var search := Trimmed(q.search);
    if search.Some? && search.value != "" {
      f := f.(search := search);
    }
    QueryFilterAdmits(q);
  }

  /** Under the rules, the handler's test for a present bound and its `parseInt` agree with AgeBound. */
  lemma AgeBoundParsed(v: Option<string>)
    requires v.None? || IsIntText(v.value)
    ensures (v.Some? && v.value != "" && v.value != "all") <==> AgeBound(v).Some?
    ensures AgeBound(v).Some? ==> ParseInt(v.value) == AgeBound(v)
  {
    if v.Some? {
      ParseIntOfIntText(v.value);
      assert v.value[0] != 'a';
    }
  }

  /** The filter the query describes selects exactly what the query admits. */
  lemma QueryFilterAdmits(q: ProfileQuery)
    ensures forall p :: FilterAdmits(QueryFilter(q), p) <==> QueryAdmits(q, p)
  {
  }

  /** The listing's selection as a predicate on profiles. */
  function QueryAdmitsProfile(q: ProfileQuery): ProfileDoc -> bool {
    (p: ProfileDoc) => QueryAdmits(q, p)
  }

  // ------------------------------------------------------------------- sort

  datatype SortKey = Featured | Newest | PriceLow | PriceHigh | Popular

  /** Lines 72-90: the `sortBy` switch; an absent or unknown value sorts as `featured`. */
  function SortKeyOf(sortBy: Option<string>): (k: SortKey)
    ensures sortBy.None? || sortBy.value !in SortOptions ==> k == Featured
  {
    if sortBy == Some("newest") then Newest
    else if sortBy == Some("price-low") then PriceLow
    else if sortBy == Some("price-high") then PriceHigh
    else if sortBy == Some("popular") then Popular
    else Featured
  }

  /** Whether a may come before b under the key (the rates are compared as text). */
  predicate Before(k: SortKey, a: ProfileDoc, b: ProfileDoc) {
    match k
    case Featured => (a.isFeatured && !b.isFeatured) || (a.isFeatured == b.isFeatured && a.createdAt >= b.createdAt)
    case Newest => a.createdAt >= b.createdAt
    case PriceLow => TextLeq(a.rates.incall, b.rates.incall)
    case PriceHigh => TextLeq(b.rates.incall, a.rates.incall)
    case Popular => a.views.total >= b.views.total
  }

  function Order(k: SortKey): (ProfileDoc, ProfileDoc) -> bool {
    (a: ProfileDoc, b: ProfileDoc) => Before(k, a, b)
  }

  /** Every sort key orders the profiles totally, so sorting by it is well defined. */
  lemma OrderIsTotalPreorder(k: SortKey)
    ensures TotalPreorder(Order(k))
  {
    if k == PriceLow || k == PriceHigh {
      forall a: ProfileDoc, b: ProfileDoc
        ensures Before(k, a, b) || Before(k, b, a)
      {
        TextLeqTotal(a.rates.incall, b.rates.incall);
      }
      forall a: ProfileDoc, b: ProfileDoc, c: ProfileDoc | Before(k, a, b) && Before(k, b, c)
        ensures Before(k, a, c)
      {
        if k == PriceLow {
          TextLeqTransitive(a.rates.incall, b.rates.incall, c.rates.incall);
        } else {
          TextLeqTransitive(c.rates.incall, b.rates.incall, a.rates.incall);
        }
      }
    }
  }

  /** The rates are text, so `price-low` puts a rate of 150 before one of 90. */
  lemma PriceSortIsTextual(a: ProfileDoc, b: ProfileDoc)
    requires a.rates.incall == "€150/h" && b.rates.incall == "€90/h"
    ensures Before(PriceLow, a, b) && !Before(PriceLow, b, a)
  {
    var x, y := a.rates.incall, b.rates.incall;
    assert x[0] == y[0] && x[1..] == "150/h" && y[1..] == "90/h";
    assert x[1..][0] < y[1..][0];
    assert TextLeq(x[1..], y[1..]) && !TextLeq(y[1..], x[1..]);
    assert TextLeq(x, y) && !TextLeq(y, x);
  }

  // -------------------------------------------------------------- transform

  /** A member of the unreserved set `encodeURIComponent` leaves as it is. */
  predicate IsUnreserved(c: char) {
    || 'A' <= c <= 'Z' || 'a' <= c <= 'z' || '0' <= c <= '9'
    || c == '-' || c == '_' || c == '.' || c == '!' || c == '~' || c == '*' || c == '\'' || c == '(' || c == ')'
  }

  function HexUpper(d: nat): (c: char)
    requires d < 16
    ensures IsUnreserved(c)
  {
    if d < 10 then ('0' as int + d) as char else ('A' as int + d - 10) as char
  }

  /** The UTF-8 encoding of one scalar value. */
  function Utf8(c: char): (bytes: seq<nat>)
    ensures 1 <= |bytes| <= 4 && forall i :: 0 <= i < |bytes| ==> bytes[i] < 256
  {
    var n := c as int;
    if n < 0x80 then [n]
    else if n < 0x800 then [0xC0 + n / 64, 0x80 + n % 64]
    else if n < 0x1_0000 then [0xE0 + n / 4096, 0x80 + (n / 64) % 64, 0x80 + n % 64]
    else [0xF0 + n / 262144, 0x80 + (n / 4096) % 64, 0x80 + (n / 64) % 64, 0x80 + n % 64]
  }

  /** `%XX` for each byte, upper-case hexadecimal. */
  function PercentBytes(bytes: seq<nat>): (r: string)
    requires forall i :: 0 <= i < |bytes| ==> bytes[i] < 256
    ensures |r| == 3 * |bytes|
    ensures forall i :: 0 <= i < |r| ==> IsUnreserved(r[i]) || r[i] == '%'
  {
    if bytes == [] then [] else ['%', HexUpper(bytes[0] / 16), HexUpper(bytes[0] % 16)] + PercentBytes(bytes[1..])
  }

  /** `encodeURIComponent` on text of scalar values. */
  function EncodeURIComponent(s: string): (r: string)
    ensures forall i :: 0 <= i < |r| ==> IsUnreserved(r[i]) || r[i] == '%'
    ensures |r| >= |s|
  {
    if s == [] then []
    else (if IsUnreserved(s[0]) then [s[0]] else PercentBytes(Utf8(s[0]))) + EncodeURIComponent(s[1..])
  }

  /** Text made only of unreserved characters is left as it is. */
  lemma {:induction false} EncodeUnreservedIdentity(s: string)
    requires forall i :: 0 <= i < |s| ==> IsUnreserved(s[i])
    ensures EncodeURIComponent(s) == s
  {
    if s != [] {
      EncodeUnreservedIdentity(s[1..]);
    }
  }

  /** A space becomes `%20`. */
  lemma EncodeSpace()
    ensures EncodeURIComponent(" ") == "%20"
  {
    assert EncodeURIComponent(" "[1..]) == [];
  }

  const PlaceholderBase := "https://via.placeholder.com/400x500/e5e7eb/6b7280?text="

  function PlaceholderUrl(name: string): string {
    PlaceholderBase + EncodeURIComponent(name)
  }

  /** Whatever the name, the placeholder's query holds the single `text` parameter: no `&`, `#` or space follows the base. */
  lemma PlaceholderKeepsOneParameter(name: string)
    ensures var u := PlaceholderUrl(name);
      && u[..|PlaceholderBase|] == PlaceholderBase
      && forall i :: |PlaceholderBase| <= i < |u| ==> u[i] != '&' && u[i] != '#' && u[i] != ' ' && u[i] != '?'
  {
    var e := EncodeURIComponent(name);
    var u := PlaceholderUrl(name);
    forall i | |PlaceholderBase| <= i < |u|
      ensures u[i] != '&' && u[i] != '#' && u[i] != ' ' && u[i] != '?'
    {
      assert u[i] == e[i - |PlaceholderBase|];
    }
  }

  /** The image list of a transformed profile: stored URLs in order, or one placeholder. */
  function ImageUrls(p: ProfileDoc): (urls: seq<Option<string>>)
    ensures |p.images| > 0 ==> |urls| == |p.images| && forall i :: 0 <= i < |urls| ==> urls[i] == p.images[i].url
    ensures |p.images| == 0 ==> urls == [Some(PlaceholderUrl(p.name))]
    ensures |urls| >= 1
  {
    if |p.images| > 0 then seq(|p.images|, i requires 0 <= i < |p.images| => p.images[i].url)
    else [Some(PlaceholderUrl(p.name))]
  }

  /**
   * One profile as the listing returns it (lines 104-123). The listing reads with
   * `lean()`, which fills no defaults, so `online` is left out of the JSON
   * (`Missing`) when the stored document lacks `isOnline`.
   */
  datatype ProfileCard = ProfileCard(
    id: string, name: string, age: int, location: string, description: string,
    images: seq<Option<string>>, verified: bool, featured: bool, online: BoolPath,
    incall: string, outcall: string, services: seq<string>, ethnicity: string,
    category: string, rating: real, views: int)

  function Card(p: ProfileDoc): ProfileCard {
    ProfileCard(p.id, p.name, p.age, p.location, p.description, ImageUrls(p),
                p.isVerified, p.isFeatured, p.isOnline, p.rates.incall, p.rates.outcall,
                p.services, p.ethnicity, p.category, p.rating.average, p.views.total)
  }

  function Cards(ps: seq<ProfileDoc>): (cs: seq<ProfileCard>)
    ensures |cs| == |ps| && forall i :: 0 <= i < |ps| ==> cs[i] == Card(ps[i])
  {
    seq(|ps|, i requires 0 <= i < |ps| => Card(ps[i]))
  }

  // ---------------------------------------------------------------- listing

  /** The `data` of a listing answer. */
  datatype Listing = Listing(profiles: seq<ProfileCard>, page: int, limit: int, total: nat, pages: nat)

  /** `parseInt(page) || 1` once the rules pass: the page sent, or 1. */
  function PageNumber(q: ProfileQuery): (n: nat)
    requires QueryRulesPass(q)
    ensures n >= 1
  {
    PagingDefaults(q);
    NumberOr(q.page, 1)
  }

  /** `parseInt(limit) || 20` once the rules pass: the limit sent, or 20. */
  function ListingLimit(q: ProfileQuery): (n: nat)
    requires QueryRulesPass(q)
    ensures 1 <= n <= 50
  {
    PagingDefaults(q);
    NumberOr(q.limit, 20)
  }

  /** The matching profiles in sort order, before paging. */
  function Ranked(ps: seq<ProfileDoc>, q: ProfileQuery): seq<ProfileDoc> {
    SortWith(Filter(ps, QueryAdmitsProfile(q)), Order(SortKeyOf(q.sortBy)))
  }

  /** The profiles of the requested page: at most `limit` of them from `skip` on. */
  function PageOfRanked(ps: seq<ProfileDoc>, q: ProfileQuery): seq<ProfileDoc>
    requires QueryRulesPass(q)
  {
    Page(Ranked(ps, q), Skip(PageNumber(q), ListingLimit(q)), ListingLimit(q))
  }

  /** GET /api/profiles. */
  function ListProfiles(ps: seq<ProfileDoc>, q: ProfileQuery): Outcome<Listing> {
    if !QueryRulesPass(q) then Failure(400, "Parámetros de consulta inválidos")
    else
      var total := Count(ps, QueryAdmitsProfile(q));
      Success(200, Listing(Cards(PageOfRanked(ps, q)), PageNumber(q), ListingLimit(q), total, PageCount(total, ListingLimit(q))))
  }

  /** The listing through the filter object the handler builds. */
  method GetProfiles(store: ProfileStore, q: ProfileQuery) returns (out: Outcome<Listing>)
    ensures out == ListProfiles(store.profiles, q)
  {
    if !QueryRulesPass(q) {
      return Failure(400, "Parámetros de consulta inválidos");
    }
    var f := BuildFilter(q);
    var admits := (p: ProfileDoc) => FilterAdmits(f, p);
    FilterCongruent(store.profiles, admits, QueryAdmitsProfile(q));
    CountIsFilterSize(store.profiles, QueryAdmitsProfile(q));
    var page := PageNumber(q);
    var limit := ListingLimit(q);
    var selected := Filter(store.profiles, admits);
    var sorted := SortWith(selected, Order(SortKeyOf(q.sortBy)));
    var shown := Page(sorted, Skip(page, limit), limit);
    var total := |selected|;
    out := Success(200, Listing(Cards(shown), page, limit, total, PageCount(total, limit)));
  }

  /** The listing's page holds only active profiles of the collection that the query admits, in sort order. */
  lemma ListingSelects(ps: seq<ProfileDoc>, q: ProfileQuery)
    requires QueryRulesPass(q)
    ensures var shown := PageOfRanked(ps, q);
      && (forall i :: 0 <= i < |shown| ==> shown[i] in ps && shown[i].isActive && QueryAdmits(q, shown[i]))
      && SortedBy(shown, Order(SortKeyOf(q.sortBy)))
  {
    var k := SortKeyOf(q.sortBy);
    OrderIsTotalPreorder(k);
    PageOfSelection(ps, QueryAdmitsProfile(q), Order(k), Skip(PageNumber(q), ListingLimit(q)), ListingLimit(q));
  }

  /**
   * The listing's numbers: at most `limit` profiles, those at `(page - 1) * limit`
   * onwards among the ranked matches; `total` counts every match and `pages` is
   * PageCount, the ceiling of total / limit.
   */
  lemma ListingPaging(ps: seq<ProfileDoc>, q: ProfileQuery)
    requires QueryRulesPass(q)
    ensures var shown := PageOfRanked(ps, q);
      var l := ListProfiles(ps, q).value;
      && l.page == PageNumber(q) && l.limit == ListingLimit(q)
      && |shown| <= l.limit
      && (forall i :: 0 <= i < |shown| ==> shown[i] == Ranked(ps, q)[Skip(PageNumber(q), ListingLimit(q)) + i])
      && l.profiles == Cards(shown)
      && l.total == |Ranked(ps, q)|
      && l.pages == PageCount(l.total, l.limit)
  {
    SelectThenSort(ps, QueryAdmitsProfile(q), Order(SortKeyOf(q.sortBy)));
    CountIsFilterSize(ps, QueryAdmitsProfile(q));
  }

  /** Every active profile that the query admits is among the ranked matches. */
  lemma ListingComplete(ps: seq<ProfileDoc>, q: ProfileQuery, p: ProfileDoc)
    requires p in ps && QueryAdmits(q, p)
    ensures p in Ranked(ps, q)
  {
    SelectThenSort(ps, QueryAdmitsProfile(q), Order(SortKeyOf(q.sortBy)));
  }

  // ----------------------------------------------------------------- detail

  /** One profile as GET /api/profiles/:id returns it (lines 164-186). */
  datatype ProfileDetail = ProfileDetail(card: ProfileCard, reviewCount: int, availability: seq<Day>, lastActive: int)

  datatype ViewResult = ViewResult(out: Outcome<ProfileDetail>, profiles: seq<ProfileDoc>)

  /**
   * GET /api/profiles/:id: a missing or inactive profile is 404; otherwise the
   * document `findById` hands back, defaults filled in, has the visit counted
   * and is saved first.
   */
  function ViewProfile(ps: seq<ProfileDoc>, id: string, now: int): ViewResult {
    if !IsMongoId(id) then ViewResult(Failure(500, ServerError), ps)
    else match FindById(ps, id)
      case None => ViewResult(Failure(404, "Perfil no encontrado"), ps)
      case Some(k) =>
        var loaded := Hydrated(ps[k]);
        if !loaded.isActive then ViewResult(Failure(404, "Perfil no encontrado"), ps)
        else
          var viewed := loaded.(views := Viewed(loaded.views));
          if !SchemaValid(viewed) then ViewResult(Failure(500, ServerError), ps)
          else
            var saved := viewed.(updatedAt := now);
            ViewResult(Success(200, ProfileDetail(Card(saved), saved.rating.count, saved.availability, saved.lastActive)),
                       ps[k := saved])
  }

  /** GET /api/profiles/:id on the collection, through `incrementViews`. */
  method GetProfile(store: ProfileStore, id: string, now: int) returns (out: Outcome<ProfileDetail>)
    requires store.Valid()
    modifies store
    ensures store.Valid()
    ensures ViewResult(out, store.profiles) == ViewProfile(old(store.profiles), id, now)
  {
    if !IsMongoId(id) {
      return Failure(500, ServerError);
    }
    var found := FindById(store.profiles, id);
    if found.None? {
      return Failure(404, "Perfil no encontrado");
    }
    var k := found.value;
    var profile := new Profile.Load(store.profiles[k]);
    if !profile.isActive {
      return Failure(404, "Perfil no encontrado");
    }
    var ok := profile.IncrementViews(now);
    if !ok {
      return Failure(500, ServerError);
    }
    store.Replace(k, profile.Doc());
    var saved := profile.Doc();
    out := Success(200, ProfileDetail(Card(saved), saved.rating.count, saved.availability, saved.lastActive));
  }

  /**
   * On a valid collection the detail view answers 200 exactly for an active
   * profile; the answer shows the view already counted, and the stored counters
   * each grow by one.
   */
  lemma ViewCountsTheVisit(ps: seq<ProfileDoc>, id: string, now: int)
    requires AllValid(ps)
    ensures var r := ViewProfile(ps, id, now);
      && (r.out.Success? <==> IsMongoId(id) && FindById(ps, id).Some? && ps[FindById(ps, id).value].isActive)
      && (r.out.Success? ==>
            var k := FindById(ps, id).value;
            && r.out.value.card.views == ps[k].views.total + 1
            && r.profiles == ps[k := Hydrated(ps[k]).(views := Viewed(ps[k].views), updatedAt := now)])
      && (r.out.Failure? ==> r.profiles == ps)
  {
    if IsMongoId(id) && FindById(ps, id).Some? {
      var k := FindById(ps, id).value;
      CountersAndStatusKeepSchema(ps[k], Missing, now);
      CountersAndStatusKeepSchema(Hydrated(ps[k]), Missing, now);
    }
  }

  /**
   * For a profile whose stored document lacks `isOnline`, the listing leaves
   * `online` out, while the detail view answers `online: false` and its save
   * writes that default back; a stored null or Boolean is shown as stored by both.
   */
  lemma DetailFillsOnline(ps: seq<ProfileDoc>, id: string, now: int)
    requires ViewProfile(ps, id, now).out.Success?
    ensures FindById(ps, id).Some?
    ensures var k := FindById(ps, id).value;
      var r := ViewProfile(ps, id, now);
      && Cards(ps)[k].online == ps[k].isOnline
      && (ps[k].isOnline.Missing? ==> r.out.value.card.online == Stored(false))
      && (!ps[k].isOnline.Missing? ==> r.out.value.card.online == ps[k].isOnline)
      && r.profiles[k].isOnline == r.out.value.card.online
  {
  }

  /**
   * A toggle whose body has no `isOnline` unsets the field: the listing then
   * leaves `online` out, and the next detail view answers `online: false` and
   * stores it. A toggle to `null` is shown as null by both.
   */
  lemma UnsetToggleThenView(ps: seq<ProfileDoc>, caller: Caller, id: string, v: Option<JsonValue>, now: int, later: int)
    requires AllValid(ps) && UniqueIds(ps) && caller.userType == "model" && IsMongoId(id)
    requires FindOwned(ps, id, caller.userId).Some? && ps[FindOwned(ps, id, caller.userId).value].isActive
    requires v == None || v == Some(JNull)
    ensures var k := FindOwned(ps, id, caller.userId).value;
      var t := ToggleOnline(ps, caller, id, v, now);
      var w := ViewProfile(t.profiles, id, later);
      && t.out.Success?
      && Cards(t.profiles)[k].online == (if v.None? then Missing else Null)
      && w.out.Success?
      && w.out.value.card.online == (if v.None? then Stored(false) else Null)
      && w.profiles[k].isOnline == w.out.value.card.online
  {
    var k := FindOwned(ps, id, caller.userId).value;
    ToggleEffects(ps, caller, id, v, now);
    var t := ToggleOnline(ps, caller, id, v, now);
    assert t.profiles[k].isOnline == CastBoolean(v).value;
    var j := FindById(t.profiles, id);
    assert j.Some? by {
      assert t.profiles[k].id == id;
    }
    assert j.value == k by {
      assert ps[j.value].id == id;
    }
    assert AllValid(t.profiles) by {
      forall i | 0 <= i < |t.profiles|
        ensures SchemaValid(t.profiles[i])
      {
        if i == k {
          CountersAndStatusKeepSchema(ps[k], CastBoolean(v).value, now);
        }
      }
    }
    ViewCountsTheVisit(t.profiles, id, later);
    DetailFillsOnline(t.profiles, id, later);
  }

  // ----------------------------------------------------------------- update

  /** The inline rules of PUT /api/profiles/:id (lines 206-214); location and rates are only trimmed. */
  predicate UpdateRulesPass(b: ProfileUpdateBody) {
    && (b.name.None? || IsLengthInRange(Trim(b.name.value), 2, 100))
    && (b.age.None? || IsIntInRange(b.age.value, 18, 100))
    && (b.description.None? || VisibleLength(Trim(b.description.value)) <= 2000)
    && (b.ethnicity.None? || b.ethnicity.value in Ethnicities)
    && (b.category.None? || b.category.value in Categories)
  }

  /**
   * The shared `profileUpdate` rule set, which no route applies, accepts exactly what
   * the inline rules accept with a location of 2 to 100 characters and rates in the
   * rate format, once trimmed: a location `x` passes the route and not the shared rules.
   */
  lemma SharedUpdateRules(b: ProfileUpdateBody)
    ensures Validation.ProfileUpdate(b) <==>
      && UpdateRulesPass(b)
      && (b.location.None? || IsLengthInRange(Trim(b.location.value), 2, 100))
      && (b.rates.None? || b.rates.value.incall.None? || Validation.MatchRate(Trim(b.rates.value.incall.value)))
      && (b.rates.None? || b.rates.value.outcall.None? || Validation.MatchRate(Trim(b.rates.value.outcall.value)))
    ensures UpdateRulesPass(b) ==>
      UpdateRulesPass(b.(location := Some("x"))) && !Validation.ProfileUpdate(b.(location := Some("x")))
  {
    TrimNoLonger("x");
  }


  /** A rate the handler copies: present and, once trimmed, not empty. */
  function SentRate(sent: Option<string>): (r: Option<string>)
    ensures r.Some? <==> sent.Some? && Trim(sent.value) != ""
  {
    if sent.Some? && Trim(sent.value) != "" then Some(Trim(sent.value)) else None
  }

  /**
   * The body's fields as the document receives them: trimmed by the sanitizers
   * and the schema, the age cast to a number, and each rate only when it is
   * truthy after trimming.
   */
  datatype ProfileChange = ProfileChange(
    name: Option<string>, age: Option<int>, location: Option<string>,
    description: Option<string>, services: Option<seq<string>>,
    ethnicity: Option<string>, category: Option<string>,
    incall: Option<string>, outcall: Option<string>)

  function Change(b: ProfileUpdateBody): ProfileChange {
    ProfileChange(
      Trimmed(b.name), AgeBound(b.age), Trimmed(b.location), Trimmed(b.description),
      if b.services.Some? then Some(TrimEach(b.services.value)) else None,
      b.ethnicity, b.category,
      if b.rates.Some? then SentRate(b.rates.value.incall) else None,
      if b.rates.Some? then SentRate(b.rates.value.outcall) else None)
  }

  /** Lines 247-261: each field the change carries overwrites the document's. */
  function Updated(p: ProfileDoc, c: ProfileChange): ProfileDoc {
    p.(name := if c.name.Some? then c.name.value else p.name,
       age := if c.age.Some? then c.age.value else p.age,
       location := if c.location.Some? then c.location.value else p.location,
       description := if c.description.Some? then c.description.value else p.description,
       services := if c.services.Some? then c.services.value else p.services,
       ethnicity := if c.ethnicity.Some? then c.ethnicity.value else p.ethnicity,
       category := if c.category.Some? then c.category.value else p.category,
       rates := Rates(if c.incall.Some? then c.incall.value else p.rates.incall,
                      if c.outcall.Some? then c.outcall.value else p.rates.outcall))
  }

  datatype UpdateResult = UpdateResult(out: Outcome<ProfileDoc>, profiles: seq<ProfileDoc>)

  /** PUT /api/profiles/:id. */
  function UpdateProfile(ps: seq<ProfileDoc>, caller: Caller, id: string, b: ProfileUpdateBody, now: int): UpdateResult {
    if !UpdateRulesPass(b) then UpdateResult(Failure(400, "Datos de validación incorrectos"), ps)
    else if caller.userType != "model" then UpdateResult(Failure(403, "Solo los modelos pueden actualizar perfiles"), ps)
    else if !IsMongoId(id) then UpdateResult(Failure(500, ServerError), ps)
    else match FindOwned(ps, id, caller.userId)
      case None => UpdateResult(Failure(404, "Perfil no encontrado o no autorizado"), ps)
      case Some(k) =>
        var u := Updated(Hydrated(ps[k]), Change(b));
        if !SchemaValid(u) then UpdateResult(Failure(500, ServerError), ps)
        else UpdateResult(Success(200, u.(updatedAt := now)), ps[k := u.(updatedAt := now)])
  }

  /** PUT /api/profiles/:id on the collection: the loaded document is changed field by field and saved. */
  method PutProfile(store: ProfileStore, caller: Caller, id: string, b: ProfileUpdateBody, now: int)
    returns (out: Outcome<ProfileDoc>)
    requires store.Valid()
    modifies store
    ensures store.Valid()
    ensures UpdateResult(out, store.profiles) == UpdateProfile(old(store.profiles), caller, id, b, now)
  {
    if !UpdateRulesPass(b) {
      return Failure(400, "Datos de validación incorrectos");
    }
    if caller.userType != "model" {
      return Failure(403, "Solo los modelos pueden actualizar perfiles");
    }
    if !IsMongoId(id) {
      return Failure(500, ServerError);
    }
    var found := FindOwned(store.profiles, id, caller.userId);
    if found.None? {
      return Failure(404, "Perfil no encontrado o no autorizado");
    }
    var k := found.value;
    var profile := new Profile.Load(store.profiles[k]);
    ApplyUpdate(profile, Change(b));
    var ok := profile.Save(now);
    if !ok {
      return Failure(500, ServerError);
    }
    store.Replace(k, profile.Doc());
    out := Success(200, profile.Doc());
  }

  /**
   * Lines 247-261: the fields the change carries are written onto the loaded
   * document; the others keep their loaded values.
   */
  method ApplyUpdate(profile: Profile, c: ProfileChange)
    modifies profile
    ensures profile.Doc() == Updated(old(profile.Doc()), c)
  {
    var u := Updated(profile.Doc(), c);
    profile.name, profile.age, profile.location, profile.description := u.name, u.age, u.location, u.description;
    profile.services, profile.ethnicity, profile.category, profile.rates := u.services, u.ethnicity, u.category, u.rates;
  }

  /** Only a model who owns the profile can change it; anyone else leaves the collection as it was. */
  lemma UpdateOnlyByOwner(ps: seq<ProfileDoc>, caller: Caller, id: string, b: ProfileUpdateBody, now: int)
    ensures var r := UpdateProfile(ps, caller, id, b, now);
      && (r.out.Success? ==> caller.userType == "model" && FindOwned(ps, id, caller.userId).Some?
                             && r.out.value.userId == caller.userId && r.out.value.id == id)
      && (r.out.Failure? ==> r.profiles == ps)
  {
  }

  /**
   * A successful update overwrites exactly the listed fields present in the body,
   * each rate only when the sent value is not empty after trimming, stamps
   * updatedAt, and leaves every other field as it was.
   */
  lemma UpdateTouchesOnlySentFields(ps: seq<ProfileDoc>, caller: Caller, id: string, b: ProfileUpdateBody, now: int)
    requires UpdateProfile(ps, caller, id, b, now).out.Success?
    ensures FindOwned(ps, id, caller.userId).Some?
    ensures var p := ps[FindOwned(ps, id, caller.userId).value];
      var u := UpdateProfile(ps, caller, id, b, now).out.value;
      && (b.name.None? ==> u.name == p.name) && (b.name.Some? ==> u.name == Trim(b.name.value))
      && (b.age.None? ==> u.age == p.age) && (b.age.Some? ==> u.age == IntTextValue(b.age.value))
      && (b.location.None? ==> u.location == p.location)
      && (b.description.None? ==> u.description == p.description)
      && (b.services.None? ==> u.services == p.services)
      && (b.ethnicity.None? ==> u.ethnicity == p.ethnicity)
      && (b.category.None? ==> u.category == p.category)
      && (b.rates.None? || b.rates.value.incall.None? || Trim(b.rates.value.incall.value) == "" ==> u.rates.incall == p.rates.incall)
      && (b.rates.None? || b.rates.value.outcall.None? || Trim(b.rates.value.outcall.value) == "" ==> u.rates.outcall == p.rates.outcall)
      && u.isOnline == Hydrated(p).isOnline
      && u.updatedAt == now
      && u.(isOnline := p.isOnline, name := p.name, age := p.age, location := p.location, description := p.description,
            services := p.services, ethnicity := p.ethnicity, category := p.category,
            rates := p.rates, updatedAt := p.updatedAt) == p
  {
  }

  // ---------------------------------------------------------- online status

  /** The strings and numbers Mongoose's Boolean cast reads as true. */
  predicate CastsToTrue(v: JsonValue) {
    v == JBool(true) || v == JNumber(1.0) || v == JString("true") || v == JString("1") || v == JString("yes")
  }

  /** The strings and numbers Mongoose's Boolean cast reads as false. */
  predicate CastsToFalse(v: JsonValue) {
    v == JBool(false) || v == JNumber(0.0) || v == JString("false") || v == JString("0") || v == JString("no")
  }

  /**
   * The Boolean cast the schema applies to `isOnline` (line 306 hands it the body's
   * value unchecked). Absent (`undefined`) unsets the field, so the saved document
   * lacks it; `null` stores null; the recognised values become true or false; any
   * other value cannot be cast, written None.
   */
  function CastBoolean(v: Option<JsonValue>): (r: Option<BoolPath>)
    ensures r == Some(Missing) <==> v.None?
    ensures r == Some(Null) <==> v == Some(JNull)
    ensures r == Some(Stored(true)) <==> v.Some? && CastsToTrue(v.value)
    ensures r == Some(Stored(false)) <==> v.Some? && CastsToFalse(v.value)
    ensures r.None? <==> v.Some? && v.value != JNull && !CastsToTrue(v.value) && !CastsToFalse(v.value)
  {
    if v.None? then Some(Missing)
    else match v.value
      case JNull => Some(Null)
      case JBool(b) => Some(Stored(b))
      case JNumber(x) => if x == 1.0 then Some(Stored(true)) else if x == 0.0 then Some(Stored(false)) else None
      case JString(t) =>
        if t == "true" || t == "1" || t == "yes" then Some(Stored(true))
        else if t == "false" || t == "0" || t == "no" then Some(Stored(false))
        else None
      case JComposite => None
  }

  /** JSON `null` is stored as null and the request succeeds; the text `"null"` cannot be cast. */
  lemma CastNull()
    ensures CastBoolean(Some(JNull)) == Some(Null)
    ensures CastBoolean(Some(JString("null"))).None?
    ensures CastBoolean(Some(JNumber(2.0))).None?
  {
  }

  datatype ToggleResult = ToggleResult(out: Outcome<string>, profiles: seq<ProfileDoc>)

  /**
   * PATCH /api/profiles/:id/online-status. The route declares `isBoolean()` but never
   * reads the validation result, so a value the cast refuses fails at save time (500).
   */
  function ToggleOnline(ps: seq<ProfileDoc>, caller: Caller, id: string, isOnline: Option<JsonValue>, now: int): ToggleResult {
    if caller.userType != "model" then ToggleResult(Failure(403, "Solo los modelos pueden actualizar el estado"), ps)
    else if !IsMongoId(id) then ToggleResult(Failure(500, ServerError), ps)
    else match FindOwned(ps, id, caller.userId)
      case None => ToggleResult(Failure(404, "Perfil no encontrado"), ps)
      case Some(k) =>
        match CastBoolean(isOnline)
        case None => ToggleResult(Failure(500, ServerError), ps)
        case Some(v) =>
          var changed := Hydrated(ps[k]).(isOnline := v, lastActive := now);
          if !SchemaValid(changed) then ToggleResult(Failure(500, ServerError), ps)
          else ToggleResult(Success(200, "Estado actualizado exitosamente"), ps[k := changed.(updatedAt := now)])
  }

  /** The toggle on the collection, through `setOnlineStatus`. */
  method PatchOnlineStatus(store: ProfileStore, caller: Caller, id: string, isOnline: Option<JsonValue>, now: int)
    returns (out: Outcome<string>)
    requires store.Valid()
    modifies store
    ensures store.Valid()
    ensures ToggleResult(out, store.profiles) == ToggleOnline(old(store.profiles), caller, id, isOnline, now)
  {
    if caller.userType != "model" {
      return Failure(403, "Solo los modelos pueden actualizar el estado");
    }
    if !IsMongoId(id) {
      return Failure(500, ServerError);
    }
    var found := FindOwned(store.profiles, id, caller.userId);
    if found.None? {
      return Failure(404, "Perfil no encontrado");
    }
    var k := found.value;
    var cast := CastBoolean(isOnline);
    if cast.None? {
      return Failure(500, ServerError);
    }
    var profile := new Profile.Load(store.profiles[k]);
    var ok := profile.SetOnlineStatus(cast.value, now);
    if !ok {
      return Failure(500, ServerError);
    }
    store.Replace(k, profile.Doc());
    out := Success(200, "Estado actualizado exitosamente");
  }

  /**
   * On a valid collection, the owner's toggle with a castable value always succeeds
   * and changes only isOnline, lastActive and updatedAt; a value the cast refuses is
   * answered 500, never 400.
   */
  lemma ToggleEffects(ps: seq<ProfileDoc>, caller: Caller, id: string, isOnline: Option<JsonValue>, now: int)
    requires AllValid(ps) && caller.userType == "model" && IsMongoId(id)
    requires FindOwned(ps, id, caller.userId).Some?
    ensures var r := ToggleOnline(ps, caller, id, isOnline, now);
      var k := FindOwned(ps, id, caller.userId).value;
      && (CastBoolean(isOnline).Some? ==>
            r.out.Success? && r.profiles == ps[k := ps[k].(isOnline := CastBoolean(isOnline).value, lastActive := now, updatedAt := now)])
      && (CastBoolean(isOnline).None? ==> r.out == Failure(500, ServerError) && r.profiles == ps)
  {
    var k := FindOwned(ps, id, caller.userId).value;
    if CastBoolean(isOnline).Some? {
      CountersAndStatusKeepSchema(ps[k], CastBoolean(isOnline).value, now);
    }
  }
}

=== FILE: requests.dfy ===
/**
 * The request bodies and query strings the backend handlers read. A field is None
 * when the client left it out; a present scalar is the text the validators see
 * (they convert every value to a string before checking it). A list field is
 * None when the client left it out and otherwise holds the array's items; a body
 * whose list field holds something other than an array cannot be written here.
 * A date is the instant it denotes, or None when it is not ISO 8601 text.
 */
module Requests {
  import opened Text
  import opened Seqs

  /** The authenticated caller: the user id and user type carried by the verified token. */
  datatype Caller = Caller(userId: string, userType: string)

  /** What a handler answers: a success status with a value, or an error status with its message. */
  datatype Outcome<+T> = Success(code: int, value: T) | Failure(code: int, message: string)

  /** POST /api/auth/register */
  datatype RegisterBody = RegisterBody(
    name: Option<string>, email: Option<string>, password: Option<string>,
    phone: Option<string>, age: Option<string>, userType: Option<string>)

  /** POST /api/auth/login */
  datatype LoginBody = LoginBody(email: Option<string>, password: Option<string>)

  /** PUT /api/auth/profile */
  datatype AccountUpdateBody = AccountUpdateBody(name: Option<string>, phone: Option<string>, age: Option<string>)

  datatype RatesBody = RatesBody(incall: Option<string>, outcall: Option<string>)

  /** PUT /api/profiles/:id */
  datatype ProfileUpdateBody = ProfileUpdateBody(
    name: Option<string>, age: Option<string>, location: Option<string>,
    description: Option<string>, services: Option<seq<string>>,
    ethnicity: Option<string>, category: Option<string>, rates: Option<RatesBody>)

  /** GET /api/profiles */
  datatype ProfileQuery = ProfileQuery(
    page: Option<string>, limit: Option<string>, location: Option<string>,
    minAge: Option<string>, maxAge: Option<string>, ethnicity: Option<string>,
    category: Option<string>, sortBy: Option<string>, search: Option<string>)

  /**
   * A JSON value as the body parser hands it to a handler that reads it without
   * validating it; arrays and objects are not told apart.
   */
  datatype JsonValue = JNull | JBool(b: bool) | JNumber(x: real) | JString(s: string) | JComposite

  /** The `page`/`limit` query of the listing and conversation endpoints. */
  datatype PageQuery = PageQuery(page: Option<string>, limit: Option<string>)

  /** POST /api/messages */
  datatype MessageBody = MessageBody(receiverId: Option<string>, profileId: Option<string>, content: Option<string>)

  datatype LocationBody = LocationBody(address: Option<string>, city: Option<string>, notes: Option<string>)

  datatype PricingBody = PricingBody(hourlyRate: Option<string>, totalAmount: Option<string>)

  /** POST /api/bookings */
  datatype BookingBody = BookingBody(
    modelId: Option<string>, profileId: Option<string>, date: Option<int>,
    time: Option<string>, duration: Option<string>, serviceType: Option<string>,
    services: Option<seq<string>>, location: Option<LocationBody>,
    pricing: Option<PricingBody>, customerPhone: Option<string>,
    customerNotes: Option<string>, paymentMethod: Option<string>)

  /** PATCH /api/bookings/:id/status */
  datatype StatusBody = StatusBody(status: Option<string>, notes: Option<string>)

  /** A JavaScript string is truthy exactly when it is present and non-empty. */
  predicate Truthy(v: Option<string>) { v.Some? && v.value != "" }

  /** A field that `optional()` skips when absent and otherwise checks with `ok`. */
  predicate OptionalOk(v: Option<string>, ok: string -> bool) {
    v.None? || ok(v.value)
  }

  /** `notEmpty()` followed by `trim()`: the value is present and non-empty before trimming. */
  predicate NotEmpty(v: Option<string>) { v.Some? && v.value != "" }

  /** `isIn(values)`. */
  predicate IsIn(v: Option<string>, values: seq<string>) { v.Some? && v.value in values }

  /** `isNumeric()`: an optional sign, then digits with at most one decimal point before the last digit. */
  predicate IsNumericText(s: string) {
    var d := Unsigned(s);
    exists k :: 0 <= k < |d| && IsNumericSplit(d, k)
  }

  /** d is `[0-9]*` then (when k > 0) a `.` at k - 1, then `[0-9]+` from k on. */
  predicate IsNumericSplit(d: string, k: int) {
    && 0 <= k < |d|
    && AllDigits(d[k..])
    && (k == 0 || (d[k - 1] == '.' && AllDigits(d[..k - 1])))
  }

  predicate IsPoint(c: char) { c == '.' }

  /** Where the digits after the decimal point start: one past the point, or 0 when there is none. */
  function FractionStart(d: string): (k: nat)
    ensures k <= |d|
    ensures k > 0 ==> d[k - 1] == '.' && forall j :: 0 <= j < k - 1 ==> d[j] != '.'
    ensures k == 0 ==> forall j :: 0 <= j < |d| ==> d[j] != '.'
  {
    match FindFirst(d, IsPoint)
    case None => 0
    case Some(i) => i + 1
  }

  /** The split an isNumeric text admits is the one at its decimal point. */
  lemma FractionStartAt(d: string, k: int)
    requires IsNumericSplit(d, k)
    ensures FractionStart(d) == k
  {
    if k > 0 {
      assert forall j :: 0 <= j < k - 1 ==> d[..k - 1][j] == d[j];
      assert forall j :: k <= j < |d| ==> d[k..][j - k] == d[j];
    } else {
      assert forall j :: 0 <= j < |d| ==> d[0..][j] == d[j];
    }
  }

  lemma FractionStartSplits(d: string)
    requires exists k :: IsNumericSplit(d, k)
    ensures IsNumericSplit(d, FractionStart(d))
  {
    var k :| IsNumericSplit(d, k);
    FractionStartAt(d, k);
  }

  /** The value of a text without a minus sign, at the split it admits. */
  lemma NumericValueAt(s: string, k: nat)
    requires IsNumericSplit(Unsigned(s), k) && s != [] && s[0] != '-'
    ensures IsNumericText(s)
    ensures var d := Unsigned(s);
      NumericValue(s) == if k == 0 then DigitsValue(d) as real
        else Decimal(DigitsValue(d[..k - 1]), DigitsValue(d[k..]), |d| - k)
  {
    FractionStartAt(Unsigned(s), k);
  }

  /** The number written with the given whole part and the given digits after the point. */
  function Decimal(whole: nat, fraction: nat, places: nat): real {
    whole as real + fraction as real / Pow10(places) as real
  }

  /** The text without its sign. */
  function Unsigned(s: string): string {
    if s != [] && (s[0] == '+' || s[0] == '-') then s[1..] else s
  }

  /**
   * `Number(s)` on an isNumeric text, exactly: the sign, the digits before the
   * point, and the digits after it over the matching power of ten.
   */
  function NumericValue(s: string): (x: real)
    requires IsNumericText(s)
  {
    var d := Unsigned(s);
    FractionStartSplits(d);
    var k := FractionStart(d);
    var m := if k == 0 then DigitsValue(d) as real
      else Decimal(DigitsValue(d[..k - 1]), DigitsValue(d[k..]), |d| - k);
    if s[0] == '-' then -m else m
  }

  /** The decimal text of a natural number denotes that number. */
  lemma NumericValueOfDecimal(n: nat)
    ensures IsNumericText(DecimalString(n)) && NumericValue(DecimalString(n)) == n as real
  {
    var s := DecimalString(n);
    assert !(s[0] == '+' || s[0] == '-');
    assert IsNumericSplit(s, 0) by {
      assert s[0..] == s;
    }
    FractionStartSplits(s);
    DecimalRoundTrip(n);
  }

  const Ethnicities: seq<string> := ["Europea", "Asiática", "Latina", "Africana", "Mixta", "Árabe", "India"]
  const Categories: seq<string> := ["Independiente", "Agencia"]
  const UserTypes: seq<string> := ["customer", "model"]
  const ServiceTypes: seq<string> := ["incall", "outcall"]
  const SortOptions: seq<string> := ["featured", "newest", "price-low", "price-high", "popular"]
  const TargetStatuses: seq<string> := ["confirmed", "cancelled", "completed", "no-show"]
}

=== FILE: search_filters.dfy ===
/**
 * The filter panel's state (frontend/src/components/SearchFilters.js): a record of
 * filter values, and the search term beside it. The panel's handlers build new
 * records; none changes a record in place.
 */
module SearchFilters {
  /** A filter value: the text of a select or input, or the state of a checkbox. */
  datatype Value = Str(s: string) | Flag(b: bool)

  /** The keys of the filter record, one per control of the panel. */
  datatype Key =
    | Location | MinAge | MaxAge | Ethnicity | Services | PriceMin | PriceMax
    | Availability | Category | Verified | WithPhotos | WithVideo

  /** The filter record. */
  datatype Filters = Filters(
    location: Value, minAge: Value, maxAge: Value, ethnicity: Value, services: Value,
    priceMin: Value, priceMax: Value, availability: Value, category: Value,
    verified: Value, withPhotos: Value, withVideo: Value)

  /** The page's search term and its filter record. */
  datatype Panel = Panel(searchTerm: string, filters: Filters)

  /** `filters[key]`. */
  function Read(f: Filters, k: Key): Value {
    match k
    case Location => f.location
    case MinAge => f.minAge
    case MaxAge => f.maxAge
    case Ethnicity => f.ethnicity
    case Services => f.services
    case PriceMin => f.priceMin
    case PriceMax => f.priceMax
    case Availability => f.availability
    case Category => f.category
    case Verified => f.verified
    case WithPhotos => f.withPhotos
    case WithVideo => f.withVideo
  }

  /** JavaScript truthiness: a non-empty text, or a checked box. */
  predicate Truthy(v: Value) {
    match v
    case Str(s) => s != ""
    case Flag(b) => b
  }

  /** Lines 12-17: `handleFilterChange(key, value)`, spreading the previous record and writing one key. */
  function HandleFilterChange(f: Filters, k: Key, v: Value): (r: Filters)
    ensures Read(r, k) == v
    ensures forall other :: other != k ==> Read(r, other) == Read(f, other)
  {
    match k
    case Location => f.(location := v)
    case MinAge => f.(minAge := v)
    case MaxAge => f.(maxAge := v)
    case Ethnicity => f.(ethnicity := v)
    case Services => f.(services := v)
    case PriceMin => f.(priceMin := v)
    case PriceMax => f.(priceMax := v)
    case Availability => f.(availability := v)
    case Category => f.(category := v)
    case Verified => f.(verified := v)
    case WithPhotos => f.(withPhotos := v)
    case WithVideo => f.(withVideo := v)
  }

  /** The keys whose controls are checkboxes. */
  predicate IsFlagKey(k: Key) {
    k == Verified || k == WithPhotos || k == WithVideo
  }

  /** Lines 20-33: the record `clearFilters` writes. */
  const ClearedFilters := Filters(
    Str(""), Str(""), Str(""), Str(""), Str(""), Str(""), Str(""), Str(""), Str(""),
    Flag(false), Flag(false), Flag(false))

  /** Lines 19-35: `clearFilters` replaces the record and empties the search term. */
  function ClearFilters(p: Panel): (r: Panel)
    ensures r.searchTerm == ""
    ensures forall k :: Read(r.filters, k) == if IsFlagKey(k) then Flag(false) else Str("")
  {
    Panel("", ClearedFilters)
  }

  /** After clearing, no filter is truthy. */
  lemma ClearedNothingTruthy(p: Panel, k: Key)
    ensures !Truthy(Read(ClearFilters(p).filters, k))
  {
  }

  /** Clearing twice is clearing once, and clearing forgets every earlier change. */
  lemma ClearIdempotent(p: Panel, k: Key, v: Value)
    ensures ClearFilters(ClearFilters(p)) == ClearFilters(p)
    ensures ClearFilters(Panel(p.searchTerm, HandleFilterChange(p.filters, k, v))) == ClearFilters(p)
  {
  }

  /** Writing a key twice keeps the last value; writing back what a key holds changes nothing. */
  lemma ChangeOverwrites(f: Filters, k: Key, v: Value, w: Value)
    ensures HandleFilterChange(HandleFilterChange(f, k, v), k, w) == HandleFilterChange(f, k, w)
    ensures HandleFilterChange(f, k, Read(f, k)) == f
  {
  }
}

=== FILE: seqs.dfy ===
/**
 * Collection operations the handlers perform through the database or through
 * `Array.prototype`: selection (`find` with a filter, `filter`), counting
 * (`countDocuments`), offset/limit paging (`skip`/`limit`) and `Math.ceil`
 * of a page count.
 */
module Seqs {
  import opened Text

  /** The elements of s that satisfy p, in their original order. */
  function Filter<T>(s: seq<T>, p: T -> bool): (r: seq<T>)
    ensures |r| <= |s|
    ensures forall i :: 0 <= i < |r| ==> r[i] in s && p(r[i])
    ensures forall i :: 0 <= i < |s| && p(s[i]) ==> s[i] in r
  {
    if s == [] then []
    else
      assert s == [s[0]] + s[1..];
      if p(s[0]) then [s[0]] + Filter(s[1..], p) else Filter(s[1..], p)
  }

  /** The number of elements of s that satisfy p. */
  function Count<T>(s: seq<T>, p: T -> bool): (n: nat)
    ensures n <= |s|
  {
    if s == [] then 0 else (if p(s[0]) then 1 else 0) + Count(s[1..], p)
  }

  /** The count is the number of selected elements. */
  lemma {:induction false} CountIsFilterSize<T>(s: seq<T>, p: T -> bool)
    ensures Count(s, p) == |Filter(s, p)|
  {
    if s != [] {
      CountIsFilterSize(s[1..], p);
    }
  }

  /** Nothing is counted when no element satisfies p. */
  lemma {:induction false} CountNone<T>(s: seq<T>, p: T -> bool)
    requires forall i :: 0 <= i < |s| ==> !p(s[i])
    ensures Count(s, p) == 0
  {
    if s != [] {
      CountNone(s[1..], p);
    }
  }

  lemma {:induction false} FilterAppend<T>(a: seq<T>, b: seq<T>, p: T -> bool)
    ensures Filter(a + b, p) == Filter(a, p) + Filter(b, p)
  {
    if a != [] {
      assert (a + b)[0] == a[0] && (a + b)[1..] == a[1..] + b;
      FilterAppend(a[1..], b, p);
    } else {
      assert a + b == b;
    }
  }

  /** Two predicates that agree on every element of s select the same elements. */
  lemma {:induction false} FilterCongruent<T>(s: seq<T>, p: T -> bool, q: T -> bool)
    requires forall i :: 0 <= i < |s| ==> p(s[i]) == q(s[i])
    ensures Filter(s, p) == Filter(s, q)
  {
    if s != [] {
      FilterCongruent(s[1..], p, q);
    }
  }

  /** The position of the first element of s that satisfies p (`findOne`, `Array.prototype.find`). */
  function FindFirst<T>(s: seq<T>, p: T -> bool): (r: Option<nat>)
    ensures r.Some? ==> r.value < |s| && p(s[r.value])
    ensures r.Some? ==> forall j :: 0 <= j < r.value ==> !p(s[j])
    ensures r.None? ==> forall j :: 0 <= j < |s| ==> !p(s[j])
  {
    if s == [] then None
    else if p(s[0]) then Some(0)
    else match FindFirst(s[1..], p)
      case None => None
      case Some(k) => Some(k + 1)
  }

  /** Two predicates that agree on every element of s find the same first position. */
  lemma {:induction false} FindFirstCongruent<T>(s: seq<T>, t: seq<T>, p: T -> bool, q: T -> bool)
    requires |s| == |t|
    requires forall i :: 0 <= i < |s| ==> p(s[i]) == q(t[i])
    ensures FindFirst(s, p) == FindFirst(t, q)
  {
    if s != [] && !p(s[0]) {
      FindFirstCongruent(s[1..], t[1..], p, q);
    }
  }

  function Min(a: int, b: int): int { if a <= b then a else b }

  /** `.skip(skip).limit(limit)`: at most `limit` consecutive elements starting at `skip`. */
  function Page<T>(s: seq<T>, skip: nat, limit: nat): (r: seq<T>)
    ensures |r| == if skip >= |s| then 0 else Min(limit, |s| - skip)
    ensures forall i :: 0 <= i < |r| ==> r[i] == s[skip + i]
  {
    if skip >= |s| then [] else s[skip..Min(skip + limit, |s|)]
  }

  /** `(page - 1) * limit`: how many elements come before the page. */
  function Skip(page: nat, limit: nat): (skip: nat)
    requires page >= 1
    ensures page == 1 ==> skip == 0
  {
    (page - 1) * limit
  }

  /** The elements that satisfy p, counted over a concatenation. */
  lemma {:induction false} CountAppend<T>(a: seq<T>, b: seq<T>, p: T -> bool)
    ensures Count(a + b, p) == Count(a, p) + Count(b, p)
  {
    if a != [] {
      assert (a + b)[0] == a[0] && (a + b)[1..] == a[1..] + b;
      CountAppend(a[1..], b, p);
    } else {
      assert a + b == b;
    }
  }

  /** Counting depends only on which elements occur, and how often: a permutation has the same count. */
  lemma {:induction false} CountPermutation<T>(s: seq<T>, t: seq<T>, p: T -> bool)
    requires multiset(s) == multiset(t)
    ensures Count(s, p) == Count(t, p)
    decreases |s|
  {
    if s != [] {
      var x := s[0];
      assert x in multiset(t);
      var j :| 0 <= j < |t| && t[j] == x;
      var rest := t[..j] + t[j + 1..];
      RemovedAt(t, j);
      assert s == [x] + s[1..];
      assert multiset(s[1..]) == multiset(s) - multiset{x};
      CountPermutation(s[1..], rest, p);
      CountRemovedAt(t, j, p);
    } else {
      assert |multiset(t)| == 0;
    }
  }

  /** Removing the element at j removes one occurrence of it. */
  lemma RemovedAt<T>(t: seq<T>, j: nat)
    requires j < |t|
    ensures multiset(t[..j] + t[j + 1..]) == multiset(t) - multiset{t[j]}
  {
    assert t == t[..j] + [t[j]] + t[j + 1..];
  }

  /** Removing the element at j lowers the count by one exactly when that element satisfies p. */
  lemma {:induction false} CountRemovedAt<T>(t: seq<T>, j: nat, p: T -> bool)
    requires j < |t|
    ensures Count(t, p) == Count(t[..j] + t[j + 1..], p) + (if p(t[j]) then 1 else 0)
  {
    if j == 0 {
      assert t[..0] + t[1..] == t[1..];
    } else {
      var u := t[1..];
      var rest := t[..j] + t[j + 1..];
      CountRemovedAt(u, j - 1, p);
      assert u[j - 1] == t[j];
      assert rest == [t[0]] + (u[..j - 1] + u[j..]);
      assert rest[0] == t[0] && rest[1..] == u[..j - 1] + u[j..];
    }
  }

  /** Nothing is selected when no element satisfies p. */
  lemma {:induction false} FilterNone<T>(s: seq<T>, p: T -> bool)
    requires forall i :: 0 <= i < |s| ==> !p(s[i])
    ensures Filter(s, p) == []
  {
    if s != [] {
      FilterNone(s[1..], p);
    }
  }

  /** Nothing is dropped when every element satisfies p. */
  lemma {:induction false} FilterAll<T>(s: seq<T>, p: T -> bool)
    requires forall i :: 0 <= i < |s| ==> p(s[i])
    ensures Filter(s, p) == s
  {
    if s != [] {
      FilterAll(s[1..], p);
    }
  }

  /** One more element at the end adds one to the count exactly when it satisfies p. */
  lemma CountSnoc<T>(a: seq<T>, x: T, p: T -> bool)
    ensures Count(a + [x], p) == Count(a, p) + (if p(x) then 1 else 0)
  {
    CountRemovedAt(a + [x], |a|, p);
    assert (a + [x])[..|a|] + (a + [x])[|a| + 1..] == a;
  }

  /** Replacing the element at k changes the count by what the old and the new element contribute. */
  lemma CountUpdate<T>(s: seq<T>, k: nat, y: T, p: T -> bool)
    requires k < |s|
    ensures Count(s[k := y], p) + (if p(s[k]) then 1 else 0) == Count(s, p) + (if p(y) then 1 else 0)
  {
    CountRemovedAt(s, k, p);
    CountRemovedAt(s[k := y], k, p);
    assert s[k := y][..k] + s[k := y][k + 1..] == s[..k] + s[k + 1..];
  }

  /** Counting among the selected elements is counting the elements that satisfy both predicates. */
  lemma {:induction false} CountFilter<T>(s: seq<T>, p: T -> bool, q: T -> bool, both: T -> bool)
    requires forall x :: both(x) == (p(x) && q(x))
    ensures Count(Filter(s, p), q) == Count(s, both)
  {
    if s != [] {
      CountFilter(s[1..], p, q, both);
      if p(s[0]) {
        var f := Filter(s, p);
        assert f[0] == s[0] && f[1..] == Filter(s[1..], p);
      }
    }
  }

  /** The first position satisfying p in a sequence extended at the end. */
  lemma {:induction false} FindFirstSnoc<T>(a: seq<T>, x: T, p: T -> bool)
    ensures FindFirst(a + [x], p) == if FindFirst(a, p).Some? then FindFirst(a, p) else if p(x) then Some(|a|) else None
  {
    if a != [] {
      assert (a + [x])[0] == a[0] && (a + [x])[1..] == a[1..] + [x];
      FindFirstSnoc(a[1..], x, p);
    } else {
      assert a + [x] == [x];
    }
  }

  /** The sum of f over the elements of s. */
  function SumOf<T>(s: seq<T>, f: T -> nat): nat {
    if s == [] then 0 else f(s[0]) + SumOf(s[1..], f)
  }

  /** Removing the element at j takes its term out of the sum. */
  lemma {:induction false} SumOfRemovedAt<T>(t: seq<T>, j: nat, f: T -> nat)
    requires j < |t|
    ensures SumOf(t, f) == SumOf(t[..j] + t[j + 1..], f) + f(t[j])
  {
    if j == 0 {
      assert t[..0] + t[1..] == t[1..];
    } else {
      var u := t[1..];
      var rest := t[..j] + t[j + 1..];
      SumOfRemovedAt(u, j - 1, f);
      assert u[j - 1] == t[j];
      assert rest == [t[0]] + (u[..j - 1] + u[j..]);
      assert rest[0] == t[0] && rest[1..] == u[..j - 1] + u[j..];
    }
  }

  /** A permutation has the same sum. */
  lemma {:induction false} SumOfPermutation<T>(s: seq<T>, t: seq<T>, f: T -> nat)
    requires multiset(s) == multiset(t)
    ensures SumOf(s, f) == SumOf(t, f)
    decreases |s|
  {
    if s != [] {
      var x := s[0];
      assert x in multiset(t);
      var j :| 0 <= j < |t| && t[j] == x;
      var rest := t[..j] + t[j + 1..];
      RemovedAt(t, j);
      assert s == [x] + s[1..];
      assert multiset(s[1..]) == multiset(s) - multiset{x};
      SumOfPermutation(s[1..], rest, f);
      SumOfRemovedAt(t, j, f);
    } else {
      assert |multiset(t)| == 0;
    }
  }

  /** One more element at the end adds its term. */
  lemma SumOfSnoc<T>(a: seq<T>, x: T, f: T -> nat)
    ensures SumOf(a + [x], f) == SumOf(a, f) + f(x)
  {
    SumOfRemovedAt(a + [x], |a|, f);
    assert (a + [x])[..|a|] + (a + [x])[|a| + 1..] == a;
  }

  /** Replacing the element at k replaces its term. */
  lemma SumOfUpdate<T>(s: seq<T>, k: nat, y: T, f: T -> nat)
    requires k < |s|
    ensures SumOf(s[k := y], f) + f(s[k]) == SumOf(s, f) + f(y)
  {
    SumOfRemovedAt(s, k, f);
    SumOfRemovedAt(s[k := y], k, f);
    assert s[k := y][..k] + s[k := y][k + 1..] == s[..k] + s[k + 1..];
  }

  /** `Array.prototype.reverse()`. */
  function Reverse<T>(s: seq<T>): (r: seq<T>)
    ensures |r| == |s|
    ensures forall i :: 0 <= i < |s| ==> r[i] == s[|s| - 1 - i]
  {
    if s == [] then [] else Reverse(s[1..]) + [s[0]]
  }

  /** `Math.ceil(total / limit)` for a positive limit: the fewest pages of `limit` that hold `total`. */
  function PageCount(total: nat, limit: nat): (pages: nat)
    requires limit >= 1
    ensures pages * limit >= total
    ensures total > 0 ==> (pages - 1) * limit < total
    ensures total == 0 ==> pages == 0
  {
    var q := (total + limit - 1) / limit;
    var r := (total + limit - 1) % limit;
    assert q * limit + r == total + limit - 1;
    assert (q - 1) * limit == q * limit - limit;
    q
  }
}

=== FILE: sorting.dfy ===
/**
 * The orderings the database applies for `.sort(...)` and `$sort`, modelled as a
 * stable insertion sort over a comparison that is a total preorder. Elements that
 * compare equal keep their stored order.
 */
module Sorting {
  import opened Seqs

  ghost predicate TotalPreorder<T(!new)>(leq: (T, T) -> bool) {
    && (forall a, b :: leq(a, b) || leq(b, a))
    && (forall a, b, c :: leq(a, b) && leq(b, c) ==> leq(a, c))
  }

  ghost predicate SortedBy<T>(s: seq<T>, leq: (T, T) -> bool) {
    forall i, j :: 0 <= i < j < |s| ==> leq(s[i], s[j])
  }

  /** Puts x before the first element it does not follow. */
  function Insert<T>(x: T, s: seq<T>, leq: (T, T) -> bool): (r: seq<T>)
    ensures multiset(r) == multiset(s) + multiset{x}
  {
    if s == [] || leq(x, s[0]) then [x] + s
    else
      assert s == [s[0]] + s[1..];
      [s[0]] + Insert(x, s[1..], leq)
  }

  function SortWith<T>(s: seq<T>, leq: (T, T) -> bool): (r: seq<T>)
    ensures multiset(r) == multiset(s)
  {
    if s == [] then []
    else
      assert s == [s[0]] + s[1..];
      Insert(s[0], SortWith(s[1..], leq), leq)
  }

  lemma {:induction false} InsertSorted<T(!new)>(x: T, s: seq<T>, leq: (T, T) -> bool)
    requires TotalPreorder(leq) && SortedBy(s, leq)
    ensures SortedBy(Insert(x, s, leq), leq)
  {
    if s == [] || leq(x, s[0]) {
    } else {
      var t := Insert(x, s[1..], leq);
      InsertSorted(x, s[1..], leq);
      forall e | e in t ensures leq(s[0], e) {
        assert e in multiset(t);
        if e != x {
          assert e in s[1..];
        }
      }
    }
  }

  /** The model of the database sort: a permutation of its input, ordered by leq. */
  lemma {:induction false} SortWithSorted<T(!new)>(s: seq<T>, leq: (T, T) -> bool)
    requires TotalPreorder(leq)
    ensures SortedBy(SortWith(s, leq), leq)
  {
    if s != [] {
      SortWithSorted(s[1..], leq);
      InsertSorted(s[0], SortWith(s[1..], leq), leq);
    }
  }

  /** Descending order of an integer key. */
  function Descending<T>(key: T -> int): (T, T) -> bool {
    (a: T, b: T) => key(a) >= key(b)
  }

  lemma DescendingIsTotalPreorder<T(!new)>(key: T -> int)
    ensures TotalPreorder(Descending(key))
  {
  }

  /** Text order by code point, which is also the byte order of the UTF-8 encodings the database compares. */
  predicate TextLeq(a: string, b: string)
    decreases |a|
  {
    a == [] || (b != [] && (a[0] < b[0] || (a[0] == b[0] && TextLeq(a[1..], b[1..]))))
  }

  lemma {:induction false} TextLeqTotal(a: string, b: string)
    ensures TextLeq(a, b) || TextLeq(b, a)
    decreases |a|
  {
    if a != [] && b != [] && a[0] == b[0] {
      TextLeqTotal(a[1..], b[1..]);
    }
  }

  lemma {:induction false} TextLeqTransitive(a: string, b: string, c: string)
    requires TextLeq(a, b) && TextLeq(b, c)
    ensures TextLeq(a, c)
    decreases |a|
  {
    if a != [] && b != [] && c != [] && a[0] == b[0] && b[0] == c[0] {
      TextLeqTransitive(a[1..], b[1..], c[1..]);
    }
  }

  /** A run of consecutive elements of a sorted sequence is sorted. */
  lemma PageSorted<T>(s: seq<T>, skip: nat, limit: nat, leq: (T, T) -> bool)
    requires SortedBy(s, leq)
    ensures SortedBy(Page(s, skip, limit), leq)
  {
    var r := Page(s, skip, limit);
    forall i, j | 0 <= i < j < |r|
      ensures leq(r[i], r[j])
    {
      assert r[i] == s[skip + i] && r[j] == s[skip + j];
    }
  }

  /** A page of a sorted selection holds selected elements of the input only, in order. */
  lemma PageOfSelection<T(!new)>(s: seq<T>, p: T -> bool, leq: (T, T) -> bool, skip: nat, limit: nat)
    requires TotalPreorder(leq)
    ensures var r := Page(SortWith(Filter(s, p), leq), skip, limit);
      && (forall i :: 0 <= i < |r| ==> r[i] in s && p(r[i]))
      && SortedBy(r, leq)
  {
    var sorted := SortWith(Filter(s, p), leq);
    SelectThenSort(s, p, leq);
    SortWithSorted(Filter(s, p), leq);
    PageSorted(sorted, skip, limit, leq);
    var r := Page(sorted, skip, limit);
    forall i | 0 <= i < |r|
      ensures r[i] in s && p(r[i])
    {
      assert r[i] == sorted[skip + i];
    }
  }

  /** Selecting then sorting keeps exactly the selected elements, each once per occurrence. */
  lemma SelectThenSort<T>(s: seq<T>, p: T -> bool, leq: (T, T) -> bool)
    ensures var r := SortWith(Filter(s, p), leq);
      && |r| == |Filter(s, p)|
      && (forall x :: x in r ==> x in s && p(x))
      && (forall x :: x in s && p(x) ==> x in r)
  {
    var f := Filter(s, p);
    var r := SortWith(f, leq);
    assert |r| == |f| by {
      assert |multiset(r)| == |multiset(f)|;
    }
    forall x | x in r
      ensures x in s && p(x)
    {
      assert x in multiset(r);
      assert x in f;
      var i :| 0 <= i < |f| && f[i] == x;
    }
    forall x | x in s && p(x)
      ensures x in r
    {
      var i :| 0 <= i < |s| && s[i] == x;
      assert x in f;
      assert x in multiset(f);
    }
  }
}

=== FILE: text.dfy ===
/**
 * Character and string helpers shared by the backend and the front end:
 * JavaScript's whitespace class and `trim`, ASCII case mapping, substring
 * search (`includes`, and the case-insensitive `$regex` the listing uses),
 * decimal numerals, `parseInt`, and the `isInt`/`isLength` checks of the
 * request validators.
 */
module Text {

  datatype Option<+T> = None | Some(value: T)

  // ---------------------------------------------------------------- characters

  predicate IsDigit(c: char) { '0' <= c <= '9' }

  predicate IsHexDigit(c: char) { IsDigit(c) || 'a' <= c <= 'f' || 'A' <= c <= 'F' }

  /** The members of JavaScript's `\s` class (WhiteSpace and LineTerminator). */
  predicate IsSpace(c: char) {
    || c == ' ' || c == '\t' || c == '\n' || c == '\r'
    || c == '\U{B}' || c == '\U{C}' || c == '\U{A0}' || c == '\U{1680}'
    || ('\U{2000}' <= c <= '\U{200A}')
    || c == '\U{2028}' || c == '\U{2029}' || c == '\U{202F}' || c == '\U{205F}'
    || c == '\U{3000}' || c == '\U{FEFF}'
  }

  function DigitValue(c: char): (d: nat)
    requires IsDigit(c)
    ensures d < 10
  {
    c as int - '0' as int
  }

  function HexValue(c: char): (d: nat)
    requires IsHexDigit(c)
    ensures d < 16
  {
    if IsDigit(c) then DigitValue(c)
    else if 'a' <= c <= 'f' then c as int - 'a' as int + 10
    else c as int - 'A' as int + 10
  }

  function DigitChar(d: nat): (c: char)
    requires d < 10
    ensures IsDigit(c) && DigitValue(c) == d
  {
    (d + '0' as int) as char
  }

  predicate AllDigits(s: string) { forall i :: 0 <= i < |s| ==> IsDigit(s[i]) }

  predicate AllHexDigits(s: string) { forall i :: 0 <= i < |s| ==> IsHexDigit(s[i]) }

  // ------------------------------------------------------------ case mapping

  /** `toLowerCase` on one character (ASCII letters only). */
  function LowerChar(c: char): char {
    if 'A' <= c <= 'Z' then (c as int + 32) as char else c
  }

  /** `toUpperCase` on one character (ASCII letters only). */
  function UpperChar(c: char): char {
    if 'a' <= c <= 'z' then (c as int - 32) as char else c
  }

  function ToLower(s: string): string {
    seq(|s|, i requires 0 <= i < |s| => LowerChar(s[i]))
  }

  function ToUpper(s: string): string {
    seq(|s|, i requires 0 <= i < |s| => UpperChar(s[i]))
  }

  // ------------------------------------------------------------------ slicing

  /** `s.slice(-n)` for a positive n: the last n characters, or all of s when it is shorter. */
  function Last(s: string, n: nat): (r: string)
    ensures |r| == if |s| < n then |s| else n
    ensures forall i :: 0 <= i < |r| ==> r[i] == s[|s| - |r| + i]
  {
    if |s| <= n then s else s[|s| - n..]
  }

  /** The tail of a numeral is made of digits. */
  lemma LastOfDigits(s: string, n: nat)
    requires AllDigits(s)
    ensures AllDigits(Last(s, n))
  {
    var t := Last(s, n);
    forall i | 0 <= i < |t|
      ensures IsDigit(t[i])
    {
      var j := |s| - |t| + i;
      assert t[i] == s[j] && IsDigit(s[j]);
    }
  }

  // --------------------------------------------------------------------- trim

  /** Drops the leading members of the `\s` class. */
  function TrimStart(s: string): (r: string)
    ensures |r| <= |s| && r == s[|s| - |r|..]
    ensures r == [] || !IsSpace(r[0])
    ensures forall i :: 0 <= i < |s| - |r| ==> IsSpace(s[i])
  {
    if s != [] && IsSpace(s[0]) then TrimStart(s[1..]) else s
  }

  /** Drops the trailing members of the `\s` class. */
  function TrimEnd(s: string): (r: string)
    ensures |r| <= |s| && r == s[..|r|]
    ensures r == [] || !IsSpace(r[|r| - 1])
    ensures forall i :: |r| <= i < |s| ==> IsSpace(s[i])
  {
    if s != [] && IsSpace(s[|s| - 1]) then TrimEnd(s[..|s| - 1]) else s
  }

  /** `String.prototype.trim`, which the validators' `trim()` sanitizer applies. */
  function Trim(s: string): string {
    TrimEnd(TrimStart(s))
  }

  /** Trimming is a contiguous slice with no whitespace at either end; trimming twice changes nothing. */
  lemma TrimShape(s: string)
    ensures var r := Trim(s);
      && IsInfix(r, s)
      && (r == [] || (!IsSpace(r[0]) && !IsSpace(r[|r| - 1])))
      && Trim(r) == r
  {
    var t := TrimStart(s);
    var r := TrimEnd(t);
    var k := |s| - |t|;
    assert r == s[k..k + |r|];
    assert OccursAt(r, s, k);
    if r != [] {
      assert r[0] == t[0];
    }
  }

  /** Trimming never lengthens a text, and a text of white space alone trims to empty. */
  lemma TrimNoLonger(s: string)
    ensures |Trim(s)| <= |s|
    ensures (forall k :: 0 <= k < |s| ==> IsSpace(s[k])) ==> Trim(s) == []
  {
    TrimShape(s);
    var r := Trim(s);
    var i :| OccursAt(r, s, i);
    if r != [] {
      assert r[0] == s[i];
    }
  }

  /** A text with no whitespace at either end is its own trim. */
  lemma TrimUnpadded(s: string)
    requires s == [] || (!IsSpace(s[0]) && !IsSpace(s[|s| - 1]))
    ensures Trim(s) == s
  {
  }

  // -------------------------------------------------------------- substrings

  /** t occurs in s starting at position i. */
  predicate OccursAt(t: string, s: string, i: int) {
    0 <= i <= |s| - |t| && s[i..i + |t|] == t
  }

  /** t occurs in s at some position. */
  ghost predicate IsInfix(t: string, s: string) {
    exists i :: OccursAt(t, s, i)
  }

  /** `s.includes(t)`: a left-to-right scan over the start positions. */
  function Contains(s: string, t: string): (b: bool)
    ensures b <==> IsInfix(t, s)
  {
    if |t| > |s| then false
    else if s[..|t|] == t then
      assert OccursAt(t, s, 0);
      true
    else
      InfixOfTail(s, t);
      Contains(s[1..], t)
  }

  /** When t does not start s, it occurs in s exactly when it occurs in the tail of s. */
  lemma InfixOfTail(s: string, t: string)
    requires |t| <= |s| && s[..|t|] != t
    ensures IsInfix(t, s) <==> IsInfix(t, s[1..])
  {
    if IsInfix(t, s) {
      var i :| OccursAt(t, s, i);
      assert i != 0;
      assert s[1..][i - 1..i - 1 + |t|] == s[i..i + |t|];
      assert OccursAt(t, s[1..], i - 1);
    }
    if IsInfix(t, s[1..]) {
      var i :| OccursAt(t, s[1..], i);
      assert s[1..][i..i + |t|] == s[i + 1..i + 1 + |t|];
      assert OccursAt(t, s, i + 1);
    }
  }

  /** Case-insensitive substring match (`includes` after `toLowerCase`, or a `$regex` with option `i`). */
  function ContainsIgnoreCase(s: string, t: string): bool {
    Contains(ToLower(s), ToLower(t))
  }

  lemma EmptyTermMatches(s: string)
    ensures ContainsIgnoreCase(s, "")
  {
    assert OccursAt(ToLower(""), ToLower(s), 0);
  }

  // ---------------------------------------------------------------- numerals

  /** `trim` on every item of a list. */
  function TrimEach(s: seq<string>): (r: seq<string>)
    ensures |r| == |s| && forall i :: 0 <= i < |s| ==> r[i] == Trim(s[i])
  {
    seq(|s|, i requires 0 <= i < |s| => Trim(s[i]))
  }

  /** 10 to the power k. */
  function Pow10(k: nat): (p: nat)
    ensures p >= 1
  {
    if k == 0 then 1 else 10 * Pow10(k - 1)
  }

  /** Value of a decimal numeral, most significant digit first. */
  function DigitsValue(s: string): nat
    requires AllDigits(s)
  {
    if s == [] then 0 else 10 * DigitsValue(s[..|s| - 1]) + DigitValue(s[|s| - 1])
  }

  /** Value of a hexadecimal numeral, most significant digit first. */
  function HexDigitsValue(s: string): nat
    requires AllHexDigits(s)
  {
    if s == [] then 0 else 16 * HexDigitsValue(s[..|s| - 1]) + HexValue(s[|s| - 1])
  }

  /** `n.toString()` for a non-negative integer. */
  function DecimalString(n: nat): (s: string)
    ensures s != [] && AllDigits(s)
    ensures |s| == 1 || s[0] != '0'
  {
    if n < 10 then [DigitChar(n)] else DecimalString(n / 10) + [DigitChar(n % 10)]
  }

  /** Reading back the decimal text of n gives n. */
  lemma {:induction false} DecimalRoundTrip(n: nat)
    ensures DigitsValue(DecimalString(n)) == n
  {
    if n >= 10 {
      DecimalRoundTrip(n / 10);
      var s := DecimalString(n);
      assert s[..|s| - 1] == DecimalString(n / 10);
    }
  }

  /** The longest prefix of s made of decimal digits. */
  function DigitPrefix(s: string): (r: string)
    ensures r <= s && AllDigits(r)
    ensures |r| == |s| || !IsDigit(s[|r|])
  {
    if s != [] && IsDigit(s[0]) then [s[0]] + DigitPrefix(s[1..]) else []
  }

  /** The longest prefix of s made of hexadecimal digits. */
  function HexPrefix(s: string): (r: string)
    ensures r <= s && AllHexDigits(r)
    ensures |r| == |s| || !IsHexDigit(s[|r|])
  {
    if s != [] && IsHexDigit(s[0]) then [s[0]] + HexPrefix(s[1..]) else []
  }

  /**
   * The global `parseInt(s)` with no radix: leading whitespace is skipped, one sign is
   * accepted, a `0x`/`0X` prefix switches to hexadecimal, and the longest run of digits
   * is read. None stands for NaN (no digit at all).
   */
  function ParseInt(s: string): Option<int> {
    var t := TrimStart(s);
    var negative := t != [] && t[0] == '-';
    var u := if t != [] && (t[0] == '-' || t[0] == '+') then t[1..] else t;
    if |u| >= 2 && u[0] == '0' && (u[1] == 'x' || u[1] == 'X') then
      var z := HexPrefix(u[2..]);
      var v: int := if z == [] then 0 else HexDigitsValue(z);
      if z == [] then None else Some(if negative then -v else v)
    else
      var z := DigitPrefix(u);
      var v: int := if z == [] then 0 else DigitsValue(z);
      if z == [] then None else Some(if negative then -v else v)
  }

  lemma DigitPrefixOfDigits(s: string)
    requires AllDigits(s)
    ensures DigitPrefix(s) == s
  {
  }

  /** `parseInt` reads back the decimal text of every non-negative integer. */
  lemma ParseIntDecimal(n: nat)
    ensures ParseInt(DecimalString(n)) == Some(n)
  {
    var s := DecimalString(n);
    DecimalRoundTrip(n);
    assert !IsSpace(s[0]);
    assert TrimStart(s) == s;
    DigitPrefixOfDigits(s);
    if |s| >= 2 {
      assert s[0] != '0';
    }
  }

  /** `parseInt` of text whose first character is a letter other than a sign, digit or space is NaN. */
  lemma ParseIntOfWord(s: string)
    requires s != [] && ('a' <= s[0] <= 'z' || 'A' <= s[0] <= 'Z')
    ensures ParseInt(s) == None
  {
    assert !IsSpace(s[0]) && !IsDigit(s[0]);
    assert TrimStart(s) == s;
    assert DigitPrefix(s) == [];
  }

  // ------------------------------------------------------ validator checks

  /** The `isInt()` format: an optional sign and one or more decimal digits. */
  predicate IsIntText(s: string) {
    var d := if s != [] && (s[0] == '+' || s[0] == '-') then s[1..] else s;
    d != [] && AllDigits(d)
  }

  /** The integer an `isInt()` text denotes. */
  function IntTextValue(s: string): int
    requires IsIntText(s)
  {
    if s[0] == '-' then -(DigitsValue(s[1..]) as int)
    else if s[0] == '+' then DigitsValue(s[1..])
    else DigitsValue(s)
  }

  /** `isInt({ min: lo, max: hi })` on a text. */
  predicate IsIntInRange(s: string, lo: int, hi: int) {
    IsIntText(s) && lo <= IntTextValue(s) <= hi
  }

  /** `isInt({ min: lo })` on a text. */
  predicate IsIntAtLeast(s: string, lo: int) {
    IsIntText(s) && lo <= IntTextValue(s)
  }

  /** What `isInt` accepts, `parseInt` reads to the same value. */
  lemma ParseIntOfIntText(s: string)
    requires IsIntText(s)
    ensures ParseInt(s) == Some(IntTextValue(s))
  {
    assert !IsSpace(s[0]);
    assert TrimStart(s) == s;
    var u := if s[0] == '-' || s[0] == '+' then s[1..] else s;
    assert AllDigits(u) && u != [];
    DigitPrefixOfDigits(u);
    assert !(|u| >= 2 && u[0] == '0' && (u[1] == 'x' || u[1] == 'X')) by {
      if |u| >= 2 { assert IsDigit(u[1]); }
    }
  }

  /** `parseInt(v) || dflt`: NaN and 0 both fall back to the default. */
  function NumberOr(v: Option<string>, dflt: int): int {
    if v.None? then dflt
    else match ParseInt(v.value)
      case None => dflt
      case Some(n) => if n == 0 then dflt else n
  }

  /** An absent value gives the default; a positive integer text gives its value. */
  lemma NumberOrPositive(v: Option<string>, dflt: int)
    requires v.None? || IsIntAtLeast(v.value, 1)
    ensures NumberOr(v, dflt) == if v.Some? then IntTextValue(v.value) else dflt
  {
    if v.Some? {
      ParseIntOfIntText(v.value);
    }
  }

  /** Characters that `isLength` leaves out of its count (variation selectors). */
  predicate IsVariationSelector(c: char) { c == '\U{FE0E}' || c == '\U{FE0F}' }

  /** The length `isLength` measures: every scalar value except variation selectors. */
  function VisibleLength(s: string): (n: nat)
    ensures n <= |s|
  {
    if s == [] then 0
    else (if IsVariationSelector(s[0]) then 0 else 1) + VisibleLength(s[1..])
  }

  /** `isLength({ min: lo, max: hi })`. */
  predicate IsLengthInRange(s: string, lo: nat, hi: nat) {
    lo <= VisibleLength(s) <= hi
  }

  /** `s.length` in JavaScript (UTF-16 code units), which the schema's `maxlength` measures. */
  function Utf16Length(s: string): (n: nat)
    ensures |s| <= n <= 2 * |s|
  {
    if s == [] then 0 else (if s[0] as int >= 0x1_0000 then 2 else 1) + Utf16Length(s[1..])
  }

  /** `maxlength: max` on an optional string field. */
  predicate MaxLength(v: Option<string>, max: nat) {
    v.None? || Utf16Length(v.value) <= max
  }

  /** `isMongoId()`: exactly 24 hexadecimal digits. */
  predicate IsMongoId(s: string) {
    |s| == 24 && AllHexDigits(s)
  }
}

=== FILE: validation.dfy ===
/**
 * The shared rule sets of backend/utils/validation.js: the phone, time and rate
 * formats and the length and range rules for each request. No route applies these
 * rule sets: each route module states its own inline rules and proves how the
 * shared set for its request relates to them.
 */
module Validation {
  import opened Text
  import opened Requests

  // ------------------------------------------------------------------ phone

  /** A member of `[0-9\s\-\(\)]`. */
  predicate IsPhoneChar(c: char) {
    IsDigit(c) || IsSpace(c) || c == '-' || c == '(' || c == ')'
  }

  /** Length of the run of phone characters of s starting at i, reading at most `bound` of them. */
  function PhoneRun(s: string, i: nat, bound: nat): (n: nat)
    requires i <= |s|
    ensures n <= bound && i + n <= |s|
    ensures forall k :: i <= k < i + n ==> IsPhoneChar(s[k])
    ensures n < bound && i + n < |s| ==> !IsPhoneChar(s[i + n])
    decreases bound
  {
    if bound == 0 || i == |s| || !IsPhoneChar(s[i]) then 0 else 1 + PhoneRun(s, i + 1, bound - 1)
  }

  /**
   * `/^[+]?[0-9\s\-\(\)]{9,15}$/` run as a backtracking matcher: take the optional
   * `+` when it is there, read a greedy run of at most 15 class characters, and
   * succeed when at least 9 were read and the text ends there; otherwise retry
   * without the optional `+`.
   */
  predicate MatchPhone(s: string) {
    || (s != [] && s[0] == '+' && var n := PhoneRun(s, 1, 15); 9 <= n && 1 + n == |s|)
    || (var n := PhoneRun(s, 0, 15); 9 <= n && n == |s|)
  }

  /** The meaning of the phone format: an optional `+`, then 9 to 15 phone characters. */
  predicate PhoneSpec(s: string) {
    PhoneBody(s) || (s != [] && s[0] == '+' && PhoneBody(s[1..]))
  }

  predicate PhoneBody(b: string) {
    9 <= |b| <= 15 && forall k :: 0 <= k < |b| ==> IsPhoneChar(b[k])
  }

  lemma PhoneRunAll(s: string, i: nat, bound: nat)
    requires i <= |s| && |s| - i <= bound
    requires forall k :: i <= k < |s| ==> IsPhoneChar(s[k])
    ensures PhoneRun(s, i, bound) == |s| - i
    decreases bound
  {
    if bound > 0 && i < |s| {
      PhoneRunAll(s, i + 1, bound - 1);
    }
  }

  /** The matcher accepts exactly the texts the format describes. */
  lemma MatchPhoneMeaning(s: string)
    ensures MatchPhone(s) <==> PhoneSpec(s)
  {
    if PhoneBody(s) {
      PhoneRunAll(s, 0, 15);
    }
    if s != [] && s[0] == '+' && PhoneBody(s[1..]) {
      assert forall k :: 1 <= k < |s| ==> s[k] == s[1..][k - 1];
      PhoneRunAll(s, 1, 15);
    }
    if s != [] && s[0] == '+' && var n := PhoneRun(s, 1, 15); 9 <= n && 1 + n == |s| {
      assert PhoneBody(s[1..]);
    }
  }

  /** A phone number has 9 to 16 characters and no letters. */
  lemma PhoneShape(s: string)
    requires MatchPhone(s)
    ensures 9 <= |s| <= 16
    ensures forall k :: 0 <= k < |s| ==> !('a' <= s[k] <= 'z' || 'A' <= s[k] <= 'Z')
  {
    var first := if s != [] && s[0] == '+' && var n := PhoneRun(s, 1, 15); 9 <= n && 1 + n == |s| then 1 else 0;
    var n := PhoneRun(s, first, 15);
    assert n + first == |s|;
    forall k | 0 <= k < |s|
      ensures !('a' <= s[k] <= 'z' || 'A' <= s[k] <= 'Z')
    {
      if k >= first {
        assert IsPhoneChar(s[k]);
      }
    }
  }

  // ------------------------------------------------------------------- time

  /** The part `:[0-5][0-9]$` of the time format, read from position i. */
  predicate MinuteTail(s: string, i: nat) {
    i + 3 == |s| && s[i] == ':' && '0' <= s[i + 1] <= '5' && IsDigit(s[i + 2])
  }

  /**
   * `/^([01]?[0-9]|2[0-3]):[0-5][0-9]$/` as its alternatives: `[01][0-9]` (the optional
   * digit taken), `[0-9]` (not taken), then `2[0-3]`.
   */
  predicate MatchTime(s: string) {
    || (|s| >= 2 && (s[0] == '0' || s[0] == '1') && IsDigit(s[1]) && MinuteTail(s, 2))
    || (|s| >= 1 && IsDigit(s[0]) && MinuteTail(s, 1))
    || (|s| >= 2 && s[0] == '2' && '0' <= s[1] <= '3' && MinuteTail(s, 2))
  }

  /** The meaning of the time format: H:MM or HH:MM with hour 0 to 23 and minute 00 to 59. */
  predicate TimeSpec(s: string) {
    && 4 <= |s| <= 5
    && s[|s| - 3] == ':'
    && AllDigits(s[..|s| - 3]) && AllDigits(s[|s| - 2..])
    && DigitsValue(s[..|s| - 3]) <= 23
    && DigitsValue(s[|s| - 2..]) <= 59
  }

  lemma TwoDigits(d: string)
    requires |d| == 2 && AllDigits(d)
    ensures DigitsValue(d) == 10 * DigitValue(d[0]) + DigitValue(d[1])
  {
    var h := d[..1];
    assert h[..0] == [];
    assert DigitsValue(h) == DigitValue(d[0]);
  }

  lemma OneDigit(d: string)
    requires |d| == 1 && AllDigits(d)
    ensures DigitsValue(d) == DigitValue(d[0])
  {
  }

  /** The regular expression accepts exactly the valid clock times. */
  lemma MatchTimeMeaning(s: string)
    ensures MatchTime(s) <==> TimeSpec(s)
  {
    if |s| >= 4 {
      var m := s[|s| - 2..];
      if AllDigits(m) {
        TwoDigits(m);
      }
      var h := s[..|s| - 3];
      if |h| == 2 && AllDigits(h) {
        TwoDigits(h);
      }
      if |h| == 1 && AllDigits(h) {
        OneDigit(h);
      }
    }
  }

  /** Two-digit, zero-padded text of a number below 100. */
  function Pad2(n: nat): (s: string)
    requires n < 100
    ensures |s| == 2 && AllDigits(s) && DigitsValue(s) == n
  {
    var s := [DigitChar(n / 10), DigitChar(n % 10)];
    TwoDigits(s);
    s
  }

  /** `HH:MM` of a clock time. */
  function FormatTime(hour: nat, minute: nat): string
    requires hour < 24 && minute < 60
  {
    Pad2(hour) + ":" + Pad2(minute)
  }

  /** Every clock time, written HH:MM, passes the time format and reads back to the same hour and minute. */
  lemma FormatTimeAccepted(hour: nat, minute: nat)
    requires hour < 24 && minute < 60
    ensures var s := FormatTime(hour, minute);
      MatchTime(s) && DigitsValue(s[..2]) == hour && DigitsValue(s[3..]) == minute
  {
    var s := FormatTime(hour, minute);
    assert s[..2] == Pad2(hour) && s[3..] == Pad2(minute);
    MatchTimeMeaning(s);
  }

  // ------------------------------------------------------------------- rate

  /** `/^€\d+\/h$/`: a euro sign, one or more digits, then `/h`. */
  predicate MatchRate(s: string) {
    |s| >= 4 && s[0] == '€' && s[|s| - 2..] == "/h" && AllDigits(s[1..|s| - 2])
  }

  /** The hourly amount a well-formed rate states. */
  function RateAmount(s: string): nat
    requires MatchRate(s)
  {
    DigitsValue(s[1..|s| - 2])
  }

  /** The rate text of an hourly amount, as the default profile rates are written. */
  function FormatRate(amount: nat): string {
    "€" + DecimalString(amount) + "/h"
  }

  /** Every amount, written as a rate, passes the format and reads back to itself. */
  lemma {:induction false} RateRoundTrip(amount: nat)
    ensures MatchRate(FormatRate(amount))
    ensures RateAmount(FormatRate(amount)) == amount
  {
    var s := FormatRate(amount);
    assert s[1..|s| - 2] == DecimalString(amount);
    DecimalRoundTrip(amount);
  }

  // --------------------------------------------------------------- rule sets

  /** `userRegistration` (lines 6-30); the e-mail syntax check is not modelled, only its presence. */
  predicate UserRegistration(b: RegisterBody) {
    && NotEmpty(b.name) && IsLengthInRange(Trim(b.name.value), 2, 100)
    && b.email.Some? && b.email.value != ""
    && b.password.Some? && VisibleLength(b.password.value) >= 6
    && NotEmpty(b.phone) && MatchPhone(Trim(b.phone.value))
    && b.age.Some? && IsIntInRange(b.age.value, 18, 100)
    && IsIn(b.userType, UserTypes)
  }

  /** `userLogin` (lines 32-40). */
  predicate UserLogin(b: LoginBody) {
    b.email.Some? && b.email.value != "" && NotEmpty(b.password)
  }

  /** `profileUpdate` (lines 43-85). */
  predicate ProfileUpdate(b: ProfileUpdateBody) {
    && (b.name.None? || IsLengthInRange(Trim(b.name.value), 2, 100))
    && (b.age.None? || IsIntInRange(b.age.value, 18, 100))
    && (b.location.None? || IsLengthInRange(Trim(b.location.value), 2, 100))
    && (b.description.None? || IsLengthInRange(Trim(b.description.value), 0, 2000))
    && (b.ethnicity.None? || b.ethnicity.value in Ethnicities)
    && (b.category.None? || b.category.value in Categories)
    && (b.rates.None? || b.rates.value.incall.None? || MatchRate(Trim(b.rates.value.incall.value)))
    && (b.rates.None? || b.rates.value.outcall.None? || MatchRate(Trim(b.rates.value.outcall.value)))
  }

  /** `sendMessage` (lines 88-100). */
  predicate SendMessage(b: MessageBody) {
    && b.receiverId.Some? && IsMongoId(b.receiverId.value)
    && b.profileId.Some? && IsMongoId(b.profileId.value)
    && NotEmpty(b.content) && IsLengthInRange(Trim(b.content.value), 1, 1000)
  }

  /** `createBooking` (lines 103-145); `now` is the server clock at validation time. */
  predicate CreateBooking(b: BookingBody, now: int) {
    && b.modelId.Some? && IsMongoId(b.modelId.value)
    && b.profileId.Some? && IsMongoId(b.profileId.value)
    && b.date.Some? && b.date.value > now
    && NotEmpty(b.time) && MatchTime(Trim(b.time.value))
    && b.duration.Some? && IsIntInRange(b.duration.value, 1, 24)
    && IsIn(b.serviceType, ServiceTypes)
    && b.services.Some? && |b.services.value| >= 1
    && NotEmpty(b.customerPhone) && MatchPhone(Trim(b.customerPhone.value))
    && b.pricing.Some?
    && b.pricing.value.hourlyRate.Some? && IsNumericText(b.pricing.value.hourlyRate.value)
    && b.pricing.value.totalAmount.Some? && IsNumericText(b.pricing.value.totalAmount.value)
  }

  /** `paginationQuery` (lines 148-157). */
  predicate PaginationQuery(q: PageQuery) {
    && OptionalOk(q.page, p => IsIntAtLeast(p, 1))
    && OptionalOk(q.limit, l => IsIntInRange(l, 1, 100))
  }

  /** `profileQuery` (lines 159-189). */
  predicate ProfileQueryRules(q: ProfileQuery) {
    && OptionalOk(q.minAge, a => IsIntAtLeast(a, 18))
    && OptionalOk(q.maxAge, a => IsIntInRange(a, 18, 100))
    && OptionalOk(q.category, c => c in Categories)
    && OptionalOk(q.sortBy, s => s in SortOptions)
    && OptionalOk(q.search, s => IsLengthInRange(Trim(s), 1, 100))
  }
}
